=== FILE: README.md ===
# qrun core, modelled in Dafny

qrun drives Android UI tests with a multimodal model. A test is written as a Robot
Framework script, or as YAML that is compiled to one. Its keywords (`AI Click`,
`AI Swipe`, `AI Assert`, ...) ask the model to pick the UI element a natural-language
description means, then act on it through uiautomator2 or Appium. This project models
the deterministic core of that pipeline:

- **Element location.** Two locators do this:
  - The hierarchy locator filters the UI dump by bounds, content and size. It numbers
    the survivors from 0, renders them as a textual listing, and resolves the model's
    answer with bounded retry.
  - The visual locator uses stricter filters: interactivity flags, the full-screen,
    minimum-size and off-screen tests. It numbers survivors from 1, draws
    set-of-mark labels, and resolves the answer by id lookup.
- **Action dispatch.** The planner validates an action record, performs it, and runs a
  plan fail-fast. The keyword library adds its own helpers:
  - the one-shot connection latch;
  - package resolution for `AI Open App`;
  - swipe geometry and `AI Scroll To`;
  - `AI Assert`;
  - timeout parsing.
- **Model-output handling.** This covers:
  - the JSON-extraction cascade;
  - code-fence removal in both generators;
  - test-name sanitising;
  - scenario-list parsing;
  - message content construction.
- **The YAML-to-Robot compiler**, with its balanced blocks and four-space indentation.
- **Configuration.** Dotted-key reads and writes over nested mappings, validation, and
  the upward search for `config.yaml`.
- **Small parsers and record builders.** These are:
  - `adb devices` parsing;
  - Robot `output.xml` tallying and the failure report;
  - the console summary counts and the run history;
  - test and script listing;
  - Appium capability merging.

The model service, the device, the clock and the file system are not modelled as
effects. Each becomes a parameter:

- The classifier is a function from the attempt number to the reply (`nat -> Reply`).
- Parsed JSON, YAML and XML are given as `Values.Value` trees or node lists.
- File existence and contents are predicates and functions on paths.
- Timestamps are strings.
- Unicode `\w` is a parameter predicate.
- `str()` of a container is a parameter `Spelling`.
- What the device reports (its `adb` output, the window size, whether a session opens) is
  given. The device's own actions (launching, stopping, swiping, key presses) are taken
  to succeed and are recorded as events.

Regular expressions are written out as scanning functions. `\d` and `int()` are
restricted to ASCII digits; Python's also accept other Unicode decimal digits, and
`int()` accepts `_` between digits. This is a modelling choice, and "## Left out" names
the members it affects. `\s` is Python's whitespace set.

Shared modules:

- `Wrappers` provides Option and Result.
- `Text` provides strip, split and join, find, digit parsing, whitespace words and ASCII
  lower-casing.
- `Values` covers loaded JSON and YAML values with Python truthiness, `dict.get` and
  `str()`.
- `Paths` provides `os.path.join`, basename and splitext.
- `Bounds` handles the `[x1,y1][x2,y2]` bounds attribute.
- `Numbering` provides generic contiguous numbering.
- `Locating` provides the integer readers and the retry loop shared by both locators.

The model follows the code where it departs from what its own text says:

- The hierarchy locator's prompt tells the model to answer `-1` when no element matches
  (src/llm/hierarchy_locator.py:187), as if that ended the search. But the `-1` answer
  raises inside the `try` of the retry loop (src/llm/hierarchy_locator.py:199). It is
  therefore caught and retried like any other failure, not reported at once.
- An unknown swipe direction in a planned action performs no swipe but still succeeds.
- The analyzer's `'Unknown'` fallback message is never used. Every recorded failure has
  a message (`Analyzer.FailuresHaveMessages`).
- A history file holding valid JSON that is not a list makes `run_test` fail with the
  message of the `AttributeError`. `run_test` does not start a fresh history.

## Model

| member | source | states |
|---|---|---|
| Bounds.ParseBounds | src/llm/hierarchy_locator.py:68-75 | exactly two `[a,b]` groups of unsigned digits give the rectangle, in order; any other count gives (0,0,0,0); no coordinate is negative |
| Bounds.ParseFormatted | src/llm/hierarchy_locator.py:68-75 | printing a non-negative rectangle as `[x1,y1][x2,y2]` and parsing it gives the rectangle back |
| Bounds.NoBracketNoPairs | src/llm/visual_locator.py:50-57 | text without `[` holds no pair, so it parses to the zero rectangle |
| Bounds.Center | src/llm/hierarchy_locator.py:27-31 | the centre is the floor midpoint of each axis |
| Bounds.CenterInside | src/llm/hierarchy_locator.py:27-31 | the centre of a well-formed rectangle lies inside it |
| HierarchyLocator.DisplayText | src/llm/hierarchy_locator.py:33-44 | text wins, then content-desc, then the last `/` segment of the resource id, then the short class name |
| HierarchyLocator.ShortClass | src/llm/hierarchy_locator.py:46-49 | the part of the class name after its last `.`, which holds no dot |
| HierarchyLocator.KeptNodes | src/llm/hierarchy_locator.py:100-109 | every node kept has bounds, content or clickability, and is wider and taller than 10 |
| HierarchyLocator.ParseNodes | src/llm/hierarchy_locator.py:87-124 | the kept elements are numbered contiguously from the start value, are meaningful and have non-negative bounds |
| HierarchyLocator.ParseNodesIsNumbered | src/llm/hierarchy_locator.py:87-124 | parsing equals the kept nodes numbered in document order |
| HierarchyLocator.ParseNodesNumbersKept | src/llm/hierarchy_locator.py:87-124 | element i is the i-th kept node, converted with index i |
| HierarchyLocator.ParseNodesStep | src/llm/hierarchy_locator.py:100-122 | a kept node takes the next index and a dropped one takes none |
| Numbering.NumberedAt | src/llm/hierarchy_locator.py:110-122 | the i-th numbered item is made from the i-th source item with number start+i |
| HierarchyLocator.ParseHierarchy | src/llm/hierarchy_locator.py:77-124 | unparseable XML gives no elements; otherwise `elements[i].index == i` and each is meaningful |
| HierarchyLocator.DumpAndParse | src/llm/hierarchy_locator.py:158-163 | an empty dump is an error; a dump that does not parse gives the empty list |
| HierarchyLocator.AttrParts | src/llm/hierarchy_locator.py:132-139 | there are no attribute parts exactly when text, description and id are all empty; text comes first |
| HierarchyLocator.StatusParts | src/llm/hierarchy_locator.py:141-149 | each status word appears exactly when its flag holds; "disabled" appears when the element is not enabled |
| HierarchyLocator.ElementLine | src/llm/hierarchy_locator.py:151-154 | each listing line starts with the element's `[index]` label |
| HierarchyLocator.ElementPromptLines | src/llm/hierarchy_locator.py:126-156 | the listing has one line per element, in list order |
| HierarchyLocator.LineNumberReadsBack | src/llm/hierarchy_locator.py:154-196 | the first signed integer in an element's line is its index |
| HierarchyLocator.LabelReadsBack | src/llm/hierarchy_locator.py:154-196 | any line starting with `[n]` reads back as n |
| HierarchyLocator.Judge | src/llm/hierarchy_locator.py:193-212 | a reply picks k iff its first `-?\d+` is k with 0 <= k < n; `-1` raises "not matched"; a failed call raises its own message; a reply with no number or an index out of range raises nothing and is silently retried |
| HierarchyLocator.Resolve | src/llm/hierarchy_locator.py:191-214 | at most `retry_count` calls; a success is the element named by the last reply, and every earlier reply was rejected; a failure re-raises the last attempt's "not matched" or classifier error, and is "cannot locate" when the last reply had no usable number or no attempt was made |
| Locating.Attempts | src/llm/hierarchy_locator.py:191-214 | bounded attempts: stop at the first pick; otherwise re-raise the last exception or report "cannot locate" |
| Locating.AttemptsSucceedIff | src/llm/hierarchy_locator.py:191-214 | the loop succeeds iff some attempt within the bound picks |
| Locating.AttemptsTakeFirstPick | src/llm/hierarchy_locator.py:191-202 | the first attempt that picks decides the result and the number of calls |
| Locating.FirstSignedInt | src/llm/hierarchy_locator.py:196 | there is no number exactly when the text has no digit |
| VisualLocator.FindElementAsWritten | src/llm/visual_locator.py:163-253 | as written, a missing capture fails with no call, and a success is the element whose id is the unsigned `(\d+)` reading of the last reply |
| HierarchyLocator.FindElement | src/llm/hierarchy_locator.py:165-214 | an empty dump or an empty element list fails without calling the classifier; otherwise resolution decides |
| HierarchyLocator.FindElementSucceedsIff | src/llm/hierarchy_locator.py:191-214 | find succeeds iff some reply within the retry bound names an index in range |
| HierarchyLocator.ElementText | src/llm/hierarchy_locator.py:324-334 | the element's text, or else its content-desc |
| HierarchyLocator.GetText | src/llm/hierarchy_locator.py:324-334 | the text of the element that was found; a failure to find is passed on |
| VisualLocator.MarkedNodes | src/llm/visual_locator.py:73-105 | every node kept is interactable or has text, is not full-screen, not under 20x20 and not off-screen |
| VisualLocator.ToElement | src/llm/visual_locator.py:107-115 | an element's bounds are the parsed attribute and its centre is their floor midpoint |
| VisualLocator.MarkNodes | src/llm/visual_locator.py:69-116 | ids are contiguous from the counter, and every element is at least 20x20 and on screen |
| VisualLocator.MarkNodesStep | src/llm/visual_locator.py:69-116 | a kept node takes the next id and a dropped one takes none |
| VisualLocator.MarkNodesIsNumbered | src/llm/visual_locator.py:69-116 | extraction equals the kept nodes numbered in document order |
| VisualLocator.InteractableElements | src/llm/visual_locator.py:59-118 | unparseable XML gives no elements; otherwise ids run 1..n |
| VisualLocator.InteractableElementsAreMarked | src/llm/visual_locator.py:59-118 | element i is the i-th kept node with id i+1 |
| VisualLocator.MarkColour | src/llm/visual_locator.py:135-136 | the colour is taken from the five-colour palette |
| VisualLocator.MarkColourCycle | src/llm/visual_locator.py:135-136 | colours repeat every five ids, and neighbouring ids differ |
| VisualLocator.LabelAnchor | src/llm/visual_locator.py:143-145 | the label is anchored at (x1, max(y1, 30)) |
| VisualLocator.MarkOf | src/llm/visual_locator.py:135-154 | the outline is the bounds in the id's colour; the label reads the id and is padded by 5 around the text |
| VisualLocator.DrawMarks | src/llm/visual_locator.py:132-154 | one mark per element, in order |
| VisualLocator.FindId | src/llm/visual_locator.py:241-243 | the first element with the given id, or none |
| VisualLocator.FindIdNumbered | src/llm/visual_locator.py:241-243 | with ids 1..n, id k is found at position k-1 iff 1 <= k <= n |
| VisualLocator.UnsignedReading | src/llm/visual_locator.py:234-236 | `(\d+)` reads the magnitude of the first signed integer |
| Locating.UnsignedIsMagnitude | src/llm/visual_locator.py:234-236 | the unsigned first number is the absolute value of the signed one |
| VisualLocator.JudgeId | src/llm/visual_locator.py:234-251 | a reply picks iff its number is not -1 and names an id; nothing is re-raised |
| VisualLocator.Resolve | src/llm/visual_locator.py:206-253 | at most `retry_count` calls; a success is the element whose id the last reply reads as; exhaustion always ends with "cannot locate"; every earlier reply was rejected |
| VisualLocator.ResolveSucceedsIff | src/llm/visual_locator.py:206-253 | the retry loop succeeds iff some attempt within `retry_count` picks an element |
| VisualLocator.FindElementWith | src/llm/visual_locator.py:163-253 | a missing screenshot or XML fails with no classifier call; otherwise the search runs over the marked interactable elements; a success is the element whose id is the positive number read off the last reply |
| VisualLocator.FindAmong | src/llm/visual_locator.py:178-253 | an empty element list fails with no classifier call; a success is the element whose id is the positive number read off the last reply |
| VisualLocator.ReadMinusOne | src/llm/visual_locator.py:234-236 | the reply "-1" reads as 1 under `(\d+)`, and as -1 under `-?\d+` |
| VisualLocator.MinusOneSelectsFirstAsWritten | src/llm/visual_locator.py:234-243 | as written, a first reply of "-1" selects element 1 |
| VisualLocator.FindElement | src/llm/visual_locator.py:163-253 | a success is the element whose id is the signed `-?\d+` reading of the last reply, and that reading is positive |
| VisualLocator.MinusOneNeverSelects | src/llm/visual_locator.py:234-243 | with the signed reading, "-1" replies never select an element |
| VisualLocator.FindElementSucceedsIff | src/llm/visual_locator.py:206-253 | find succeeds iff some reply within the bound names an id 1..n |
| VisualLocator.ElementText | src/llm/visual_locator.py:290-294 | the node's text, or else its content-desc |
| VisualLocator.GetText | src/llm/visual_locator.py:290-294 | for either reading of the reply, the text of the element that reading finds; a failure to find is passed on unchanged |
| VisualLocator.GetTextMinusOne | src/llm/visual_locator.py:234-243 | as written, a first reply of "-1" reads as id 1, so the text of the first element comes back after one call; the signed reading needs at least a second reply |
| QianwenClient.EncodeImage | src/llm/qianwen_client.py:29-39 | bytes are base64-encoded, a string is returned as it is, and any other type gives "" |
| QianwenClient.EncodePathIsEncodeBytes | src/llm/qianwen_client.py:31-35 | a path is encoded as the bytes read from it |
| QianwenClient.MessageContent | src/llm/qianwen_client.py:51-66 | there is an image item first iff an image path is given, then exactly one text item |
| QianwenClient.Generate | src/llm/qianwen_client.py:41-76 | a missing library is an error; a non-200 status raises; otherwise the reply text |
| QianwenClient.ImageContent | src/llm/qianwen_client.py:85-93 | the data-URL image item, then the prompt |
| QianwenClient.AnalyzeImage | src/llm/qianwen_client.py:78-103 | the same call shape and status handling as `generate`, with the image inlined |
| QianwenClient.AnalyzeBytesAsText | src/llm/qianwen_client.py:83-93 | analysing raw bytes is the same request as analysing their base64 text |
| QianwenClient.Candidates | src/llm/qianwen_client.py:108-137 | four candidate texts, the first being the whole response |
| QianwenClient.FenceBody | src/llm/qianwen_client.py:116 | the body of the first fenced block is stripped and holds no fence |
| QianwenClient.FenceBodyOfFenced | src/llm/qianwen_client.py:116 | a fenced block (optionally tagged `json`) yields its stripped body |
| QianwenClient.Span | src/llm/qianwen_client.py:124-132 | none iff no opener precedes a closer; otherwise the slice from the first opener to the last closer, which starts with the opener and ends with the closer |
| QianwenClient.SpanBounds | src/llm/qianwen_client.py:124-132 | a span exists iff some opener precedes some closer |
| QianwenClient.SpanOfWrapped | src/llm/qianwen_client.py:124-132 | prose with no opener before and no closer after yields exactly the embedded span |
| QianwenClient.Snippet | src/llm/qianwen_client.py:139 | a prefix of the reply: all of it up to 200 characters, otherwise exactly the first 200 |
| QianwenClient.ParseJsonResponse | src/llm/qianwen_client.py:105-139 | success iff some stage parses; the first stage that parses wins; failure quotes the snippet |
| QianwenClient.DirectParseWins | src/llm/qianwen_client.py:108-112 | a response that is valid JSON is returned as parsed |
| QianwenClient.FencedReplyParses | src/llm/qianwen_client.py:114-121 | a fenced JSON reply parses to its body |
| QianwenClient.ObjectInProseParses | src/llm/qianwen_client.py:123-129 | an object embedded in prose parses to the object |
| ActionPlanner.OperationNamed | src/llm/action_planner.py:70-139 | an operation is recognised only from its own name |
| ActionPlanner.NameFindsOperation | src/llm/action_planner.py:70-139 | every operation's name dispatches to it |
| ActionPlanner.ExecuteAction | src/llm/action_planner.py:60-139 | invalid exactly when the type is unknown or a required field is missing, with no device action; otherwise at most one request |
| ActionPlanner.Perform | src/llm/action_planner.py:72-136 | open, close, back and home perform launch, stop, back and home and return True; click, input and wait make one locator request with the step's target, text (default '') and condition and timeout (default 30); it fails only by a raised or failed verification |
| ActionPlanner.ExecuteActionDispatch | src/llm/action_planner.py:70-136 | for each accepted `action` name, the one event performed; click, input and wait return what the locator returns and raise what it raises |
| ActionPlanner.ExecuteActionDefaults | src/llm/action_planner.py:86-99 | an `input` step without `text` types the empty text, and a `wait` step without `timeout` waits 30 seconds |
| ActionPlanner.Request | src/llm/action_planner.py:81-99 | a request to the locator is one event; its result is the locator's value, or the locator's error raised on |
| ActionPlanner.SwipeFor | src/llm/action_planner.py:110-126 | the four directions move 600 px through the window centre along one axis; any other direction performs no swipe |
| ActionPlanner.SwipeOpposite | src/llm/action_planner.py:110-126 | up and down, and left and right, are each other's reverse strokes |
| ActionPlanner.VerifyPassesIff | src/llm/action_planner.py:101-108 | verify passes iff the verdict says `passed`; otherwise it fails with the reason, or else the condition |
| ActionPlanner.DeviceActionsSucceed | src/llm/action_planner.py:72-79 | back, home and swipe (with or without a direction) always succeed |
| ActionPlanner.RunStep | src/llm/action_planner.py:155-162 | a step that is not a mapping fails with no device action |
| ActionPlanner.ExecuteSteps | src/llm/action_planner.py:155-170 | an empty plan succeeds with no events; success is `True` |
| ActionPlanner.ExecuteStepsOkIff | src/llm/action_planner.py:155-170 | the plan succeeds iff every step succeeds |
| ActionPlanner.ExecuteStepsAppend | src/llm/action_planner.py:155-166 | running a+b after a succeeds is running a then b, with the events concatenated |
| ActionPlanner.ExecuteStepsStopsAt | src/llm/action_planner.py:155-166 | the first failing step's error is the plan's, and only its events and those before it occur |
| ActionPlanner.LaterStepsIgnored | src/llm/action_planner.py:155-166 | steps after a failure are never run |
| ActionPlanner.PlanSteps | src/llm/action_planner.py:155 | a non-empty plan is the planned list itself; the only failures are a non-mapping step and a non-iterable plan |
| ActionPlanner.Execute | src/llm/action_planner.py:141-170 | a planning failure propagates; otherwise the steps run fail-fast |
| TestLibrary.EnsureConnected | src/robot_lib/AITestLibrary.py:67-74 | once connected nothing is attempted; otherwise one attempt, which latches on success and raises on failure |
| TestLibrary.ConnectedStaysConnected | src/robot_lib/AITestLibrary.py:64-74 | a connected library stays connected and every keyword passes the latch |
| TestLibrary.ConnectLatches | src/robot_lib/AITestLibrary.py:64-74 | connect is attempted until the first success and never after it |
| TestLibrary.ParseTimeoutWithUnit | src/robot_lib/AITestLibrary.py:400-409 | "Ns" reads as N and "Nm" as 60·N, in either letter case |
| TestLibrary.ParseTimeoutBare | src/robot_lib/AITestLibrary.py:400-409 | a bare integer reads as itself |
| TestLibrary.ParseTimeoutNeedsDigit | src/robot_lib/AITestLibrary.py:400-409 | text without a digit is rejected |
| TestLibrary.ParseLoweredOfUnit | src/robot_lib/AITestLibrary.py:404-409 | the unit suffix is cut before the integer is read |
| TestLibrary.ParseTimeout | src/robot_lib/AITestLibrary.py:400-409 | a timeout is read only from text holding a digit, and a minute reading is a whole number of minutes in seconds |
| TestLibrary.ResolvePackage | src/robot_lib/AITestLibrary.py:114-127 | an exact key wins, then a dotted name as given, then the first resembling entry; no name gives the default |
| TestLibrary.ExactEntry | src/robot_lib/AITestLibrary.py:114-117 | the first table entry whose key is the name, or none if no key is |
| TestLibrary.ResemblingEntry | src/robot_lib/AITestLibrary.py:123-127 | the first entry whose key contains the name or is contained in it, or none |
| TestLibrary.ResolveTakesFirstResembling | src/robot_lib/AITestLibrary.py:123-127 | with no exact key and no dot, the first entry either of whose strings contains the other is used |
| TestLibrary.OpenApp | src/robot_lib/AITestLibrary.py:97-133 | fails only when connecting fails; launches the resolved package, or the default app |
| TestLibrary.OpenAppByKey | src/robot_lib/AITestLibrary.py:115-117 | a table key maps to its package |
| TestLibrary.OpenAppByPackage | src/robot_lib/AITestLibrary.py:118-121 | a dotted name is used as the package |
| TestLibrary.OpenAppByPart | src/robot_lib/AITestLibrary.py:123-127 | part of a key finds that key's package |
| TestLibrary.Swipe | src/robot_lib/AITestLibrary.py:199-227 | an unknown direction raises with no swipe; otherwise a stroke of distance//2 each side of the screen centre along the direction's axis, with its midpoint at the centre |
| TestLibrary.SwipeOpposites | src/robot_lib/AITestLibrary.py:218-225 | for any distance, the down stroke is the up stroke reversed and the right stroke the left one reversed |
| TestLibrary.PlannerSwipeIsKeywordSwipe | src/robot_lib/AITestLibrary.py:215-225 | the planner's swipe is the keyword's swipe with distance 600 |
| TestLibrary.ScrollStroke | src/robot_lib/AITestLibrary.py:199-225 | the stroke of `ai_swipe('up')` with the default distance 500: from 250 below the screen centre to 250 above it |
| TestLibrary.ScrollToAsWritten | src/robot_lib/AITestLibrary.py:246-256 | as written, for every search outcome, max_scrolls searches and as many upward strokes, and then the "not found" error |
| TestLibrary.FoundFlag | src/robot_lib/AITestLibrary.py:249 | `.get('found', False)` yields a flag only on a mapping, where it is the truthiness of `found`; on the element object it raises |
| TestLibrary.ScrollToAsWrittenNeverReturns | src/robot_lib/AITestLibrary.py:246-256 | as written, an element visible from the start still gives max_scrolls swipes and an error |
| TestLibrary.ScrollFrom | src/robot_lib/AITestLibrary.py:246-256 | it stops at the first round that finds the element, after one stroke per earlier round, each stroke being the given one |
| TestLibrary.ScrollTo | src/robot_lib/AITestLibrary.py:246-256 | it succeeds iff some round within max_scrolls finds the element; a failure is as written; every stroke is the upward scroll stroke |
| TestLibrary.ScrollFromAgree | src/robot_lib/AITestLibrary.py:246-256 | scrolling depends only on which rounds find the element |
| TestLibrary.ScrollToReadsFound | src/robot_lib/AITestLibrary.py:246-256 | the intended keyword is the written loop over a search that returns `{'found': True}` on success |
| TestLibrary.ScrollToFindsAtOnce | src/robot_lib/AITestLibrary.py:246-256 | an element visible from the start is found with no swipe |
| TestLibrary.Assert | src/robot_lib/AITestLibrary.py:258-280 | it raises iff `passed` is falsy, quoting the reason or else the expected state |
| TestLibrary.AssertAgreesWithVerify | src/robot_lib/AITestLibrary.py:276-280 | the keyword and the planner's verify action agree on pass and fail |
| YamlConverter.Indent | src/core/yaml_converter.py:39 | indentation is exactly four spaces per level |
| YamlConverter.ScalarArgWrapped | src/core/yaml_converter.py:45-49 | a scalar argument is the same as a one-element list |
| YamlConverter.ConvertSteps | src/core/yaml_converter.py:36-94 | the line count is one per action, 2 plus the body for loop and while, 3 plus both bodies for try; every line is indented at least to the level; a null, boolean or number is not iterable |
| YamlConverter.ConvertItems | src/core/yaml_converter.py:41-94 | the items' lines follow each other, with the counts above |
| YamlConverter.ConvertBody | src/core/yaml_converter.py:67-88 | the body has the line count of its `steps` (none when missing), each line indented to the level; it never fails with a YAML error |
| YamlConverter.ConvertStep | src/core/yaml_converter.py:43-92 | the first of action, loop, try, while decides; a mapping with none gives nothing; an action is one line |
| YamlConverter.ConvertMapping | src/core/yaml_converter.py:43-92 | the block has the line count of its shape and every line is indented to the level |
| YamlConverter.LoopFramesBody | src/core/yaml_converter.py:65-92 | loop and while give the opener, the body one level deeper, and END at the same indentation |
| YamlConverter.TryFramesBodies | src/core/yaml_converter.py:74-83 | TRY, body, EXCEPT, optional except body, END |
| YamlConverter.Convert | src/core/yaml_converter.py:8-21 | a parse error or a non-mapping root raises ValueError with its message, and no other input raises ValueError |
| YamlConverter.BuildScriptShape | src/core/yaml_converter.py:23-34 | the fixed header, the name, then the step lines |
| YamlConverter.BuildScript | src/core/yaml_converter.py:23-34 | the script's lines are the four header lines, the test name, then the step lines |
| YamlConverter.HeaderJoined | src/core/yaml_converter.py:23-34 | the header lines joined by newlines are the fixed settings and test-case preamble |
| YamlConverter.ConvertDefaults | src/core/yaml_converter.py:18-19 | the name defaults to "Test Case" and the steps to none |
| ConfigManager.Load | src/core/config_manager.py:43-48 | a missing file is `{}`; a YAML error is raised with its message; a truthy document is kept as loaded; a falsy one never survives, since the result is always a mapping or truthy |
| ConfigManager.LookupAppend | src/core/config_manager.py:55-66 | walking a path in two parts is walking the first part, then the second |
| ConfigManager.Setting | src/core/config_manager.py:55-66 | a key without a dot reads the top-level entry, or the default when it is missing |
| ConfigManager.SetPath | src/core/config_manager.py:68-78 | a write keeps the existing keys and adds the first segment; it raises at a non-mapping |
| ConfigManager.Assign | src/core/config_manager.py:68-78 | a write into a non-mapping fails; a successful write keeps every top-level key and adds the key's first segment |
| ConfigManager.SetPathOkIff | src/core/config_manager.py:68-78 | `set` succeeds iff every proper prefix of the path is missing or a mapping |
| ConfigManager.SetThenLookup | src/core/config_manager.py:55-78 | after a write the path holds the value written |
| ConfigManager.SetLeavesOthers | src/core/config_manager.py:68-78 | every path that parts from the written one reads as before |
| ConfigManager.AssignThenSetting | src/core/config_manager.py:55-78 | `get(k)` after `set(k, v)` is v |
| ConfigManager.AssignSucceeds | src/core/config_manager.py:68-78 | every write through mappings or missing keys succeeds |
| ConfigManager.Complaints | src/core/config_manager.py:85-97 | one complaint per falsy required setting; valid iff there is none |
| ConfigManager.Validate | src/core/config_manager.py:85-97 | one complaint each for a missing or falsy `qianwen.api_key` and `app.package`; valid iff there is none |
| ConfigManager.ValidateReadsApiKey | src/core/config_manager.py:89-91 | the API-key complaint appears iff `qianwen` → `api_key` is missing or falsy |
| ConfigManager.SearchUp | src/core/config_manager.py:34-38 | the nearest ancestor holding the file, or none |
| ConfigManager.FindConfigFile | src/core/config_manager.py:25-41 | cwd first, then the nearest ancestor, else the cwd path |
| ConfigManager.FindConfigFileNearest | src/core/config_manager.py:25-41 | no directory between the chosen one and cwd holds the file |
| Analyzer.Iter | src/llm/analyzer.py:37 | only elements with the tag are visited |
| Analyzer.Find | src/llm/analyzer.py:39 | the earliest child with the tag; none exactly when no child has it |
| Analyzer.InfoOf | src/llm/analyzer.py:37-81 | a test is recorded iff it has a status child; it has a message iff its status is not PASS |
| Analyzer.FirstFailed | src/llm/analyzer.py:59-77 | none iff no keyword has FAIL status; otherwise the description of the earliest failing keyword |
| Analyzer.ArgTexts | src/llm/analyzer.py:67-70 | only non-empty argument texts are kept |
| Analyzer.ParseOutputXml | src/llm/analyzer.py:15-83 | the tests in document order; failures are the non-PASS ones; total = passed + failed = the number of tests |
| Analyzer.Collect | src/llm/analyzer.py:37-81 | the single pass records every test with a status and keeps the counts in step |
| Analyzer.Add | src/llm/analyzer.py:41-81 | one test updates total, passed or failed, and the failure list consistently |
| Analyzer.InfosAppend | src/llm/analyzer.py:37-81 | the records of two runs of tests are concatenated |
| Analyzer.FailingAppend | src/llm/analyzer.py:50-79 | failures distribute over concatenation |
| Analyzer.FailingCount | src/llm/analyzer.py:50-79 | failed plus passed equals the number of tests |
| Analyzer.RecordStep | src/llm/analyzer.py:41-81 | adding one test appends it to the failures iff it did not pass, and adds one to passed iff it did |
| Analyzer.CountPassedAppend | src/llm/analyzer.py:41-81 | the pass count of two runs of tests is the sum of their counts |
| Analyzer.SummaryCounts | src/llm/analyzer.py:42-81 | the counts agree with the lists |
| Analyzer.FailuresHaveMessages | src/llm/analyzer.py:56-57 | every recorded failure has a message, so the `'Unknown'` fallback is never used |
| Analyzer.InfosFromTests | src/llm/analyzer.py:45-57 | a record has a message iff its status is not PASS |
| Analyzer.Detail | src/llm/analyzer.py:110-117 | each failure detail starts with the test name |
| Analyzer.Details | src/llm/analyzer.py:108-117 | one detail per failure, in order |
| Analyzer.Stats | src/llm/analyzer.py:100-103 | the statistics split into the title line and one line per count: total, passed, failed |
| Analyzer.Prompt | src/llm/analyzer.py:121-137 | the prompt opens with the role and the counts heading, and ends with the failure text followed by the three requests |
| Analyzer.Analyze | src/llm/analyzer.py:85-153 | with no failure, the statistics and the all-passed note are reported without calling the model; otherwise the model is asked, and the report starts with the statistics |
| Analyzer.Answered | src/llm/analyzer.py:139-151 | a failed model call is passed on; otherwise the report starts with the statistics followed by the failure heading and the failure text, and ends with the analysis heading followed by the model's answer |
| TestGenerator.OpeningFence | src/llm/test_generator.py:107 | a leading fence with its tag and newline is consumed iff the text starts with a fence |
| TestGenerator.CleanCode | src/llm/test_generator.py:104-117 | the result is stripped, and it starts with `***` whenever the de-fenced text contains `***` |
| TestGenerator.FencedCodeCleans | src/llm/test_generator.py:104-117 | a fenced script starting with `***` cleans to the script |
| TestGenerator.BareCodeUnchanged | src/llm/test_generator.py:104-117 | a bare stripped script is unchanged |
| TestGenerator.KeepOnly | src/llm/test_generator.py:123 | only word characters, CJK ideographs and whitespace are kept |
| TestGenerator.Collapse | src/llm/test_generator.py:127 | runs of whitespace are collapsed, so no whitespace is left and the text never grows |
| TestGenerator.CollapseKept | src/llm/test_generator.py:123-127 | collapsing kept text leaves only kept characters and underscores |
| TestGenerator.CollapseJoin | src/llm/test_generator.py:127 | words without whitespace joined by spaces collapse to the same words joined by underscores |
| TestGenerator.Trimmed | src/llm/test_generator.py:123-125 | the filtered, stripped description is at most 20 kept characters |
| TestGenerator.ExtractTestName | src/llm/test_generator.py:119-128 | the name is non-empty, at most 20 characters, has no whitespace, and is "test_case" or made of kept characters and `_` |
| TestGenerator.SpacedWordsJoinedByUnderscore | src/llm/test_generator.py:119-128 | plain words separated by spaces come back joined by `_` |
| TestGenerator.GenerateTest | src/llm/test_generator.py:72-102 | the content is the cleaned reply; the line count is the newline count + 1; the default file is `tests/<name>.robot` |
| TestGenerator.Numbering | src/llm/test_generator.py:162 | the length of a leading numbering: it starts with a digit and is followed by a non-space |
| TestGenerator.Scenario | src/llm/test_generator.py:158-164 | a kept scenario line is stripped and non-empty |
| TestGenerator.Scenarios | src/llm/test_generator.py:157-164 | scenarios are non-empty stripped lines, in order |
| TestGenerator.SuggestScenarios | src/llm/test_generator.py:157-166 | at most one scenario per line of the stripped reply, each non-empty and stripped; an empty reply gives none |
| TestGenerator.PlainScenariosRoundTrip | src/llm/test_generator.py:157-166 | plain scenarios joined by newlines parse back to themselves |
| TestGenerator.PlainScenarios | src/llm/test_generator.py:157-164 | lines that are already plain scenarios are kept as they are |
| TestGenerator.NumberedScenario | src/llm/test_generator.py:162 | a numbered line loses only its numbering |
| TestGenerator.NumberingOf | src/llm/test_generator.py:162 | the numbering prefix of `N. text` is the digits, the mark and one space |
| ScriptGenerator.Unfence | src/llm/script_generator.py:102 | one pass leaves no fence behind |
| ScriptGenerator.UnfenceIdle | src/llm/script_generator.py:103 | without a fence, a pass changes nothing |
| ScriptGenerator.SecondPassIdle | src/llm/script_generator.py:102-103 | the second substitution never finds anything |
| ScriptGenerator.CleanScriptWith | src/llm/script_generator.py:99-110 | the result is stripped and fence-free, and it starts with `*** Settings ***` whenever that occurs |
| ScriptGenerator.SettingsStart | src/llm/script_generator.py:106-108 | the cut is at the first `*** Settings ***`, or nothing is cut |
| ScriptGenerator.CleanScriptAsWritten | src/llm/script_generator.py:99-110 | as written, the result is stripped and fence-free |
| ScriptGenerator.FrameworkTagLeftBehind | src/llm/script_generator.py:102 | as written, a `robotframework` fence leaves "framework" at the top |
| ScriptGenerator.UnfenceAsWritten | src/llm/script_generator.py:102 | as written, unfencing a `robotframework` block yields "framework", a newline, then the body |
| ScriptGenerator.CleanScript | src/llm/script_generator.py:99-110 | as intended, stripped, fence-free and starting at the settings header |
| ScriptGenerator.FrameworkTagRemoved | src/llm/script_generator.py:102 | as intended, a `robotframework` fence goes away whole |
| ScriptGenerator.FencedScriptCleans | src/llm/script_generator.py:99-110 | a fenced script with any of the three tags cleans to the script |
| ScriptGenerator.DropForbidden | src/llm/script_generator.py:124 | none of the nine characters Windows forbids in file names survives, and text without them is untouched |
| ScriptGenerator.ExtractName | src/llm/script_generator.py:112-130 | the text before the first colon (full-width first) or else the first 20 characters, without forbidden characters and stripped; the timestamp fallback exactly when that is empty |
| ScriptGenerator.NameBeforeFullWidthColon | src/llm/script_generator.py:115-116 | the name before a full-width colon is taken |
| ScriptGenerator.FullWidthColonFirst | src/llm/script_generator.py:115-118 | the full-width colon takes precedence over an ASCII colon |
| ScriptGenerator.SourceBeforeFullWidthColon | src/llm/script_generator.py:115-116 | the text before the first full-width colon is the name source |
| ScriptGenerator.SavePath | src/llm/script_generator.py:147-148 | scripts are saved with the `.robot` suffix |
| ScriptGenerator.RobotNames | src/llm/script_generator.py:162-164 | every `.robot` entry gives its stem, and every stem comes from such an entry |
| ScriptGenerator.ListScripts | src/llm/script_generator.py:156-165 | every `.robot` entry is listed without its suffix, and only those |
| ScriptGenerator.SavedScriptListed | src/llm/script_generator.py:132-165 | a saved script is listed under the name it was saved with |
| TestManager.OutputDirOfScript | src/core/test_manager.py:28-31 | the default is `results/<stem>/<timestamp>` |
| TestManager.OutputDir | src/core/test_manager.py:26-31 | a given directory is used as it is; the default directory's last component is the timestamp |
| Paths.PathJoin | src/core/test_manager.py:31 | the result ends with the second part; an absolute second part replaces the first; otherwise the first part, at most one `/`, then the second, and the `/` is there whenever the first part is non-empty and does not end with one |
| Paths.Basename | src/core/test_manager.py:29 | the last component: a suffix of the path with no `/`, preceded by a `/` when it is not the whole path |
| TestManager.RobotPath | src/core/test_manager.py:36-44 | a script that is not YAML is run as it is |
| TestManager.RobotPathOfYaml | src/core/test_manager.py:37-44 | a `.yaml` or `.yml` script becomes the same stem with `.robot` |
| TestManager.CountsOf | src/core/test_manager.py:66-76 | non-zero counts come from a line that mentions both words and matches; with no such line the counts are 0/0 |
| TestManager.CountsOfFirstMatch | src/core/test_manager.py:68-76 | the first matching line decides |
| TestManager.FirstFrom | src/core/test_manager.py:72 | the first position from which the word completes a match; none exactly when no position does |
| TestManager.RunMessageParsesBack | src/core/test_manager.py:72-94 | the message "P passed, F failed" parses back to (P, F) |
| TestManager.SummaryLineCounts | src/core/test_manager.py:70-75 | Robot's "N tests, P passed, F failed" line gives (P, F) |
| TestManager.SaveHistory | src/core/test_manager.py:115-137 | the new record goes after all earlier ones; a non-list history fails |
| TestManager.RunTest | src/core/test_manager.py:16-113 | success iff the return code is 0; a timeout or exception gives 0/0 and no history, and an exception's message is passed on; a completed run writes history iff the old history is absent or a list, and then reports `<output_dir>/report.html` and writes to the script's history file; a non-list history fails with the `AttributeError` message |
| TestManager.RunRecordsHistory | src/core/test_manager.py:78-87 | a completed run writes the earlier records followed by its own record |
| TestManager.HistoryFileOfScript | src/core/test_manager.py:115-119 | the history of `<dir>/<name>.<ext>` is kept in `results/<name>/history.json` |
| TestManager.RunReportAgrees | src/core/test_manager.py:89-96 | the reported message parses back to the reported counts |
| TestManager.ScriptContent | src/core/test_manager.py:152-166 | content exists iff `tests/<name>.yaml` or `tests/<name>.robot` exists; the `.yaml` file is read when it exists, else the `.robot` file |
| TestManager.TestName | src/core/test_manager.py:174-178 | an entry has a name iff it ends in `.robot` or `.yaml`, and the name is the entry without that suffix |
| TestManager.ListTests | src/core/test_manager.py:168-179 | a name is listed iff some entry has it |
| TestManager.TestNames | src/core/test_manager.py:174-178 | a name is collected iff some entry is named by it |
| TestManager.YmlNotListed | src/core/test_manager.py:174-178 | `.yml` files are not listed |
| TestManager.ListedTestHasContent | src/core/test_manager.py:152-179 | a test file in the directory is listed under its name, and that name finds content |
| DeviceManager.DeviceOf | src/core/device_manager.py:33-39 | a row is a device iff it mentions "device" and has at least two words |
| DeviceManager.RowDevice | src/core/device_manager.py:35-39 | a candidate row with at least two words is the device (first word, second word) |
| DeviceManager.DeviceOfRow | src/core/device_manager.py:33-39 | the row printed for a listed device reads back as that device |
| DeviceManager.DevicesOfRows | src/core/device_manager.py:32-41 | the rows printed for listed devices read back as those devices |
| DeviceManager.DevicesOf | src/core/device_manager.py:32-41 | each device comes from some row, and every row that reads as a device contributes it |
| DeviceManager.DevicesOfAppend | src/core/device_manager.py:32-41 | the devices of two runs of rows are those of the first run followed by those of the second |
| DeviceManager.ConnectedDevices | src/core/device_manager.py:27-41 | the devices' udid and status are single words |
| DeviceManager.ListingRoundTrip | src/core/device_manager.py:27-41 | reading back the listing of listed devices gives those devices |
| DeviceManager.EmptyListing | src/core/device_manager.py:32 | the header alone lists no device |
| DeviceManager.IsDeviceReady | src/core/device_manager.py:43-46 | ready iff some device's status is "device" |
| DeviceManager.DeviceUdid | src/core/device_manager.py:48-54 | the udid of the first ready device, or none |
| DeviceManager.ReadyIffUdid | src/core/device_manager.py:43-54 | ready iff there is a udid |
| DeviceManager.UdidTruthyIffReady | src/core/device_manager.py:94-95 | a udid read from adb is non-empty |
| DeviceManager.Start | src/core/device_manager.py:56-99 | already ready gives True with no launch; a missing player gives False; otherwise it launches and boots |
| DeviceManager.BootedFrom | src/core/device_manager.py:80-86 | the boot loop succeeds iff some poll sees a ready device |
| DeviceManager.Stop | src/core/device_manager.py:101-116 | always True with the process cleared; `emu kill` is sent iff a device is ready |
| AppiumManager.Own | src/core/appium_manager.py:40-58 | the base capabilities; the udid only when truthy; package and activity only when configured |
| AppiumManager.Put | src/core/appium_manager.py:48-58 | a conditional insert: the key is set iff asked, and every other key is kept |
| AppiumManager.OwnOfUdid | src/core/appium_manager.py:40-58 | with only a udid, the capabilities are the base plus the udid |
| AppiumManager.BuildCapabilities | src/core/appium_manager.py:34-64 | the extras override every earlier key, the base keys survive otherwise, and a non-mapping extra fails |
| AppiumManager.BareCapabilities | src/core/appium_manager.py:34-64 | with nothing configured, the base plus the udid |
| AppiumManager.EmptyConfig | src/core/appium_manager.py:51-60 | an empty configuration has no extras, no package and no activity |
| AppiumManager.ExtraRead | src/core/appium_manager.py:60 | the extras are the `appium.capabilities` setting, defaulting to an empty mapping |
| AppiumManager.PackageRead | src/core/appium_manager.py:51 | the package is the `app.package` setting |
| AppiumManager.ActivityRead | src/core/appium_manager.py:52 | the activity is the `app.activity` setting |
| AppiumManager.ReadyDeviceRequested | src/core/appium_manager.py:38-49 | the session asks for the udid of the ready device |
| AppiumManager.Connect | src/core/appium_manager.py:66-106 | a missing library raises; a live driver is kept; with no device ready it returns False; a non-mapping `extra_capabilities` raises exactly when a device is ready; otherwise the result is whether the session opened |
| AppiumManager.StaleIsDropped | src/core/appium_manager.py:71-77 | a stale driver is treated as no driver |
| AppiumManager.WindowSize | src/core/appium_manager.py:152-159 | the driver's size, or 1080 x 1920 by default |

## Left out

- Network calls to the model service are left out: `MultiModalConversation.call` is a
  parameter, and its status and text are given.
- `plan_actions` is left out: the prompt goes to the model and the plan it returns is a
  parameter of `ActionPlanner.Execute`.
- JSON, YAML and XML parsing libraries are left out. Their results are given as `Value`
  trees, node lists or `Element` trees, and a parse failure is an `Option`/`Result`.
- Pixel drawing, the font, PNG encoding, base64 and the debug-image save in
  `_draw_marks` are left out. Only the colour, outline and label-anchor arithmetic is
  modelled. Text size is a parameter.
- The 0.95 screen-coverage test is stated in integers as `20*w >= 19*sw`. It differs from
  Python's float comparison only at float-rounding edges.
- Wall-clock loops and sleeps are left out: `wait_for_condition` in both locators,
  `AI Wait For`, `AI Sleep`, the 0.5 s retry pauses and the boot-loop timeout. The boot
  loop is a sequence of polls, not a clock.
- `verify_state` and `query_data` of both locators, and `AI Query`, are left out. They
  only build a prompt and return the model's JSON unchanged.
- `click_element` and `input_text` of both locators, including the clipboard and adb
  input fallback, are left out. They tap the centre of the element found, which is
  device I/O.
- `AI Click`, `AI Input`, `AI Get Text`, `AI Do`, `AI Close App`, `AI Back`, `AI Home`
  and `AI Screenshot` are left out. Each passes the connection latch (modelled) and
  forwards to a locator, the planner or the device.
- The `keywords` count of `TestGenerator.generate` is left out. Its `\bAI\s+\w+` needs
  Unicode word boundaries, and it feeds nothing else.
- `generate` and `generate_test` file writes, `mkdir`, `convert_file` and `save` writes,
  and config `save` are left out: these are file system effects. `save` is modelled only
  by the path it writes to.
- The Robot command line, its 300-second timeout and `report.html` are left out. The run
  is a parameter that completes with a return code and output, times out or raises.
- `TestManager.get_history` is left out: it reads a file and returns it.
- `DeviceManager.restart`, `get_status`, `take_screenshot` and `get_screenshot_bytes`
  are left out. They are compositions of modelled calls, or device I/O.
- The Appium `disconnect`, `driver`, `tap`, `swipe`, screenshot and page-source calls are
  left out, along with the singleton and src/core/u2_manager.py. These are thin device
  wrappers.
- `AppiumManager.BuildCapabilities`: any extra capabilities that are not a mapping are
  reported as a failure, so `AppiumManager.Connect` raises. Python's `dict.update` also
  accepts an iterable of key/value pairs: a list of pairs merges them, and an empty
  string or an empty list (`capabilities: ''` or `capabilities: []`) changes nothing and
  succeeds. The model gives `Err(Str(""))` or `Err(List([]))` for those.
- `TestGenerator.ExtractTestName`: the result is stated as non-empty, short, free of
  whitespace and made of kept characters. The exact name is proved only for words
  separated by single spaces (`TestGenerator.SpacedWordsJoinedByUnderscore`).
- `Analyzer.ArgTexts`: only non-emptiness and the bound are stated. The order of the
  argument texts is not stated.
- `Analyzer.Detail`: only the test-name prefix is stated. The keyword and message lines
  are not.
- `YamlConverter.ConvertSteps`: a non-list `steps` value is iterated as Python iterates
  it. Strings and mappings are handled as the code would handle them, and anything else
  is a `TypeError`. `str()` of a list or a mapping is a parameter.
- `TestManager.RunTest`: the YAML conversion runs outside the `try` and is not modelled
  (a `.yaml` path is only renamed). The timestamp of the history record is a parameter,
  separate from the directory stamp, because the code reads the clock twice.
- `Bounds.ParseBounds`: only ASCII digits are digits. Python's `\[(\d+),(\d+)\]` also
  matches other Unicode decimal digits (src/llm/hierarchy_locator.py:70,
  src/llm/visual_locator.py:52), so "[０,０][９,９]" is a rectangle in the program and the
  zero rectangle here.
- `TestManager.CountsOf`: only ASCII digits are read. Python's `(\d+)` also matches other
  Unicode decimal digits, so the line "٣ passed, 0 failed" gives (3, 0) in the program and
  (0, 0) here.
- `TestManager.FirstFrom`: the digit runs it matches are ASCII only, for the same reason
  as `TestManager.CountsOf`.
- `Locating.FirstSignedInt`: only ASCII digits are digits. Python's `\d` also matches
  other Unicode decimal digits, so a reply such as "元素５" reads as 5 in the program and
  as no number here.
- `VisualLocator.UnsignedReading`: only ASCII digits are digits, where Python's `(\d+)`
  also matches other Unicode decimal digits.
- `TestGenerator.Numbering`: only ASCII digits are stripped as numbering. Python's `\d`
  would also strip a full-width numbering such as "１.".
- `TestLibrary.ParseTimeout`: only ASCII digits are read. Python's `int()` also reads
  other Unicode decimal digits and `_` between digits, so "1_0s" is 10 seconds in the
  program and a failure here.
- `Values.Value`: a loaded value is null, a boolean, an integer, a string, a list or a
  string-keyed mapping. YAML and JSON floats (such as `args: 0.5` or `timeout: 2.5`) and
  mappings with non-string keys are not represented.
- `ActionPlanner.Perform`: the uiautomator2 calls (`launch_app`, `stop_app`,
  `get_window_size`, `swipe`, `press_back`, `press_home`) are taken to return. An
  exception raised by the device would leave `execute_action` and is not modelled, so
  only a locator request can make a step fail.
- `ActionPlanner.DeviceActionsSucceed`: back, home and swipe succeed because the device
  calls are taken to return, as for `ActionPlanner.Perform`.
- `Paths.PathJoin`: paths are POSIX strings joined with `/`. On Windows, which the
  program's defaults target, `os.path` is `ntpath`, which joins with `\`.
- `Paths.Basename`: only `/` separates path components. On Windows `\` does too.

## Findings

| source | as written | input that shows it | evidently intended | confidence | as-written member | corrected member |
|---|---|---|---|---|---|---|
| src/llm/visual_locator.py:234-243 | the id is read with `(\d+)`, so a reply of `-1` reads as 1 and the `-1` branch is dead | the classifier answers `-1` ("no match") on a screen with at least one element | `-1` means no match: the attempt is retried and never selects an element | not executed | VisualLocator.MinusOneSelectsFirstAsWritten | VisualLocator.MinusOneNeverSelects |
| src/robot_lib/AITestLibrary.py:246-256 | `result.get('found')` on the located element raises `AttributeError`, which the bare `except` swallows, so the loop never returns | an element that is visible from the start, with `max_scrolls` = 5 | return as soon as the element is located, swiping only before that | not executed | TestLibrary.ScrollToAsWrittenNeverReturns | TestLibrary.ScrollToFindsAtOnce |
| src/llm/script_generator.py:102 | the optional tag group tries the alternative `robot` before `robotframework`, so a ```` ```robotframework ```` fence leaves `framework` in the script | a reply that is a `robotframework`-tagged fenced block | the whole tag goes with its fence | not executed | ScriptGenerator.FrameworkTagLeftBehind | ScriptGenerator.FrameworkTagRemoved |


=== FILE: action_planner.dfy ===
/** The natural-language action executor: a planned step is a JSON object whose
    `action` names one of nine operations; the executor checks the fields the
    operation needs, then drives the device or the visual locator, and a plan is
    executed step by step until the first step that raises. */
module ActionPlanner {
  import opened Wrappers
  import opened Values

  /** What the executor asks of the device and of the locator, in order. */
  datatype Event =
    | LaunchApp
    | StopApp
    | Click(target: Value)
    | InputText(text: Value, target: Value)
    | WaitFor(condition: Value, timeout: Value)
    | VerifyState(condition: Value)
    | Swipe(x1: int, y1: int, x2: int, y2: int)
    | PressBack
    | PressHome

  /** The requests that go to the locator, which may raise. */
  predicate IsRequest(e: Event) {
    e.Click? || e.InputText? || e.WaitFor? || e.VerifyState?
  }

  /** The locator's answer to the request made while running step `step`: the value
      it returned, or the message of the exception it raised. */
  type Locator = (nat, Event) -> Result<Value, string>

  datatype ActionError =
    | InvalidAction(message: string)       // ValueError raised by the executor
    | VerificationFailed(message: string)  // AssertionError raised by `verify`
    | Raised(message: string)              // raised below the executor and passed on
    | NotAMapping                          // a step without `.get`
    | NotIterable                          // a plan that cannot be iterated

  datatype Outcome = Outcome(result: Result<Value, ActionError>, events: seq<Event>)

  /** Half the length of a swipe stroke, in pixels. */
  const Reach := 300
  const DefaultWaitTimeout := 30

  /** The operations the executor knows. */
  datatype Operation =
    | OpenAppStep | CloseAppStep | ClickStep | InputStep | WaitStep | VerifyStep
    | SwipeStep | BackStep | HomeStep

  /** The name an operation is written with in a step's `action` field. */
  function Name(op: Operation): string {
    match op
    case OpenAppStep => "open_app"
    case CloseAppStep => "close_app"
    case ClickStep => "click"
    case InputStep => "input"
    case WaitStep => "wait"
    case VerifyStep => "verify"
    case SwipeStep => "swipe"
    case BackStep => "back"
    case HomeStep => "home"
  }

  /** The operation a step's `action` value names, if the executor knows it. */
  function OperationOf(kind: Value): Option<Operation> {
    if kind == Str("open_app") then Some(OpenAppStep)
    else if kind == Str("close_app") then Some(CloseAppStep)
    else if kind == Str("click") then Some(ClickStep)
    else if kind == Str("input") then Some(InputStep)
    else if kind == Str("wait") then Some(WaitStep)
    else if kind == Str("verify") then Some(VerifyStep)
    else if kind == Str("swipe") then Some(SwipeStep)
    else if kind == Str("back") then Some(BackStep)
    else if kind == Str("home") then Some(HomeStep)
    else None
  }

  /** Only an operation's own name names it. */
  lemma OperationNamed(kind: Value, op: Operation)
    requires OperationOf(kind) == Some(op)
    ensures kind == Str(Name(op))
  {
  }

  /** Every operation is found again under its name. */
  lemma NameFindsOperation(op: Operation)
    ensures OperationOf(Str(Name(op))) == Some(op)
  {
    match op
    case OpenAppStep =>
    case CloseAppStep => assert "close_app"[0] == 'c';
    case ClickStep => assert "click"[1] == 'l';
    case InputStep => assert "input"[0] == 'i';
    case WaitStep => assert "wait"[0] == 'w';
    case VerifyStep => assert "verify"[0] == 'v';
    case SwipeStep => assert "swipe"[0] == 's';
    case BackStep => assert "back"[0] == 'b';
    case HomeStep => assert "home"[0] == 'h';
  }

  /** The field an operation cannot do without. */
  function Required(op: Operation): Option<string> {
    match op
    case ClickStep | InputStep => Some("target")
    case WaitStep | VerifyStep => Some("condition")
    case _ => None
  }

  function Kind(action: map<string, Value>): Value {
    Get(action, "action", Null)
  }

  /** A step the executor accepts: a known operation whose required field is truthy. */
  predicate WellFormed(action: map<string, Value>) {
    var op := OperationOf(Kind(action));
    && op.Some?
    && (Required(op.value).Some? ==> Truthy(Get(action, Required(op.value).value, Null)))
  }

  /** The stroke for a swipe direction, centred on the window's floor midpoint;
      other directions give no stroke. */
  function SwipeFor(direction: Value, width: int, height: int): (r: Option<Event>)
    ensures r.Some? <==> direction in {Str("up"), Str("down"), Str("left"), Str("right")}
    ensures r.Some? ==> r.value.Swipe?
    ensures r.Some? ==> 2 * (r.value.x1 + r.value.x2) <= 2 * width < 2 * (r.value.x1 + r.value.x2) + 4
    ensures r.Some? ==> 2 * (r.value.y1 + r.value.y2) <= 2 * height < 2 * (r.value.y1 + r.value.y2) + 4
    ensures direction == Str("up") ==> r.value.x1 == r.value.x2 && r.value.y1 - r.value.y2 == 2 * Reach
    ensures direction == Str("down") ==> r.value.x1 == r.value.x2 && r.value.y2 - r.value.y1 == 2 * Reach
    ensures direction == Str("left") ==> r.value.y1 == r.value.y2 && r.value.x1 - r.value.x2 == 2 * Reach
    ensures direction == Str("right") ==> r.value.y1 == r.value.y2 && r.value.x2 - r.value.x1 == 2 * Reach
  {
    var cx, cy := width / 2, height / 2;
    if direction == Str("up") then Some(Swipe(cx, cy + Reach, cx, cy - Reach))
    else if direction == Str("down") then Some(Swipe(cx, cy - Reach, cx, cy + Reach))
    else if direction == Str("left") then Some(Swipe(cx + Reach, cy, cx - Reach, cy))
    else if direction == Str("right") then Some(Swipe(cx - Reach, cy, cx + Reach, cy))
    else None
  }

  /** Opposite directions trace the same stroke backwards. */
  lemma SwipeOpposite(width: int, height: int)
    ensures var up, down := SwipeFor(Str("up"), width, height).value, SwipeFor(Str("down"), width, height).value;
            up == Swipe(down.x2, down.y2, down.x1, down.y1)
    ensures var left, right := SwipeFor(Str("left"), width, height).value, SwipeFor(Str("right"), width, height).value;
            left == Swipe(right.x2, right.y2, right.x1, right.y1)
  {
  }

  /** A request passed to the locator: its value, or what it raised. */
  function Request(step: nat, e: Event, locate: Locator): (r: Outcome)
    ensures r.events == [e]
    ensures r.result.Ok? <==> locate(step, e).Ok?
    ensures locate(step, e).Ok? ==> r.result == Ok(locate(step, e).value)
    ensures locate(step, e).Err? ==> r.result == Err(Raised(locate(step, e).error))
  {
    match locate(step, e)
    case Ok(v) => Outcome(Ok(v), [e])
    case Err(m) => Outcome(Err(Raised(m)), [e])
  }

  /** The message of the AssertionError: the reply's `reason`, or the condition. */
  function VerifyMessage(reply: map<string, Value>, condition: Value, spell: Spelling): string {
    "验证失败: " + Show(Get(reply, "reason", condition), spell)
  }

  /** `execute_action`: validate the step, then perform its one event. */
  function ExecuteAction(step: nat, action: map<string, Value>, locate: Locator, width: int, height: int, spell: Spelling): (r: Outcome)
    ensures r.result.Err? && r.result.error.InvalidAction? <==> !WellFormed(action)
    ensures !WellFormed(action) ==> r.events == []
    ensures |r.events| <= 1
    ensures r.result.Err? && !r.result.error.InvalidAction? ==> |r.events| == 1 && IsRequest(r.events[0])
    ensures r.result.Err? ==> r.result.error.InvalidAction? || r.result.error.Raised? || r.result.error.VerificationFailed?
  {
    match OperationOf(Kind(action))
    case None => Outcome(Err(InvalidAction("未知的操作类型: " + Show(Kind(action), spell))), [])
    case Some(op) =>
      if Required(op).Some? && !Truthy(Get(action, Required(op).value, Null)) then
        Outcome(Err(InvalidAction(Name(op) + " 操作需要 " + Required(op).value)), [])
      else Perform(step, op, action, locate, width, height, spell)
  }

  /** The one event of a well-formed step, and what it came to. */
  function Perform(step: nat, op: Operation, action: map<string, Value>, locate: Locator, width: int, height: int, spell: Spelling): (r: Outcome)
    ensures |r.events| <= 1
    ensures r.result.Err? ==> |r.events| == 1 && IsRequest(r.events[0])
    ensures r.result.Err? ==> r.result.error.Raised? || r.result.error.VerificationFailed?
    ensures op == OpenAppStep ==> r == Outcome(Ok(Bool(true)), [LaunchApp])
    ensures op == CloseAppStep ==> r == Outcome(Ok(Bool(true)), [StopApp])
    ensures op == BackStep ==> r == Outcome(Ok(Bool(true)), [PressBack])
    ensures op == HomeStep ==> r == Outcome(Ok(Bool(true)), [PressHome])
    ensures op == ClickStep ==> r == Request(step, Click(Get(action, "target", Null)), locate)
    ensures op == InputStep ==> r == Request(step, InputText(Get(action, "text", Str("")), Get(action, "target", Null)), locate)
    ensures op == WaitStep ==>
              r == Request(step, WaitFor(Get(action, "condition", Null), Get(action, "timeout", Int(DefaultWaitTimeout))), locate)
    ensures op == VerifyStep ==> r.events == [VerifyState(Get(action, "condition", Null))]
    ensures op == SwipeStep ==> r.result == Ok(Bool(true))
  {
    match op
    case OpenAppStep => Outcome(Ok(Bool(true)), [LaunchApp])
    case CloseAppStep => Outcome(Ok(Bool(true)), [StopApp])
    case ClickStep => Request(step, Click(Get(action, "target", Null)), locate)
    case InputStep => Request(step, InputText(Get(action, "text", Str("")), Get(action, "target", Null)), locate)
    case WaitStep =>
      Request(step, WaitFor(Get(action, "condition", Null), Get(action, "timeout", Int(DefaultWaitTimeout))), locate)
    case VerifyStep =>
      var condition := Get(action, "condition", Null);
      var e := VerifyState(condition);
      (match locate(step, e)
       case Err(m) => Outcome(Err(Raised(m)), [e])
       case Ok(reply) =>
         if !reply.Dict? then Outcome(Err(Raised("AttributeError")), [e])
         else if !Truthy(Get(reply.fields, "passed", Bool(false))) then
           Outcome(Err(VerificationFailed(VerifyMessage(reply.fields, condition, spell))), [e])
         else Outcome(Ok(Bool(true)), [e]))
    case SwipeStep =>
      (match SwipeFor(Get(action, "direction", Str("up")), width, height)
       case Some(s) => Outcome(Ok(Bool(true)), [s])
       case None => Outcome(Ok(Bool(true)), []))
    case BackStep => Outcome(Ok(Bool(true)), [PressBack])
    case HomeStep => Outcome(Ok(Bool(true)), [PressHome])
  }

  /** A `verify` step passes exactly when the locator answers with a mapping whose
      `passed` is truthy; otherwise the failure carries the reason, or the condition. */
  lemma VerifyPassesIff(step: nat, action: map<string, Value>, locate: Locator, width: int, height: int, spell: Spelling)
    requires Kind(action) == Str("verify") && WellFormed(action)
    ensures var condition := Get(action, "condition", Null);
            var reply := locate(step, VerifyState(condition));
            var r := ExecuteAction(step, action, locate, width, height, spell);
            && (r.result.Ok? <==> reply.Ok? && reply.value.Dict? && Truthy(Get(reply.value.fields, "passed", Bool(false))))
            && (reply.Ok? && reply.value.Dict? && !Truthy(Get(reply.value.fields, "passed", Bool(false))) ==>
                  r.result == Err(VerificationFailed(VerifyMessage(reply.value.fields, condition, spell))))
  {
  }

  /** Operations that neither need a field nor consult the locator always succeed with
      their one device event; a swipe in an unknown direction does nothing and succeeds. */
  lemma DeviceActionsSucceed(step: nat, action: map<string, Value>, locate: Locator, width: int, height: int, spell: Spelling)
    requires OperationOf(Kind(action)).Some? && Required(OperationOf(Kind(action)).value).None?
    ensures var r := ExecuteAction(step, action, locate, width, height, spell);
            && r.result == Ok(Bool(true))
            && (Kind(action) == Str("swipe") ==> r.events == (match SwipeFor(Get(action, "direction", Str("up")), width, height)
                                                                case Some(s) => [s]
                                                                case None => []))
  {
  }

  /** What each accepted step does, by the name in its `action` field: the device
      operations perform their one event and return `True`; `click`, `input` and `wait`
      make their one request and return what the locator returns, or raise what it
      raises. */
  lemma ExecuteActionDispatch(step: nat, action: map<string, Value>, locate: Locator, width: int, height: int, spell: Spelling)
    requires WellFormed(action)
    ensures var r := ExecuteAction(step, action, locate, width, height, spell);
            && (Kind(action) == Str("open_app") ==> r == Outcome(Ok(Bool(true)), [LaunchApp]))
            && (Kind(action) == Str("close_app") ==> r == Outcome(Ok(Bool(true)), [StopApp]))
            && (Kind(action) == Str("back") ==> r == Outcome(Ok(Bool(true)), [PressBack]))
            && (Kind(action) == Str("home") ==> r == Outcome(Ok(Bool(true)), [PressHome]))
    ensures var r := ExecuteAction(step, action, locate, width, height, spell);
            var target := Get(action, "target", Null);
            && (Kind(action) == Str("click") ==> r.events == [Click(target)])
            && (Kind(action) == Str("input") ==> r.events == [InputText(Get(action, "text", Str("")), target)])
            && (Kind(action) == Str("wait") ==>
                  r.events == [WaitFor(Get(action, "condition", Null), Get(action, "timeout", Int(DefaultWaitTimeout)))])
            && (Kind(action) == Str("verify") ==> r.events == [VerifyState(Get(action, "condition", Null))])
    ensures var r := ExecuteAction(step, action, locate, width, height, spell);
            Kind(action) in {Str("click"), Str("input"), Str("wait")} ==>
              && (locate(step, r.events[0]).Ok? ==> r.result == Ok(locate(step, r.events[0]).value))
              && (locate(step, r.events[0]).Err? ==> r.result == Err(Raised(locate(step, r.events[0]).error)))
  {
    var op := OperationOf(Kind(action)).value;
    OperationNamed(Kind(action), op);
    NameFindsOperation(op);
  }

  /** The defaults the executor fills in: `input` types the empty text and `wait`
      waits 30 seconds when the step does not say otherwise. */
  lemma ExecuteActionDefaults(step: nat, action: map<string, Value>, locate: Locator, width: int, height: int, spell: Spelling)
    requires WellFormed(action)
    ensures var r := ExecuteAction(step, action, locate, width, height, spell);
            Kind(action) == Str("input") && "text" !in action ==>
              r.events == [InputText(Str(""), action["target"])]
    ensures var r := ExecuteAction(step, action, locate, width, height, spell);
            Kind(action) == Str("wait") && "timeout" !in action ==>
              r.events == [WaitFor(action["condition"], Int(30))]
  {
    ExecuteActionDispatch(step, action, locate, width, height, spell);
  }

  // ---------------------------------------------------------------------------
  // Executing a plan

  /** One step of the plan: only mappings can be asked for their `action`. */
  function RunStep(step: Value, index: nat, locate: Locator, width: int, height: int, spell: Spelling): (r: Outcome)
    ensures !step.Dict? ==> r == Outcome(Err(NotAMapping), [])
    ensures step.Dict? ==> r == ExecuteAction(index, step.fields, locate, width, height, spell)
  {
    if step.Dict? then ExecuteAction(index, step.fields, locate, width, height, spell)
    else Outcome(Err(NotAMapping), [])
  }

  /** How one step is run, given the step and its position in the plan. */
  type Runner = (Value, nat) -> Outcome

  function Steps(locate: Locator, width: int, height: int, spell: Spelling): Runner {
    (step: Value, index: nat) => RunStep(step, index, locate, width, height, spell)
  }

  predicate StepSucceeds(run: Runner, steps: seq<Value>, first: nat, i: nat)
    requires i < |steps|
  {
    run(steps[i], first + i).result.Ok?
  }

  /** The events of the first `n` steps, one after the other. */
  function Trace(run: Runner, steps: seq<Value>, first: nat, n: nat): seq<Event>
    requires n <= |steps|
  {
    if n == 0 then [] else run(steps[0], first).events + Trace(run, steps[1..], first + 1, n - 1)
  }

  /** The loop of `execute`: steps in order, the first exception passed on, `True` after all. */
  function ExecuteSteps(run: Runner, steps: seq<Value>, first: nat): (r: Outcome)
    decreases |steps|
    ensures r.result.Ok? ==> r.result.value == Bool(true)
    ensures steps == [] ==> r == Outcome(Ok(Bool(true)), [])
  {
    if |steps| == 0 then Outcome(Ok(Bool(true)), [])
    else
      var o := run(steps[0], first);
      if o.result.Err? then o
      else
        var rest := ExecuteSteps(run, steps[1..], first + 1);
        Outcome(rest.result, o.events + rest.events)
  }

  /** A plan succeeds exactly when every step does, and then it has performed every
      step's events in order. */
  lemma {:induction false} ExecuteStepsOkIff(run: Runner, steps: seq<Value>, first: nat)
    ensures var r := ExecuteSteps(run, steps, first);
            && (r.result.Ok? <==> forall i :: 0 <= i < |steps| ==> StepSucceeds(run, steps, first, i))
            && (r.result.Ok? ==> r.events == Trace(run, steps, first, |steps|))
    decreases |steps|
  {
    if |steps| > 0 {
      var o := run(steps[0], first);
      assert StepSucceeds(run, steps, first, 0) == o.result.Ok?;
      if o.result.Ok? {
        var tail, next := steps[1..], first + 1;
        ExecuteStepsOkIff(run, tail, next);
        forall j | 0 <= j < |tail|
          ensures StepSucceeds(run, tail, next, j) == StepSucceeds(run, steps, first, j + 1)
        {
          assert tail[j] == steps[j + 1];
        }
        forall i | 1 <= i < |steps|
          ensures StepSucceeds(run, steps, first, i) == StepSucceeds(run, tail, next, i - 1)
        {
          assert tail[i - 1] == steps[i];
        }
      }
    }
  }

  /** After a plan that succeeds, the next part runs as if alone, numbered after it. */
  lemma {:induction false} ExecuteStepsAppend(run: Runner, a: seq<Value>, b: seq<Value>, first: nat)
    requires ExecuteSteps(run, a, first).result.Ok?
    ensures var ra, rb := ExecuteSteps(run, a, first), ExecuteSteps(run, b, first + |a|);
            ExecuteSteps(run, a + b, first) == Outcome(rb.result, ra.events + rb.events)
    decreases |a|
  {
    if |a| == 0 {
      assert a + b == b;
    } else {
      var all := a + b;
      assert all[0] == a[0];
      assert all[1..] == a[1..] + b;
      ExecuteStepsAppend(run, a[1..], b, first + 1);
    }
  }

  /** The first failing step ends the plan: its error is the plan's error, and the
      events are those of the steps before it followed by its own. */
  lemma ExecuteStepsStopsAt(run: Runner, steps: seq<Value>, first: nat, i: nat)
    requires i < |steps|
    requires forall j :: 0 <= j < i ==> StepSucceeds(run, steps, first, j)
    requires !StepSucceeds(run, steps, first, i)
    ensures var r, o := ExecuteSteps(run, steps, first), run(steps[i], first + i);
            && r.result == o.result
            && r.events == Trace(run, steps[..i], first, i) + o.events
  {
    var before, after := steps[..i], steps[i..];
    forall j | 0 <= j < |before|
      ensures StepSucceeds(run, before, first, j)
    {
      assert before[j] == steps[j];
      assert StepSucceeds(run, steps, first, j);
    }
    ExecuteStepsOkIff(run, before, first);
    ExecuteStepsAppend(run, before, after, first);
    assert after[0] == steps[i];
    assert steps == before + after;
  }

  /** Whatever follows a failing plan is never run. */
  lemma {:induction false} LaterStepsIgnored(run: Runner, steps: seq<Value>, more: seq<Value>, first: nat)
    requires ExecuteSteps(run, steps, first).result.Err?
    ensures ExecuteSteps(run, steps + more, first) == ExecuteSteps(run, steps, first)
    decreases |steps|
  {
    assert |steps| > 0;
    var all := steps + more;
    assert all[0] == steps[0];
    if run(steps[0], first).result.Ok? {
      assert all[1..] == steps[1..] + more;
      LaterStepsIgnored(run, steps[1..], more, first + 1);
    }
  }

  /** What a plan iterates over: a list's items; an empty string or mapping yields no
      step, a non-empty one yields steps without `.get`; scalars cannot be iterated. */
  function PlanSteps(plan: Value): (r: Result<seq<Value>, ActionError>)
    ensures r.Err? ==> r.error == NotAMapping || r.error == NotIterable
    ensures r.Ok? && r.value != [] ==> plan.List? && r.value == plan.items
  {
    match plan
    case List(xs) => Ok(xs)
    case Dict(m) => if m == map[] then Ok([]) else Err(NotAMapping)
    case Str(s) => if s == "" then Ok([]) else Err(NotAMapping)
    case _ => Err(NotIterable)
  }

  /** `execute`: the plan the model produced (or what generating or parsing it raised),
      run step by step. */
  function Execute(plan: Result<Value, string>, locate: Locator, width: int, height: int, spell: Spelling): (r: Outcome)
    ensures plan.Err? ==> r == Outcome(Err(Raised(plan.error)), [])
    ensures plan.Ok? && plan.value.List? ==> r == ExecuteSteps(Steps(locate, width, height, spell), plan.value.items, 0)
    ensures r.result.Ok? ==> r.result.value == Bool(true)
  {
    match plan
    case Err(m) => Outcome(Err(Raised(m)), [])
    case Ok(v) =>
      match PlanSteps(v)
      case Err(e) => Outcome(Err(e), [])
      case Ok(steps) => ExecuteSteps(Steps(locate, width, height, spell), steps, 0)
  }
}

=== FILE: ai_test_library.dfy ===
/** The Robot Framework keyword library's own logic: the connection latch every
    keyword goes through, timeout strings, app-name resolution, swipe strokes,
    scrolling to an element and the state assertion. */
module TestLibrary {
  import opened Wrappers
  import opened Text
  import opened Values
  import ActionPlanner

  datatype LibraryError =
    | CannotConnect                       // "无法连接设备"
    | UnknownDirection(message: string)   // ValueError from a swipe
    | NotFoundAfterScrolling(message: string)
    | AssertionFailed(message: string)
    | Raised(message: string)             // raised below the library and passed on

  // ---------------------------------------------------------------------------
  // The connection latch

  /** Whether the library has connected, and how often it has asked the device to. */
  datatype Connection = Connection(connected: bool, attempts: nat)

  /** `_ensure_connected`: connect once; `answer` is what connecting would report. */
  function EnsureConnected(c: Connection, answer: bool): (r: (Result<(), LibraryError>, Connection))
    ensures c.connected ==> r == (Ok(()), c)
    ensures !c.connected ==> r.1.attempts == c.attempts + 1
    ensures r.0.Ok? <==> r.1.connected
    ensures !c.connected ==> (r.0.Ok? <==> answer)
    ensures r.0.Err? ==> r.0.error == CannotConnect
  {
    if c.connected then (Ok(()), c)
    else if answer then (Ok(()), Connection(true, c.attempts + 1))
    else (Err(CannotConnect), Connection(false, c.attempts + 1))
  }

  /** A run of keywords, each going through the latch with the device's answer if asked. */
  function Keywords(c: Connection, answers: seq<bool>): (r: (seq<Result<(), LibraryError>>, Connection))
    ensures |r.0| == |answers|
    decreases |answers|
  {
    if |answers| == 0 then ([], c)
    else
      var (first, c1) := EnsureConnected(c, answers[0]);
      var (rest, c2) := Keywords(c1, answers[1..]);
      ([first] + rest, c2)
  }

  /** The index of the first successful connect among the answers, if any. */
  function FirstTrue(answers: seq<bool>): (r: Option<nat>)
    ensures r.Some? ==> r.value < |answers| && answers[r.value] && forall j :: 0 <= j < r.value ==> !answers[j]
    ensures r.None? ==> forall j :: 0 <= j < |answers| ==> !answers[j]
  {
    if |answers| == 0 then None
    else if answers[0] then Some(0)
    else match FirstTrue(answers[1..])
      case Some(k) => Some(k + 1)
      case None => None
  }

  /** Once connected, the latch never asks again and every keyword gets through. */
  lemma {:induction false} ConnectedStaysConnected(c: Connection, answers: seq<bool>)
    requires c.connected
    ensures Keywords(c, answers).1 == c
    ensures forall i :: 0 <= i < |answers| ==> Keywords(c, answers).0[i] == Ok(())
    decreases |answers|
  {
    if |answers| > 0 {
      ConnectedStaysConnected(c, answers[1..]);
    }
  }

  /** From a fresh library, keywords fail until the first successful connect; from
      then on they succeed, and the device was asked exactly up to that point. */
  lemma {:induction false} ConnectLatches(c: Connection, answers: seq<bool>)
    requires !c.connected
    ensures var (results, last) := Keywords(c, answers);
            match FirstTrue(answers)
            case None =>
              && !last.connected && last.attempts == c.attempts + |answers|
              && forall i :: 0 <= i < |answers| ==> results[i] == Err(CannotConnect)
            case Some(k) =>
              && last.connected && last.attempts == c.attempts + k + 1
              && (forall i :: 0 <= i < k ==> results[i] == Err(CannotConnect))
              && (forall i :: k <= i < |answers| ==> results[i] == Ok(()))
    decreases |answers|
  {
    if |answers| > 0 {
      var (first, c1) := EnsureConnected(c, answers[0]);
      var rest := Keywords(c1, answers[1..]);
      assert Keywords(c, answers) == ([first] + rest.0, rest.1);
      if answers[0] {
        ConnectedStaysConnected(c1, answers[1..]);
      } else {
        ConnectLatches(c1, answers[1..]);
      }
    }
  }

  // ---------------------------------------------------------------------------
  // Timeout strings

  /** `_parse_timeout`: trimmed and lower-cased, then "<n>s" is n seconds, "<n>m" is n
      minutes and a bare "<n>" is n seconds; `None` stands for the ValueError of `int`. */
  function ParseTimeout(t: string): (r: Option<int>)
    ensures r.Some? ==> !NoDigit(t)
    ensures r.Some? && EndsWith(Lower(Strip(t)), "m") ==> r.value % 60 == 0
  {
    NoDigitNoTimeout(t);
    ParseLowered(Lower(Strip(t)))
  }

  /** Neither the trim nor the lower-casing creates a digit, and every reading needs one. */
  lemma NoDigitNoTimeout(t: string)
    ensures NoDigit(t) ==> ParseLowered(Lower(Strip(t))) == None
  {
    if NoDigit(t) {
      StripNoDigit(t);
      LowerNoDigit(Strip(t));
      ParseLoweredNeedsDigit(Lower(Strip(t)));
    }
  }

  /** The reading of the trimmed, lower-cased timeout. */
  function ParseLowered(s: string): (r: Option<int>)
    ensures r.Some? && EndsWith(s, "m") ==> r.value % 60 == 0
  {
    if EndsWith(s, "s") then
      OneUnit(s);
      ParseInt(s[..|s| - 1])
    else if EndsWith(s, "m") then
      match ParseInt(s[..|s| - 1])
      case Some(n) => WholeMinutes(n); Some(n * 60)
      case None => None
    else ParseInt(s)
  }

  /** A text ends in at most one of the two unit letters. */
  lemma OneUnit(s: string)
    requires EndsWith(s, "s")
    ensures !EndsWith(s, "m")
  {
    assert s[|s| - 1..][0] == 's';
  }

  lemma WholeMinutes(n: int)
    ensures (n * 60) % 60 == 0
  {
  }

  /** How `str` prints an integer: an optional minus sign, then digits. */
  lemma IntToStringShape(n: int)
    ensures var d := IntToString(n);
            && !IsSpace(d[0]) && IsDigit(d[|d| - 1])
            && forall i :: 0 <= i < |d| ==> IsDigit(d[i]) || d[i] == '-'
  {
    var d := IntToString(n);
    if n < 0 {
      var m := NatToString(-n);
      assert d == "-" + m;
      forall i | 1 <= i < |d|
        ensures IsDigit(d[i])
      {
        assert d[i] == m[i - 1];
      }
    }
  }

  /** The number as `str` prints it, followed by a unit letter, is laid out as the
      parse expects: nothing to strip, nothing to lower-case but the unit. */
  lemma UnitShape(n: int, unit: char)
    requires unit in "sSmM"
    ensures Lower(Strip(IntToString(n) + [unit])) == IntToString(n) + [LowerChar(unit)]
  {
    var d := IntToString(n);
    IntToStringShape(n);
    var t := d + [unit];
    assert t[0] == d[0] && t[|t| - 1] == unit;
    assert IsStripped(t);
    StripOfStripped(t);
    var l := Lower(t);
    var want := d + [LowerChar(unit)];
    forall i | 0 <= i < |t|
      ensures l[i] == want[i]
    {
      if i < |d| {
        assert t[i] == d[i];
      }
    }
    assert l == want;
  }

  /** After trimming and lower-casing, a trailing unit letter selects the reading. */
  lemma ParseLoweredOfUnit(d: string, unit: char)
    requires unit in "sm"
    ensures unit == 's' ==> ParseLowered(d + [unit]) == ParseInt(d)
    ensures unit == 'm' ==> ParseLowered(d + [unit]) == (if ParseInt(d).Some? then Some(ParseInt(d).value * 60) else None)
  {
    var s := d + [unit];
    assert s[..|s| - 1] == d;
    assert s[|s| - 1..] == [unit];
  }

  /** The unit letters lower-case to "s" or "m". */
  lemma LowerUnit(unit: char)
    requires unit in "sSmM"
    ensures LowerChar(unit) in "sm" && (LowerChar(unit) == 's' <==> unit in "sS")
  {
  }

  /** Every timeout the keyword documents reads back: "<n>s" and "<n>S" are n,
      "<n>m" and "<n>M" are 60·n. */
  lemma ParseTimeoutWithUnit(n: int, unit: char)
    requires unit in "sSmM"
    ensures ParseTimeout(IntToString(n) + [unit]) == Some(if unit in "sS" then n else n * 60)
  {
    UnitShape(n, unit);
    ParseIntOfString(n);
    LowerUnit(unit);
    ParseLoweredOfUnit(IntToString(n), LowerChar(unit));
  }

  /** A bare number of seconds reads back. */
  lemma ParseTimeoutBare(n: int)
    ensures ParseTimeout(IntToString(n)) == Some(n)
  {
    NumberPrepared(n);
    ParseIntOfString(n);
  }

  /** The number as `str` prints it has nothing to strip or lower-case and no unit. */
  lemma NumberPrepared(n: int)
    ensures var d := IntToString(n);
            Lower(Strip(d)) == d && !EndsWith(d, "s") && !EndsWith(d, "m")
  {
    var d := IntToString(n);
    IntToStringShape(n);
    NumeralUnchanged(d);
    NoUnitSuffix(d);
  }

  /** Digits and minus signs between non-blank ends are left alone by the trim and the
      lower-casing. */
  lemma NumeralUnchanged(d: string)
    requires |d| >= 1 && !IsSpace(d[0]) && IsDigit(d[|d| - 1])
    requires forall i :: 0 <= i < |d| ==> IsDigit(d[i]) || d[i] == '-'
    ensures Lower(Strip(d)) == d
  {
    assert IsStripped(d);
    StripOfStripped(d);
    var l := Lower(d);
    forall i | 0 <= i < |d|
      ensures l[i] == d[i]
    {
    }
    assert l == d;
  }

  /** Text ending in a digit has no unit letter. */
  lemma NoUnitSuffix(d: string)
    requires |d| >= 1 && IsDigit(d[|d| - 1])
    ensures !EndsWith(d, "s") && !EndsWith(d, "m")
  {
    assert d[|d| - 1..] == [d[|d| - 1]];
  }

  /** Text without a digit is no timeout. */
  lemma ParseTimeoutNeedsDigit(t: string)
    requires NoDigit(t)
    ensures ParseTimeout(t) == None
  {
    StripNoDigit(t);
    LowerNoDigit(Strip(t));
    ParseLoweredNeedsDigit(Lower(Strip(t)));
  }

  lemma LowerNoDigit(s: string)
    requires NoDigit(s)
    ensures NoDigit(Lower(s))
  {
  }

  lemma ParseLoweredNeedsDigit(s: string)
    requires NoDigit(s)
    ensures ParseLowered(s) == None
  {
    if |s| > 0 {
      NoDigitPrefix(s, s[..|s| - 1]);
      ParseIntNeedsDigit(s[..|s| - 1]);
    }
    ParseIntNeedsDigit(s);
  }

  // ---------------------------------------------------------------------------
  // Opening an app

  /** The app names the library knows, in declaration order. */
  const AppPackages: seq<(string, string)> := [
    ("设置", "com.android.settings"),
    ("微信", "com.tencent.mm"),
    ("支付宝", "com.eg.android.AlipayGphone"),
    ("淘宝", "com.taobao.taobao"),
    ("抖音", "com.ss.android.ugc.aweme"),
    ("京东", "com.jingdong.app.mall"),
    ("美团", "com.sankuai.meituan"),
    ("饿了么", "me.ele"),
    ("百度", "com.baidu.searchbox"),
    ("高德地图", "com.autonavi.minimap"),
    ("QQ", "com.tencent.mobileqq"),
    ("网易云音乐", "com.netease.cloudmusic"),
    ("哔哩哔哩", "tv.danmaku.bili"),
    ("bilibili", "tv.danmaku.bili"),
    ("b站", "tv.danmaku.bili"),
    ("西瓜视频", "com.ss.android.article.video"),
    ("今日头条", "com.ss.android.article.news")
  ]

  /** `app_name in name or name in app_name`. */
  predicate Resembles(key: string, name: string) {
    Contains(key, name) || Contains(name, key)
  }

  /** The first entry from `i` on whose key is exactly `name`. */
  function ExactEntry(table: seq<(string, string)>, name: string, i: nat): (r: Option<nat>)
    decreases |table| - i
    ensures r.Some? ==> i <= r.value < |table| && table[r.value].0 == name
    ensures r.Some? ==> forall j :: i <= j < r.value ==> table[j].0 != name
    ensures r.None? ==> forall j :: i <= j < |table| ==> table[j].0 != name
  {
    if i >= |table| then None
    else if table[i].0 == name then Some(i)
    else ExactEntry(table, name, i + 1)
  }

  /** The first entry from `i` on whose key resembles `name`. */
  function ResemblingEntry(table: seq<(string, string)>, name: string, i: nat): (r: Option<nat>)
    decreases |table| - i
    ensures r.Some? ==> i <= r.value < |table| && Resembles(table[r.value].0, name)
    ensures r.Some? ==> forall j :: i <= j < r.value ==> !Resembles(table[j].0, name)
    ensures r.None? ==> forall j :: i <= j < |table| ==> !Resembles(table[j].0, name)
  {
    if i >= |table| then None
    else if Resembles(table[i].0, name) then Some(i)
    else ResemblingEntry(table, name, i + 1)
  }

  /** The package `ai_open_app` starts, or `None` for the configured default app:
      an exact key first, then a dotted name as it stands, then the first entry
      whose key and the name contain one another. */
  function ResolvePackage(table: seq<(string, string)>, appName: Option<string>): (r: Option<string>)
    ensures (appName.None? || appName.value == "") ==> r.None?
    ensures appName.Some? && appName.value != "" ==>
              var name := appName.value;
              && ((exists i :: 0 <= i < |table| && table[i].0 == name) ==>
                    r == Some(table[ExactEntry(table, name, 0).value].1))
              && ((forall i :: 0 <= i < |table| ==> table[i].0 != name) && '.' in name ==> r == Some(name))
              && ((forall i :: 0 <= i < |table| ==> table[i].0 != name) && '.' !in name ==>
                    (r.Some? <==> exists i :: 0 <= i < |table| && Resembles(table[i].0, name)))
    ensures r.Some? ==> appName.Some? && (r.value == appName.value || exists i :: 0 <= i < |table| && r.value == table[i].1)
  {
    match appName
    case None => None
    case Some(name) =>
      if name == "" then None
      else match ExactEntry(table, name, 0)
        case Some(k) => Some(table[k].1)
        case None =>
          if '.' in name then Some(name)
          else match ResemblingEntry(table, name, 0)
            case Some(k) => Some(table[k].1)
            case None => None
  }

  /** Among resembling keys the earliest entry decides. */
  lemma ResolveTakesFirstResembling(table: seq<(string, string)>, name: string, k: nat)
    requires name != "" && '.' !in name
    requires forall i :: 0 <= i < |table| ==> table[i].0 != name
    requires k < |table| && Resembles(table[k].0, name)
    requires forall j :: 0 <= j < k ==> !Resembles(table[j].0, name)
    ensures ResolvePackage(table, Some(name)) == Some(table[k].1)
  {
    assert ResemblingEntry(table, name, 0) == Some(k);
  }

  /** What the library asks the device to start. */
  datatype Launch = StartPackage(package: string) | LaunchDefault

  /** `ai_open_app`: through the latch, then start the resolved package or the default. */
  function OpenApp(c: Connection, answer: bool, appName: Option<string>): (r: (Result<Launch, LibraryError>, Connection))
    ensures r.0.Err? <==> !c.connected && !answer
    ensures r.0.Ok? ==> (r.0.value == LaunchDefault <==> ResolvePackage(AppPackages, appName).None?)
    ensures r.0.Ok? && r.0.value.StartPackage? ==> ResolvePackage(AppPackages, appName) == Some(r.0.value.package)
  {
    var (ok, c1) := EnsureConnected(c, answer);
    if ok.Err? then (Err(ok.error), c1)
    else match ResolvePackage(AppPackages, appName)
      case Some(p) => (Ok(StartPackage(p)), c1)
      case None => (Ok(LaunchDefault), c1)
  }

  /** A table key opens its own package. */
  lemma OpenAppByKey()
    ensures ResolvePackage(AppPackages, Some("微信")) == Some("com.tencent.mm")
  {
    assert AppPackages[0].0 != "微信" && AppPackages[1].0 == "微信";
    assert ExactEntry(AppPackages, "微信", 0) == Some(1);
  }

  /** A package name that is not a key is started as it stands. */
  lemma OpenAppByPackage()
    ensures ResolvePackage(AppPackages, Some("com.example.shop")) == Some("com.example.shop")
  {
    var dotted := "com.example.shop";
    assert dotted[3] == '.';
    forall j | 0 <= j < |AppPackages|
      ensures AppPackages[j].0 != dotted
    {
      assert |AppPackages[j].0| < |dotted|;
    }
  }

  /** Part of a key opens that key's package. */
  lemma OpenAppByPart()
    ensures ResolvePackage(AppPackages, Some("微")) == Some("com.tencent.mm")
  {
    var name := "微";
    forall j | 0 <= j < |AppPackages|
      ensures AppPackages[j].0 != name
    {
      assert |AppPackages[j].0| > 1;
    }
    assert Resembles(AppPackages[1].0, name) by {
      ContainsAt(AppPackages[1].0, name, 0);
    }
    assert !Resembles(AppPackages[0].0, name) by {
      var key := AppPackages[0].0;
      assert key[0] != name[0] && key[1] != name[0];
      forall j | 0 <= j < |key|
        ensures !OccursAt(key, name, j)
      {
        assert key[j..j + 1][0] == key[j];
      }
      assert !OccursAt(name, key, 0);
    }
    ResolveTakesFirstResembling(AppPackages, name, 1);
  }

  // ---------------------------------------------------------------------------
  // Swiping and scrolling

  /** `ai_swipe`: a stroke of `distance // 2` either side of the window's floor
      midpoint along the direction's axis; any other direction raises. */
  function Swipe(direction: string, distance: int, width: int, height: int): (r: Result<ActionPlanner.Event, LibraryError>)
    ensures r.Err? <==> direction !in {"up", "down", "left", "right"}
    ensures r.Err? ==> r.error == UnknownDirection("未知方向: " + direction)
    ensures r.Ok? ==> r.value.Swipe?
    ensures direction in {"up", "down"} ==> r.value.x1 == r.value.x2 == width / 2
    ensures direction in {"left", "right"} ==> r.value.y1 == r.value.y2 == height / 2
    ensures direction == "up" ==> r.value.y1 - r.value.y2 == 2 * (distance / 2)
    ensures direction == "down" ==> r.value.y2 - r.value.y1 == 2 * (distance / 2)
    ensures direction == "left" ==> r.value.x1 - r.value.x2 == 2 * (distance / 2)
    ensures direction == "right" ==> r.value.x2 - r.value.x1 == 2 * (distance / 2)
    ensures r.Ok? ==> r.value.x1 + r.value.x2 == 2 * (width / 2) && r.value.y1 + r.value.y2 == 2 * (height / 2)
  {
    var cx, cy, half := width / 2, height / 2, distance / 2;
    if direction == "up" then Ok(ActionPlanner.Swipe(cx, cy + half, cx, cy - half))
    else if direction == "down" then Ok(ActionPlanner.Swipe(cx, cy - half, cx, cy + half))
    else if direction == "left" then Ok(ActionPlanner.Swipe(cx + half, cy, cx - half, cy))
    else if direction == "right" then Ok(ActionPlanner.Swipe(cx - half, cy, cx + half, cy))
    else Err(UnknownDirection("未知方向: " + direction))
  }

  /** For any distance, the down stroke is the up stroke run backwards, and the right
      stroke the left one. */
  lemma SwipeOpposites(distance: int, width: int, height: int)
    ensures var up, down := Swipe("up", distance, width, height).value, Swipe("down", distance, width, height).value;
            (up.x1, up.y1, up.x2, up.y2) == (down.x2, down.y2, down.x1, down.y1)
    ensures var left, right := Swipe("left", distance, width, height).value, Swipe("right", distance, width, height).value;
            (left.x1, left.y1, left.x2, left.y2) == (right.x2, right.y2, right.x1, right.y1)
  {
  }

  /** The planner's swipe step is this keyword with a distance of 600 pixels. */
  lemma PlannerSwipeIsKeywordSwipe(direction: string, width: int, height: int)
    requires direction in {"up", "down", "left", "right"}
    ensures ActionPlanner.SwipeFor(Str(direction), width, height) == Some(Swipe(direction, 600, width, height).value)
  {
  }

  /** The distance `ai_swipe` uses when none is given. */
  const DefaultSwipeDistance := 500
  const DefaultMaxScrolls := 5

  /** The stroke scrolling performs between two searches. */
  function ScrollStroke(width: int, height: int): (r: ActionPlanner.Event)
    ensures r == ActionPlanner.Swipe(width / 2, height / 2 + 250, width / 2, height / 2 - 250)
  {
    Swipe("up", DefaultSwipeDistance, width, height).value
  }

  /** `n` copies of the same stroke. */
  function Strokes(stroke: ActionPlanner.Event, n: nat): (r: seq<ActionPlanner.Event>)
    ensures |r| == n && forall k :: 0 <= k < n ==> r[k] == stroke
  {
    seq(n, _ => stroke)
  }

  /** Whether the `i`-th search finds the element (`find_element` returns rather than raises). */
  type Finder = nat -> bool

  /** How a scroll ended, how often it searched, and the swipes it made, in order. */
  datatype Scrolled = Scrolled(result: Result<(), LibraryError>, searches: nat, strokes: seq<ActionPlanner.Event>)

  function ScrollFailure(description: string, maxScrolls: int): LibraryError {
    NotFoundAfterScrolling("滚动 " + IntToString(maxScrolls) + " 次后仍未找到: " + description)
  }

  function Rounds(maxScrolls: int): nat {
    if maxScrolls > 0 then maxScrolls else 0
  }

  /** What a round's `locator.find_element(...)` comes to: it raises, it returns the located
      element (the locator's `UIElement` object), or it returns a mapping. */
  datatype Search = SearchRaises | ElementObject | Mapping(fields: map<string, Value>)

  /** `result.get('found', False)`: a mapping answers; an element object has no `get` and
      raises AttributeError, as does a search that already raised. */
  function FoundFlag(s: Search): (r: Result<bool, string>)
    ensures r.Ok? <==> s.Mapping?
    ensures s.Mapping? ==> (r.value <==> Truthy(Get(s.fields, "found", Bool(false))))
  {
    match s
    case SearchRaises => Err("find_element raised")
    case ElementObject => Err("'UIElement' object has no attribute 'get'")
    case Mapping(m) => Ok(Truthy(Get(m, "found", Bool(false))))
  }

  /** A round returns from the keyword only when the flag is read and true; every exception
      in the `try` is swallowed by the bare `except`. */
  predicate Returns(s: Search) {
    FoundFlag(s) == Ok(true)
  }

  /** The loop of `ai_scroll_to` over what each round's search comes to. */
  function ScrollWith(search: nat -> Search, description: string, maxScrolls: int, width: int, height: int): Scrolled {
    ScrollFrom(ReturnsIn(search), ScrollStroke(width, height), description, maxScrolls, 0)
  }

  /** The rounds in which `search` makes the keyword return. */
  function ReturnsIn(search: nat -> Search): Finder {
    (k: nat) => Returns(search(k))
  }

  /** What the locator's `find_element` gives in round `k`: the element object when it
      locates one, otherwise it raises. */
  function LocatorSearch(find: Finder): nat -> Search {
    (k: nat) => if find(k) then ElementObject else SearchRaises
  }

  /** A search that reports `{'found': True}` when the element is located. */
  function FoundSearch(find: Finder): nat -> Search {
    (k: nat) => if find(k) then Mapping(map["found" := Bool(true)]) else SearchRaises
  }

  /** `ai_scroll_to` as written: no round returns, since neither the element object nor a
      raised search yields a flag; every round swipes and the keyword raises after
      `max_scrolls` rounds. */
  function ScrollToAsWritten(find: Finder, description: string, maxScrolls: int, width: int, height: int): (r: Scrolled)
    ensures r.result == Err(ScrollFailure(description, maxScrolls))
    ensures r.searches == |r.strokes| == Rounds(maxScrolls)
    ensures forall k :: 0 <= k < |r.strokes| ==> r.strokes[k] == ScrollStroke(width, height)
  {
    var search := LocatorSearch(find);
    assert forall k :: !Returns(search(k));
    ScrollWith(search, description, maxScrolls, width, height)
  }

  /** The keyword never finds anything, even when the very first search succeeds. */
  lemma ScrollToAsWrittenNeverReturns(description: string, width: int, height: int)
    ensures var found: Finder := _ => true;
            && ScrollToAsWritten(found, description, DefaultMaxScrolls, width, height).result.Err?
            && |ScrollToAsWritten(found, description, DefaultMaxScrolls, width, height).strokes| == 5
  {
  }

  /** Searches from round `i` on, `i` strokes having been made: stop at the first round
      whose search succeeds, otherwise swipe and go on, and raise after the last round. */
  function ScrollFrom(find: Finder, stroke: ActionPlanner.Event, description: string, maxScrolls: int, i: nat): (r: Scrolled)
    requires i <= Rounds(maxScrolls)
    decreases Rounds(maxScrolls) - i
    ensures r.result.Ok? <==> exists k :: i <= k < Rounds(maxScrolls) && find(k)
    ensures r.result.Err? ==> r.result.error == ScrollFailure(description, maxScrolls)
    ensures r.result.Ok? ==> find(|r.strokes|) && r.searches == |r.strokes| + 1
    ensures r.result.Ok? ==> forall k :: i <= k < |r.strokes| ==> !find(k)
    ensures r.result.Err? ==> r.searches == |r.strokes| == Rounds(maxScrolls)
    ensures i <= |r.strokes| <= Rounds(maxScrolls)
    ensures forall k :: 0 <= k < |r.strokes| ==> r.strokes[k] == stroke
  {
    if i == Rounds(maxScrolls) then Scrolled(Err(ScrollFailure(description, maxScrolls)), i, Strokes(stroke, i))
    else if find(i) then Scrolled(Ok(()), i + 1, Strokes(stroke, i))
    else ScrollFrom(find, stroke, description, maxScrolls, i + 1)
  }

  /** `ai_scroll_to` as intended: return as soon as the element is located, after one
      up-swipe per earlier round; raise once `max_scrolls` rounds found nothing. */
  function ScrollTo(find: Finder, description: string, maxScrolls: int, width: int, height: int): (r: Scrolled)
    ensures r.result.Ok? <==> exists k :: 0 <= k < Rounds(maxScrolls) && find(k)
    ensures r.result.Ok? ==> find(|r.strokes|) && forall k :: 0 <= k < |r.strokes| ==> !find(k)
    ensures forall k :: 0 <= k < |r.strokes| ==> r.strokes[k] == ScrollStroke(width, height)
    ensures r.result.Err? ==> r == ScrollToAsWritten(find, description, maxScrolls, width, height)
  {
    ScrollFrom(find, ScrollStroke(width, height), description, maxScrolls, 0)
  }

  /** Two searches that agree on which rounds succeed scroll alike. */
  lemma {:induction false} ScrollFromAgree(f: Finder, g: Finder, stroke: ActionPlanner.Event, description: string, maxScrolls: int, i: nat)
    requires i <= Rounds(maxScrolls)
    requires forall k :: f(k) == g(k)
    ensures ScrollFrom(f, stroke, description, maxScrolls, i) == ScrollFrom(g, stroke, description, maxScrolls, i)
    decreases Rounds(maxScrolls) - i
  {
    if i < Rounds(maxScrolls) && !f(i) {
      ScrollFromAgree(f, g, stroke, description, maxScrolls, i + 1);
    }
  }

  /** The intended keyword is the written loop over a search that reports `found`. */
  lemma ScrollToReadsFound(find: Finder, description: string, maxScrolls: int, width: int, height: int)
    ensures ScrollTo(find, description, maxScrolls, width, height)
            == ScrollWith(FoundSearch(find), description, maxScrolls, width, height)
  {
    var g := ReturnsIn(FoundSearch(find));
    forall k: nat ensures find(k) == g(k) {
      assert g(k) == Returns(FoundSearch(find)(k));
      if find(k) {
        assert FoundSearch(find)(k) == Mapping(map["found" := Bool(true)]);
        assert Get(map["found" := Bool(true)], "found", Bool(false)) == Bool(true);
      } else {
        assert FoundSearch(find)(k) == SearchRaises;
      }
    }
    ScrollFromAgree(find, g, ScrollStroke(width, height), description, maxScrolls, 0);
  }

  /** Where the as-written keyword raises, the intended one returns at once. */
  lemma ScrollToFindsAtOnce(description: string, width: int, height: int)
    ensures var found: Finder := _ => true;
            ScrollTo(found, description, DefaultMaxScrolls, width, height) == Scrolled(Ok(()), 1, [])
  {
  }

  // ---------------------------------------------------------------------------
  // Asserting the screen state

  /** `ai_assert`: the verdict (or what asking for it raised); a falsy `passed` raises
      with the verdict's reason, or else the expected state. */
  function Assert(expected: string, verdict: Result<Value, string>, spell: Spelling): (r: Result<(), LibraryError>)
    ensures r.Ok? <==> verdict.Ok? && verdict.value.Dict? && Truthy(Get(verdict.value.fields, "passed", Bool(false)))
    ensures verdict.Ok? && verdict.value.Dict? && !Truthy(Get(verdict.value.fields, "passed", Bool(false))) ==>
              r == Err(AssertionFailed(ActionPlanner.VerifyMessage(verdict.value.fields, Str(expected), spell)))
  {
    match verdict
    case Err(m) => Err(Raised(m))
    case Ok(v) =>
      if !v.Dict? then Err(Raised("AttributeError"))
      else if !Truthy(Get(v.fields, "passed", Bool(false))) then
        Err(AssertionFailed(ActionPlanner.VerifyMessage(v.fields, Str(expected), spell)))
      else Ok(())
  }

  /** The keyword and the planner's `verify` step agree on every verdict, message included. */
  lemma AssertAgreesWithVerify(step: nat, expected: string, locate: ActionPlanner.Locator, width: int, height: int, spell: Spelling)
    requires expected != ""
    ensures var action := map["action" := Str("verify"), "condition" := Str(expected)];
            var verdict := locate(step, ActionPlanner.VerifyState(Str(expected)));
            var planned := ActionPlanner.ExecuteAction(step, action, locate, width, height, spell);
            var asserted := Assert(expected, verdict, spell);
            && (planned.result.Ok? <==> asserted.Ok?)
            && (asserted.Err? && asserted.error.AssertionFailed? ==> planned.result == Err(ActionPlanner.VerificationFailed(asserted.error.message)))
  {
    var action := map["action" := Str("verify"), "condition" := Str(expected)];
    assert ActionPlanner.Kind(action) == Str("verify");
    assert ActionPlanner.WellFormed(action);
    ActionPlanner.VerifyPassesIff(step, action, locate, width, height, spell);
  }
}

=== FILE: analyzer.dfy ===
/** The result analyzer: Robot Framework's `output.xml` is reduced to counts, the
    tests in document order and, for each failing test, its first failing keyword;
    only when something failed is the model asked for an analysis. */
module Analyzer {
  import opened Wrappers
  import opened Text
  import Values

  /** An element of the parsed result file. */
  datatype Element = Element(tag: string, attrs: map<string, string>, text: Option<string>, children: seq<Element>)

  /** `elem.text or ''`. */
  function TextOf(e: Element): string {
    match e.text
    case Some(t) => t
    case None => ""
  }

  // ---------------------------------------------------------------------------
  // Walking the tree

  /** `elem.iter(tag)`: the element and its descendants with that tag, in document order. */
  function Iter(e: Element, tag: string): (r: seq<Element>)
    decreases e, 1, 0
    ensures forall x :: x in r ==> x.tag == tag
  {
    (if e.tag == tag then [e] else []) + IterChildren(e, 0, tag)
  }

  /** The matches below the children of `e` from the `i`-th on. */
  function IterChildren(e: Element, i: nat, tag: string): (r: seq<Element>)
    requires i <= |e.children|
    decreases e, 0, |e.children| - i
    ensures forall x :: x in r ==> x.tag == tag
  {
    if i == |e.children| then [] else Iter(e.children[i], tag) + IterChildren(e, i + 1, tag)
  }

  /** `elem.findall('.//tag')`: the descendants with that tag, the element itself excluded. */
  function Descendants(e: Element, tag: string): seq<Element> {
    IterChildren(e, 0, tag)
  }

  /** `elem.find(tag)`: the first child with that tag. */
  function Find(e: Element, tag: string): (r: Option<Element>)
    ensures r.Some? ==> r.value in e.children && r.value.tag == tag
    ensures r.Some? ==> exists k :: 0 <= k < |e.children| && e.children[k] == r.value
                          && forall j :: 0 <= j < k ==> e.children[j].tag != tag
    ensures r.None? ==> forall c :: c in e.children ==> c.tag != tag
  {
    FindFrom(e.children, tag)
  }

  function FindFrom(xs: seq<Element>, tag: string): (r: Option<Element>)
    ensures r.Some? ==> r.value in xs && r.value.tag == tag
    ensures r.Some? ==> exists k :: 0 <= k < |xs| && xs[k] == r.value
                          && forall j :: 0 <= j < k ==> xs[j].tag != tag
    ensures r.None? ==> forall c :: c in xs ==> c.tag != tag
  {
    if |xs| == 0 then None
    else if xs[0].tag == tag then Some(xs[0])
    else
      var r := FindFrom(xs[1..], tag);
      assert forall k :: 1 <= k < |xs| ==> xs[k] == xs[1..][k - 1];
      r
  }

  // ---------------------------------------------------------------------------
  // Reading the results

  datatype FailedKeyword = FailedKeyword(name: string, args: seq<string>, message: string)

  datatype TestInfo = TestInfo(name: string, status: string, message: Option<string>, failedKeyword: Option<FailedKeyword>)

  datatype Summary = Summary(total: nat, passed: nat, failed: nat, tests: seq<TestInfo>, failures: seq<TestInfo>)

  /** A keyword failed when its own `status` child says FAIL. */
  predicate KeywordFailed(kw: Element) {
    var st := Find(kw, "status");
    st.Some? && "status" in st.value.attrs && st.value.attrs["status"] == "FAIL"
  }

  /** The texts of the non-empty `arg` elements anywhere below the keyword. */
  function ArgTexts(args: seq<Element>): (r: seq<string>)
    ensures forall a :: a in r ==> a != ""
    ensures |r| <= |args|
  {
    if |args| == 0 then []
    else
      var rest := ArgTexts(args[1..]);
      if args[0].text.Some? && args[0].text.value != "" then [args[0].text.value] + rest else rest
  }

  /** The position of the first element satisfying `p`, if any. */
  function FirstWhere(p: Element -> bool, xs: seq<Element>): (r: Option<nat>)
    ensures r.Some? ==> r.value < |xs| && p(xs[r.value]) && forall j :: 0 <= j < r.value ==> !p(xs[j])
    ensures r.None? ==> forall j :: 0 <= j < |xs| ==> !p(xs[j])
  {
    if |xs| == 0 then None
    else if p(xs[0]) then Some(0)
    else
      var r := FirstWhere(p, xs[1..]);
      assert forall k :: 1 <= k < |xs| ==> xs[k] == xs[1..][k - 1];
      if r.Some? then Some(r.value + 1) else None
  }

  /** The first failing keyword among `kws`, as the report describes it. */
  function FirstFailed(kws: seq<Element>): (r: Option<FailedKeyword>)
    ensures r.None? <==> forall k :: 0 <= k < |kws| ==> !KeywordFailed(kws[k])
    ensures r.Some? ==> exists k :: 0 <= k < |kws| && KeywordFailed(kws[k]) && r.value == Described(kws[k])
                           && (forall j :: 0 <= j < k ==> !KeywordFailed(kws[j]))
  {
    match FirstWhere(KeywordFailed, kws)
    case Some(k) => Some(Described(kws[k]))
    case None => None
  }

  /** How a failed keyword is reported: its name, the texts of its arguments and the
      text of its status. */
  function Described(kw: Element): (r: FailedKeyword)
    requires KeywordFailed(kw)
    ensures r.name == Values.Get(kw.attrs, "name", "")
    ensures r.message == TextOf(Find(kw, "status").value)
    ensures |r.args| <= |Descendants(kw, "arg")|
  {
    FailedKeyword(Values.Get(kw.attrs, "name", ""), ArgTexts(Descendants(kw, "arg")), TextOf(Find(kw, "status").value))
  }

  /** What is recorded for a test with a `status` child; a test without one is skipped. */
  function InfoOf(test: Element): (r: Option<TestInfo>)
    ensures r.Some? <==> Find(test, "status").Some?
    ensures r.Some? ==> (r.value.message.Some? <==> r.value.status != "PASS")
    ensures r.Some? ==> (r.value.failedKeyword.Some? ==> r.value.status != "PASS")
  {
    match Find(test, "status")
    case None => None
    case Some(st) =>
      var name, status := Values.Get(test.attrs, "name", "Unknown"), Values.Get(st.attrs, "status", "UNKNOWN");
      if status == "PASS" then Some(TestInfo(name, status, None, None))
      else Some(TestInfo(name, status, Some(TextOf(st)), FirstFailed(Iter(test, "kw"))))
  }

  /** The tests that are counted, in document order. */
  function Infos(tests: seq<Element>): (r: seq<TestInfo>)
    ensures |r| <= |tests|
  {
    if |tests| == 0 then []
    else match InfoOf(tests[0])
      case Some(t) => [t] + Infos(tests[1..])
      case None => Infos(tests[1..])
  }

  function Failing(infos: seq<TestInfo>): (r: seq<TestInfo>)
    ensures forall t :: t in r ==> t in infos && t.status != "PASS"
  {
    if |infos| == 0 then []
    else (if infos[0].status != "PASS" then [infos[0]] else []) + Failing(infos[1..])
  }

  function CountPassed(infos: seq<TestInfo>): (n: nat)
    ensures n <= |infos|
  {
    if |infos| == 0 then 0 else (if infos[0].status == "PASS" then 1 else 0) + CountPassed(infos[1..])
  }

  lemma {:induction false} InfosAppend(a: seq<Element>, b: seq<Element>)
    ensures Infos(a + b) == Infos(a) + Infos(b)
    decreases |a|
  {
    if |a| == 0 {
      assert a + b == b;
    } else {
      assert (a + b)[0] == a[0] && (a + b)[1..] == a[1..] + b;
      InfosAppend(a[1..], b);
    }
  }

  lemma {:induction false} FailingAppend(a: seq<TestInfo>, b: seq<TestInfo>)
    ensures Failing(a + b) == Failing(a) + Failing(b)
    decreases |a|
  {
    if |a| == 0 {
      assert a + b == b;
    } else {
      assert (a + b)[0] == a[0] && (a + b)[1..] == a[1..] + b;
      FailingAppend(a[1..], b);
    }
  }

  lemma {:induction false} CountPassedAppend(a: seq<TestInfo>, b: seq<TestInfo>)
    ensures CountPassed(a + b) == CountPassed(a) + CountPassed(b)
    decreases |a|
  {
    if |a| == 0 {
      assert a + b == b;
    } else {
      assert (a + b)[1..] == a[1..] + b;
      CountPassedAppend(a[1..], b);
    }
  }

  /** Appending one record to the tests so far updates the failures and the count. */
  lemma RecordStep(tests: seq<TestInfo>, t: TestInfo)
    ensures Failing(tests + [t]) == Failing(tests) + if t.status != "PASS" then [t] else []
    ensures CountPassed(tests + [t]) == CountPassed(tests) + if t.status == "PASS" then 1 else 0
  {
    FailingAppend(tests, [t]);
    CountPassedAppend(tests, [t]);
  }

  lemma {:induction false} FailingCount(infos: seq<TestInfo>)
    ensures |Failing(infos)| + CountPassed(infos) == |infos|
    decreases |infos|
  {
    if |infos| > 0 {
      FailingCount(infos[1..]);
    }
  }

  /** `parse_output_xml`: one pass over the `test` elements, counting and collecting. */
  method ParseOutputXml(root: Element) returns (s: Summary)
    ensures s.tests == Infos(Iter(root, "test"))
    ensures s.failures == Failing(s.tests)
    ensures s.total == |s.tests| == s.passed + s.failed
    ensures s.passed == CountPassed(s.tests) && s.failed == |s.failures|
  {
    s := Collect(Iter(root, "test"));
  }

  /** The pass itself, over the `test` elements in document order. */
  method Collect(all: seq<Element>) returns (s: Summary)
    ensures s.tests == Infos(all)
    ensures Tallied(s)
  {
    s := Summary(0, 0, 0, [], []);
    for i := 0 to |all|
      invariant s.tests + Infos(all[i..]) == Infos(all)
      invariant Tallied(s)
    {
      CollectStep(all, i, s.tests);
      s := Add(s, InfoOf(all[i]));
    }
    NoneLeft(all, s.tests);
  }

  /** One element further: its record, if any, moves from the rest to the tests so far. */
  lemma CollectStep(all: seq<Element>, i: nat, before: seq<TestInfo>)
    requires i < |all| && before + Infos(all[i..]) == Infos(all)
    ensures InfoOf(all[i]).Some? ==> (before + [InfoOf(all[i]).value]) + Infos(all[i + 1..]) == Infos(all)
    ensures InfoOf(all[i]).None? ==> before + Infos(all[i + 1..]) == Infos(all)
  {
    InfosFrom(all, i);
    if InfoOf(all[i]).Some? {
      Regroup(before, InfoOf(all[i]).value, Infos(all[i + 1..]));
    }
  }

  lemma Regroup(a: seq<TestInfo>, t: TestInfo, rest: seq<TestInfo>)
    ensures (a + [t]) + rest == a + ([t] + rest)
  {
  }

  lemma NoneLeft(all: seq<Element>, tests: seq<TestInfo>)
    ensures tests + Infos(all[|all|..]) == tests
  {
    assert all[|all|..] == [];
  }

  /** The records from the `i`-th element on: its own, if it has one, then the rest. */
  lemma InfosFrom(all: seq<Element>, i: nat)
    requires i < |all|
    ensures InfoOf(all[i]).Some? ==> Infos(all[i..]) == [InfoOf(all[i]).value] + Infos(all[i + 1..])
    ensures InfoOf(all[i]).None? ==> Infos(all[i..]) == Infos(all[i + 1..])
  {
    assert all[i..][0] == all[i] && all[i..][1..] == all[i + 1..];
  }

  /** The counts and the failure list agree with the recorded tests. */
  predicate Tallied(s: Summary) {
    && s.failures == Failing(s.tests)
    && s.total == |s.tests| == s.passed + s.failed
    && s.passed == CountPassed(s.tests) && s.failed == |s.failures|
  }

  /** One step of the pass: a test with a status is counted as passed or failed, and a
      failed one is also listed among the failures. */
  function Add(s: Summary, info: Option<TestInfo>): (r: Summary)
    requires Tallied(s)
    ensures Tallied(r)
    ensures info.Some? ==> r.tests == s.tests + [info.value]
    ensures info.None? ==> r == s
  {
    match info
    case None => s
    case Some(t) =>
      RecordStep(s.tests, t);
      if t.status == "PASS" then Summary(s.total + 1, s.passed + 1, s.failed, s.tests + [t], s.failures)
      else Summary(s.total + 1, s.passed, s.failed + 1, s.tests + [t], s.failures + [t])
  }

  /** The counts agree with the lists: every counted test either passed or is listed
      among the failures. */
  lemma SummaryCounts(root: Element)
    ensures var tests := Infos(Iter(root, "test"));
            |Failing(tests)| + CountPassed(tests) == |tests|
  {
    FailingCount(Infos(Iter(root, "test")));
  }

  // ---------------------------------------------------------------------------
  // The report

  /** The statistics block: a title line, then one line per count. */
  function Stats(s: Summary): (r: string)
    ensures Split(r, '\n') == ["测试统计:", "  总数: " + NatToString(s.total), "  通过: " + NatToString(s.passed),
                                "  失败: " + NatToString(s.failed)]
  {
    var lines := ["测试统计:", "  总数: " + NatToString(s.total), "  通过: " + NatToString(s.passed),
                  "  失败: " + NatToString(s.failed)];
    NoBreakInNumber(s.total);
    NoBreakInNumber(s.passed);
    NoBreakInNumber(s.failed);
    LinesSplitBack(lines);
    Join(lines, "\n")
  }

  lemma NoBreakInNumber(n: nat)
    ensures '\n' !in NatToString(n)
  {
  }

  /** How one failure is described: the test, then its failed keyword with arguments and
      message, or else the test's message (`'Unknown'` if it had none). */
  function Detail(t: TestInfo): (r: string)
    ensures "- 测试: " + t.name + "\n" <= r
  {
    var head := "- 测试: " + t.name + "\n";
    match t.failedKeyword
    case Some(kw) => head + "  失败步骤: " + kw.name + " " + Join(kw.args, " ") + "\n" + "  错误信息: " + kw.message + "\n"
    case None => head + "  错误信息: " + (match t.message case Some(m) => m case None => "Unknown") + "\n"
  }

  function Details(failures: seq<TestInfo>): (r: seq<string>)
    ensures |r| == |failures|
    ensures forall i :: 0 <= i < |r| ==> r[i] == Detail(failures[i])
  {
    if |failures| == 0 then [] else [Detail(failures[0])] + Details(failures[1..])
  }

  /** The report and the prompt the model was given, if it was asked. */
  datatype Analysis = Analysis(report: Result<string, string>, prompt: Option<string>)

  /** The prompt: the role and the task, the counts, the failure details, and the three
      things the model is asked for. */
  function Prompt(s: Summary, failureText: string): (r: string)
    ensures PromptIntro <= r
    ensures EndsWith(r, DetailsHeading + failureText + PromptRequest)
  {
    var counts := NatToString(s.total) + "\n- 通过: " + NatToString(s.passed) + "\n- 失败: " + NatToString(s.failed);
    var tail := DetailsHeading + failureText + PromptRequest;
    var r := PromptIntro + counts + tail;
    assert r[|r| - |tail|..] == tail;
    r
  }

  const PromptIntro := "你是一个 Android 自动化测试专家。分析以下测试失败信息，提供原因分析和修复建议。\n\n测试统计:\n- 总数: "
  const DetailsHeading := "\n\n失败详情:\n"
  const PromptRequest := "\n\n请提供:\n1. 可能的失败原因分析\n2. 具体的修复建议\n3. 如何避免类似问题\n\n输出格式清晰，便于理解。"

  /** `analyze`: with no failure the statistics alone; otherwise the failures are described
      and the model's answer (or what asking it raised) is appended. */
  function Analyze(s: Summary, generate: string -> Result<string, string>): (r: Analysis)
    ensures s.failed == 0 ==> r == Analysis(Ok(Stats(s) + "\n\n所有测试通过！"), None)
    ensures s.failed != 0 ==> r.prompt.Some? && (r.report.Ok? <==> generate(r.prompt.value).Ok?)
    ensures r.report.Ok? ==> Stats(s) <= r.report.value
  {
    if s.failed == 0 then Analysis(Ok(Stats(s) + "\n\n所有测试通过！"), None)
    else
      var failureText := Join(Details(s.failures), "\n");
      var prompt := Prompt(s, failureText);
      Answered(s, failureText, prompt, generate(prompt))
  }

  /** The analysis once the model has been asked `prompt`: its answer after the statistics
      and the failures, or what asking it raised. */
  function Answered(s: Summary, failureText: string, prompt: string, answer: Result<string, string>): (r: Analysis)
    ensures r.prompt == Some(prompt)
    ensures r.report.Ok? <==> answer.Ok?
    ensures answer.Err? ==> r.report == Err(answer.error)
    ensures r.report.Ok? ==> Stats(s) + FailuresHeading + failureText <= r.report.value
    ensures r.report.Ok? ==> EndsWith(r.report.value, AnalysisHeading + answer.value)
  {
    match answer
    case Err(e) => Analysis(Err(e), Some(prompt))
    case Ok(analysis) =>
      var report := Stats(s) + FailuresHeading + failureText + (AnalysisHeading + analysis);
      assert (Stats(s) + FailuresHeading + failureText) <= report;
      assert report[|report| - |AnalysisHeading + analysis|..] == AnalysisHeading + analysis;
      Analysis(Ok(report), Some(prompt))
  }

  const FailuresHeading := "\n\n失败用例:\n"
  const AnalysisHeading := "\n\nAI 分析:\n"

  /** A failure recorded from a result file always has a message, so its detail never
      falls back to `'Unknown'`. */
  lemma FailuresHaveMessages(root: Element)
    ensures forall t :: t in Failing(Infos(Iter(root, "test"))) ==> t.message.Some?
  {
    InfosFromTests(Iter(root, "test"));
  }

  lemma {:induction false} InfosFromTests(tests: seq<Element>)
    ensures forall t :: t in Infos(tests) ==> (t.message.Some? <==> t.status != "PASS")
    decreases |tests|
  {
    if |tests| > 0 {
      InfosFromTests(tests[1..]);
    }
  }
}

=== FILE: appium_manager.dfy ===
/** The Appium connection manager: the capabilities a session is opened with, the checks
    `connect` makes before it talks to the server, and the window size it reports. The
    Appium client library, the server and the device are parameters. */
module AppiumManager {
  import opened Wrappers
  import opened Values
  import ConfigManager
  import DeviceManager

  const DefaultServerUrl := "http://localhost:4723"
  const CommandTimeout := 300
  const ImportMessage := "Appium-Python-Client 未安装，请运行: pip install Appium-Python-Client"
  const DefaultWidth := 1080
  const DefaultHeight := 1920

  // ---------------------------------------------------------------------------
  // Capabilities

  const UdidKey := "udid"
  const PackageKey := "appPackage"
  const ActivityKey := "appActivity"

  /** The capabilities every session asks for. */
  const Base: map<string, Value> := map[
    "platformName" := Str("Android"),
    "automationName" := Str("UiAutomator2"),
    "noReset" := Bool(true),
    "newCommandTimeout" := Int(CommandTimeout)]

  /** Keys the manager may add on top of the base ones. */
  const Optional: set<string> := {UdidKey, PackageKey, ActivityKey}

  /** The optional keys are distinct from each other and from the base keys. */
  lemma KeysDistinct()
    ensures UdidKey !in Base && PackageKey !in Base && ActivityKey !in Base
    ensures UdidKey != PackageKey && UdidKey != ActivityKey && PackageKey != ActivityKey
  {
    assert Base.Keys == {"platformName", "automationName", "noReset", "newCommandTimeout"};
    assert UdidKey[0] == 'u' && PackageKey[0] == 'a' && ActivityKey[0] == 'a';
    assert PackageKey[1] == 'p' && "automationName"[1] == 'u';
    assert PackageKey[3] == 'P' && ActivityKey[3] == 'A';
  }

  /** `config.get('appium.capabilities', {})`, with the dotted key already split (see
      ExtraRead). */
  function Extra(config: Value): Value {
    ConfigManager.Lookup(config, ["appium", "capabilities"]).GetOr(Dict(map[]))
  }

  /** `config.get('app.package')`. */
  function Package(config: Value): Value {
    ConfigManager.Lookup(config, ["app", "package"]).GetOr(Null)
  }

  /** `config.get('app.activity')`. */
  function Activity(config: Value): Value {
    ConfigManager.Lookup(config, ["app", "activity"]).GetOr(Null)
  }

  /** Reading a two-segment dotted key is a lookup along its two segments. */
  lemma DottedSetting(config: Value, a: string, b: string, default: Value)
    requires '.' !in a && '.' !in b
    ensures ConfigManager.Setting(config, a + "." + b, default) == ConfigManager.Lookup(config, [a, b]).GetOr(default)
  {
    ConfigManager.DottedKey(a, b);
  }

  /** The three settings are the configuration manager's dotted-key reads. */
  lemma ExtraRead(config: Value)
    ensures Extra(config) == ConfigManager.Setting(config, "appium.capabilities", Dict(map[]))
  {
    assert "appium" + "." + "capabilities" == "appium.capabilities";
    DottedSetting(config, "appium", "capabilities", Dict(map[]));
  }

  lemma PackageRead(config: Value)
    ensures Package(config) == ConfigManager.Setting(config, "app.package", Null)
  {
    assert "app" + "." + "package" == "app.package";
    DottedSetting(config, "app", "package", Null);
  }

  lemma ActivityRead(config: Value)
    ensures Activity(config) == ConfigManager.Setting(config, "app.activity", Null)
  {
    assert "app" + "." + "activity" == "app.activity";
    DottedSetting(config, "app", "activity", Null);
  }

  /** `if udid:` on what `get_device_udid` returned. */
  predicate HasUdid(udid: Option<string>) {
    udid.Some? && udid.value != ""
  }

  /** `caps[k] = v` when `add` holds; every other key is left alone. */
  function Put(m: map<string, Value>, add: bool, k: string, v: Value): (r: map<string, Value>)
    ensures k in r <==> add || k in m
    ensures add ==> r[k] == v
    ensures !add ==> r == m
    ensures forall j :: j in m && j != k ==> j in r && r[j] == m[j]
    ensures forall j :: j in r ==> j == k || j in m
  {
    if add then m[k := v] else m
  }

  /** The capabilities before the configured extras are merged, given the udid and the
      configured package and activity. */
  function Own(udid: Option<string>, package: Value, activity: Value): (r: map<string, Value>)
    ensures forall k :: k in Base ==> k in r && r[k] == Base[k]
    ensures forall k :: k in r ==> k in Base || k in Optional
    ensures (UdidKey in r <==> HasUdid(udid)) && (HasUdid(udid) ==> r[UdidKey] == Str(udid.value))
    ensures (PackageKey in r <==> Truthy(package)) && (Truthy(package) ==> r[PackageKey] == package)
    ensures (ActivityKey in r <==> Truthy(activity)) && (Truthy(activity) ==> r[ActivityKey] == activity)
  {
    KeysDistinct();
    var withUdid := Put(Base, HasUdid(udid), UdidKey, if HasUdid(udid) then Str(udid.value) else Null);
    var withPackage := Put(withUdid, Truthy(package), PackageKey, package);
    Put(withPackage, Truthy(activity), ActivityKey, activity)
  }

  /** `_build_capabilities`: the base capabilities; the udid when there is one; the app
      package and activity when configured (truthy); then the configured extra
      capabilities merged last, so they override. `update` with a value that is not a
      mapping is reported as `Err` carrying that value. */
  function BuildCapabilities(udid: Option<string>, config: Value): (r: Result<map<string, Value>, Value>)
    ensures r.Ok? <==> Extra(config).Dict?
    ensures r.Err? ==> r.error == Extra(config)
    ensures r.Ok? ==> forall k :: k in Extra(config).fields ==> k in r.value && r.value[k] == Extra(config).fields[k]
    ensures r.Ok? ==> forall k :: k in Base && k !in Extra(config).fields ==> k in r.value && r.value[k] == Base[k]
    ensures r.Ok? ==> forall k :: k in r.value ==> k in Base || k in Optional || k in Extra(config).fields
    ensures r.Ok? && UdidKey !in Extra(config).fields ==>
              (UdidKey in r.value <==> HasUdid(udid)) && (HasUdid(udid) ==> r.value[UdidKey] == Str(udid.value))
    ensures r.Ok? && PackageKey !in Extra(config).fields ==>
              (PackageKey in r.value <==> Truthy(Package(config)))
              && (Truthy(Package(config)) ==> r.value[PackageKey] == Package(config))
    ensures r.Ok? && ActivityKey !in Extra(config).fields ==>
              (ActivityKey in r.value <==> Truthy(Activity(config)))
              && (Truthy(Activity(config)) ==> r.value[ActivityKey] == Activity(config))
  {
    match Extra(config)
    case Dict(extra) => Ok(Own(udid, Package(config), Activity(config)) + extra)
    case other => Err(other)
  }

  /** An empty configuration sets no package, no activity and no extra capabilities. */
  lemma EmptyConfig()
    ensures Extra(Dict(map[])) == Dict(map[])
    ensures Package(Dict(map[])) == Null && Activity(Dict(map[])) == Null
  {
  }

  lemma OwnOfUdid(udid: string, package: Value, activity: Value)
    requires udid != "" && !Truthy(package) && !Truthy(activity)
    ensures Own(Some(udid), package, activity) == Base[UdidKey := Str(udid)]
  {
    assert Put(Base, true, UdidKey, Str(udid)) == Base[UdidKey := Str(udid)];
  }

  /** With no package, no activity and no extra capabilities configured (as in the empty
      configuration, see EmptyConfig), the capabilities are the base ones plus the device. */
  lemma BareCapabilities(udid: string, config: Value)
    requires udid != ""
    requires !Truthy(Package(config)) && !Truthy(Activity(config)) && Extra(config) == Dict(map[])
    ensures BuildCapabilities(Some(udid), config) == Ok(Base[UdidKey := Str(udid)])
  {
    OwnOfUdid(udid, Package(config), Activity(config));
    var own := Base[UdidKey := Str(udid)];
    assert own + map[] == own;
  }

  /** The device `adb` reports ready is the one the session asks for, unless the
      configuration overrides the udid. */
  lemma ReadyDeviceRequested(output: string, config: Value)
    requires DeviceManager.IsDeviceReady(DeviceManager.ConnectedDevices(output))
    requires Extra(config).Dict? && UdidKey !in Extra(config).fields
    ensures var udid := DeviceManager.DeviceUdid(DeviceManager.ConnectedDevices(output));
            var caps := BuildCapabilities(udid, config);
            caps.Ok? && UdidKey in caps.value && caps.value[UdidKey] == Str(udid.value)
  {
    DeviceManager.UdidTruthyIffReady(output);
  }

  // ---------------------------------------------------------------------------
  // Connecting

  /** The driver held before `connect`: none, one whose session is alive, or one whose
      session check raises (it is dropped). */
  datatype Driver = NoDriver | Live | Stale

  /** How `connect` ends: the ImportError for a missing client library, the error of a
      non-mapping `appium.capabilities` (raised before the guarded block), or a return
      value together with whether a driver is held afterwards. */
  datatype Connection =
    | MissingLibrary(message: string)
    | BadCapabilities(extra: Value)
    | Returned(ok: bool, holdsDriver: bool)

  /** `connect`, given whether the client library is installed, the driver held, the
      `adb devices` outputs seen by `is_device_ready` and by `get_device_udid`, the
      configuration, and whether the server opens the session. */
  function Connect(library: bool, driver: Driver, readyOutput: string, udidOutput: string,
                   config: Value, sessionOpens: bool): (r: Connection)
    ensures !library ==> r == MissingLibrary(ImportMessage)
    ensures library && driver == Live ==> r == Returned(true, true)
    ensures library && driver != Live ==>
              (!DeviceManager.IsDeviceReady(DeviceManager.ConnectedDevices(readyOutput)) ==> r == Returned(false, false))
    ensures (library && driver != Live && DeviceManager.IsDeviceReady(DeviceManager.ConnectedDevices(readyOutput))
             && Extra(config).Dict?) ==> r == Returned(sessionOpens, sessionOpens)
    ensures r.BadCapabilities? <==>
              library && driver != Live && DeviceManager.IsDeviceReady(DeviceManager.ConnectedDevices(readyOutput))
              && !Extra(config).Dict?
    ensures r.BadCapabilities? ==> r.extra == Extra(config)
    ensures r.Returned? ==> (r.ok <==> r.holdsDriver)
    ensures r == Returned(true, true) ==>
              driver == Live || (DeviceManager.IsDeviceReady(DeviceManager.ConnectedDevices(readyOutput)) && sessionOpens)
  {
    if !library then MissingLibrary(ImportMessage)
    else if driver == Live then Returned(true, true)
    else if !DeviceManager.IsDeviceReady(DeviceManager.ConnectedDevices(readyOutput)) then Returned(false, false)
    else
      match BuildCapabilities(DeviceManager.DeviceUdid(DeviceManager.ConnectedDevices(udidOutput)), config)
      case Err(extra) => BadCapabilities(extra)
      case Ok(_) => if sessionOpens then Returned(true, true) else Returned(false, false)
  }

  /** A stale driver is treated exactly as no driver. */
  lemma StaleIsDropped(library: bool, readyOutput: string, udidOutput: string, config: Value, sessionOpens: bool)
    ensures Connect(library, Stale, readyOutput, udidOutput, config, sessionOpens)
            == Connect(library, NoDriver, readyOutput, udidOutput, config, sessionOpens)
  {
  }

  // ---------------------------------------------------------------------------
  // Window size

  /** What asking the driver for the window size came to. */
  datatype SizeQuery = NoSession | Answered(width: int, height: int) | QueryFailed

  /** `get_window_size`: the driver's answer, or 1080 x 1920 when there is no driver or
      the query raises. */
  function WindowSize(q: SizeQuery): (r: (int, int))
    ensures q.Answered? ==> r == (q.width, q.height)
    ensures !q.Answered? ==> r == (DefaultWidth, DefaultHeight)
  {
    match q
    case Answered(w, h) => (w, h)
    case _ => (DefaultWidth, DefaultHeight)
  }
}

=== FILE: bounds.dfy ===
/** Screen rectangles as both locators read them from a UI dump: the `bounds`
    attribute `"[x1,y1][x2,y2]"`, matched with `re.findall(r'\[(\d+),(\d+)\]', s)`. */
module Bounds {
  import opened Wrappers
  import opened Text

  datatype Rect = Rect(x1: int, y1: int, x2: int, y2: int) {
    function Width(): int {
      x2 - x1
    }

    function Height(): int {
      y2 - y1
    }
  }

  /** What `_parse_bounds` returns when the attribute does not hold exactly two pairs. */
  const Zero := Rect(0, 0, 0, 0)

  predicate NonNegative(r: Rect) {
    r.x1 >= 0 && r.y1 >= 0 && r.x2 >= 0 && r.y2 >= 0
  }

  /** One match of `\[(\d+),(\d+)\]` at position `i`: the two digit texts and the index
      just past the closing bracket. Greedy `\d+` cannot give back digits to `,` or `]`,
      so the runs are maximal. */
  function PairAt(s: string, i: nat): (r: Option<(string, string, nat)>)
    ensures r.Some? ==> i < r.value.2 <= |s|
  {
    if !(i < |s| && s[i] == '[') then None
    else
      var a := DigitRun(s, i + 1);
      var j := i + 1 + a;
      if a == 0 || j >= |s| || s[j] != ',' then None
      else
        var b := DigitRun(s, j + 1);
        var k := j + 1 + b;
        if b == 0 || k >= |s| || s[k] != ']' then None
        else Some((s[i + 1..j], s[j + 1..k], k + 1))
  }

  /** `re.findall`: try a match at the front, resume after it, else move on by one. */
  function Pairs(s: string): seq<(nat, nat)>
    decreases |s|
  {
    if |s| == 0 then []
    else match PairAt(s, 0)
      case Some(m) => [(DigitsValue(m.0), DigitsValue(m.1))] + Pairs(s[m.2..])
      case None => Pairs(s[1..])
  }

  /** `_parse_bounds`: the rectangle when exactly two pairs are present, else `Zero`. */
  function ParseBounds(s: string): (r: Rect)
    ensures NonNegative(r)
    ensures |Pairs(s)| != 2 ==> r == Zero
    ensures |Pairs(s)| == 2 ==> r == Rect(Pairs(s)[0].0, Pairs(s)[0].1, Pairs(s)[1].0, Pairs(s)[1].1)
  {
    var m := Pairs(s);
    if |m| == 2 then Rect(m[0].0, m[0].1, m[1].0, m[1].1) else Zero
  }

  /** How the UI dump spells a rectangle. */
  function FormatBounds(r: Rect): string
    requires NonNegative(r)
  {
    "[" + NatToString(r.x1) + "," + NatToString(r.y1) + "][" + NatToString(r.x2) + "," + NatToString(r.y2) + "]"
  }

  /** Where a spelled-out pair `"[" + da + "," + db + "]"` sits in `s` from `i` on. */
  predicate PieceAt(s: string, i: nat, da: string, db: string) {
    && i + |da| + |db| + 3 <= |s|
    && s[i] == '[' && s[i + 1 + |da|] == ',' && s[i + 2 + |da| + |db|] == ']'
    && s[i + 1..i + 1 + |da|] == da
    && s[i + 2 + |da|..i + 2 + |da| + |db|] == db
  }

  /** A spelled-out pair of non-empty digit runs is one match. */
  lemma PairAtPiece(s: string, i: nat, da: string, db: string)
    requires |da| > 0 && |db| > 0 && AllDigits(da) && AllDigits(db)
    requires PieceAt(s, i, da, db)
    ensures PairAt(s, i) == Some((da, db, i + |da| + |db| + 3))
  {
    DigitRunOfSlice(s, i + 1, da);
    DigitRunOfSlice(s, i + 2 + |da|, db);
  }

  /** The text `"[" + da + "," + db + "]"` at `i` is laid out as `PieceAt` says. */
  lemma PieceShape(s: string, i: nat, da: string, db: string)
    requires i + |da| + |db| + 3 <= |s|
    requires s[i..i + |da| + |db| + 3] == "[" + da + "," + db + "]"
    ensures PieceAt(s, i, da, db)
  {
    var piece := "[" + da + "," + db + "]";
    assert s[i] == piece[0];
    assert s[i + 1 + |da|] == piece[1 + |da|];
    assert s[i + 2 + |da| + |db|] == piece[2 + |da| + |db|];
    assert piece[1..1 + |da|] == da;
    assert piece[2 + |da|..2 + |da| + |db|] == db;
    SubSlice(s, i, piece, 1, 1 + |da|);
    SubSlice(s, i, piece, 2 + |da|, 2 + |da| + |db|);
  }

  /** One step of the scan: a match at the front is reported and the scan resumes after it. */
  lemma PairsStep(s: string, da: string, db: string, end: nat)
    requires PairAt(s, 0) == Some((da, db, end))
    ensures Pairs(s) == [(DigitsValue(da), DigitsValue(db))] + Pairs(s[end..])
  {
  }

  /** A formatted rectangle is two pieces, the second starting at `n`, where the first ends. */
  lemma FormatShape(r: Rect, n: nat)
    requires NonNegative(r)
    requires n == |NatToString(r.x1)| + |NatToString(r.y1)| + 3
    ensures var s := FormatBounds(r);
            && |s| == n + |NatToString(r.x2)| + |NatToString(r.y2)| + 3
            && PieceAt(s, 0, NatToString(r.x1), NatToString(r.y1))
            && PieceAt(s[n..], 0, NatToString(r.x2), NatToString(r.y2))
  {
    var s := FormatBounds(r);
    var d1, d2 := NatToString(r.x1), NatToString(r.y1);
    var d3, d4 := NatToString(r.x2), NatToString(r.y2);
    var p1, p2 := "[" + d1 + "," + d2 + "]", "[" + d3 + "," + d4 + "]";
    assert s == p1 + p2;
    assert s[0..n] == p1;
    PieceShape(s, 0, d1, d2);
    var t := s[n..];
    var m := |d3| + |d4| + 3;
    assert t[0..m] == p2;
    PieceShape(t, 0, d3, d4);
  }

  /** A piece at the front is reported first, and the scan resumes at `n`, after it. */
  lemma PairsOfPieceFirst(s: string, da: string, db: string, n: nat)
    requires |da| > 0 && |db| > 0 && AllDigits(da) && AllDigits(db)
    requires PieceAt(s, 0, da, db) && n == |da| + |db| + 3
    ensures Pairs(s) == [(DigitsValue(da), DigitsValue(db))] + Pairs(s[n..])
  {
    PairAtPiece(s, 0, da, db);
    PairsStep(s, da, db, n);
  }

  /** A string that is exactly one piece reports exactly that pair. */
  lemma PairsOfPieceOnly(s: string, da: string, db: string)
    requires |da| > 0 && |db| > 0 && AllDigits(da) && AllDigits(db)
    requires PieceAt(s, 0, da, db) && |s| == |da| + |db| + 3
    ensures Pairs(s) == [(DigitsValue(da), DigitsValue(db))]
  {
    var n := |s|;
    PairsOfPieceFirst(s, da, db, n);
    assert s[n..] == [];
  }

  /** Round trip: reading back a formatted rectangle gives the rectangle. */
  lemma ParseFormatted(r: Rect)
    requires NonNegative(r)
    ensures ParseBounds(FormatBounds(r)) == r
  {
    var d1, d2 := NatToString(r.x1), NatToString(r.y1);
    var d3, d4 := NatToString(r.x2), NatToString(r.y2);
    var n := |d1| + |d2| + 3;
    var s := FormatBounds(r);
    FormatShape(r, n);
    PairsOfPieceFirst(s, d1, d2, n);
    PairsOfPieceOnly(s[n..], d3, d4);
    var a, b := (r.x1, r.y1), (r.x2, r.y2);
    assert Pairs(s) == [a] + [b];
    assert [a] + [b] == [a, b];
  }

  /** Without a `[` there is no pair, so the parse falls back to `Zero`. */
  lemma {:induction false} NoBracketNoPairs(s: string)
    requires '[' !in s
    ensures Pairs(s) == []
    decreases |s|
  {
    if |s| > 0 {
      assert '[' !in s[1..];
      NoBracketNoPairs(s[1..]);
    }
  }

  /** `(x1 + x2) // 2, (y1 + y2) // 2`: the floor midpoint of the rectangle (Dafny's
      division by a positive divisor rounds down, as Python's `//` does). */
  function Center(r: Rect): (c: (int, int))
    ensures 2 * c.0 <= r.x1 + r.x2 < 2 * c.0 + 2
    ensures 2 * c.1 <= r.y1 + r.y2 < 2 * c.1 + 2
  {
    ((r.x1 + r.x2) / 2, (r.y1 + r.y2) / 2)
  }

  /** The point acted on lies inside the rectangle. */
  lemma CenterInside(r: Rect)
    requires r.x1 <= r.x2 && r.y1 <= r.y2
    ensures r.x1 <= Center(r).0 <= r.x2 && r.y1 <= Center(r).1 <= r.y2
  {
  }
}

=== FILE: config_manager.dfy ===
/** The configuration store: a YAML document read once, addressed by dot-separated
    keys that walk nested mappings, and searched for from the working directory up. */
module ConfigManager {
  import opened Wrappers
  import opened Text
  import opened Values

  const ConfigFileName := "config.yaml"

  datatype ConfigError = NotAMapping   // the TypeError of indexing into a non-mapping

  /** The configuration file as `_load_config` finds it: absent, or present with what
      `yaml.safe_load` made of it (the message of the YAML error it raised). */
  datatype ConfigFile = Absent | Present(parsed: Result<Value, string>)

  /** `yaml.safe_load(f) or {}`, and `{}` without a file: a falsy document is empty, and a
      YAML error is raised to the caller. */
  function Load(file: ConfigFile): (r: Result<Value, string>)
    ensures r.Err? <==> file.Present? && file.parsed.Err?
    ensures r.Err? ==> r.error == file.parsed.error
    ensures r.Ok? ==> r.value.Dict? || Truthy(r.value)
    ensures file.Present? && file.parsed.Ok? && Truthy(file.parsed.value) ==> r == file.parsed
    ensures file.Absent? ==> r == Ok(Dict(map[]))
  {
    match file
    case Absent => Ok(Dict(map[]))
    case Present(Err(m)) => Err(m)
    case Present(Ok(v)) => if Truthy(v) then Ok(v) else Ok(Dict(map[]))
  }

  // ---------------------------------------------------------------------------
  // Reading

  /** Walk the path through nested mappings; `None` when a segment is missing or a
      non-mapping is reached before the end. */
  function Lookup(v: Value, path: seq<string>): (r: Option<Value>)
    decreases |path|
  {
    if |path| == 0 then Some(v)
    else if v.Dict? && path[0] in v.fields then Lookup(v.fields[path[0]], path[1..])
    else None
  }

  /** Walking a path in two parts is walking the first part, then the second from there. */
  lemma {:induction false} LookupAppend(v: Value, a: seq<string>, b: seq<string>)
    ensures Lookup(v, a + b) == match Lookup(v, a) case None => None case Some(w) => Lookup(w, b)
    decreases |a|
  {
    if |a| == 0 {
      assert a + b == b;
    } else {
      assert (a + b)[0] == a[0] && (a + b)[1..] == a[1..] + b;
      if v.Dict? && a[0] in v.fields {
        LookupAppend(v.fields[a[0]], a[1..], b);
      }
    }
  }

  /** `get`: the value at the dotted key, or `default`. */
  function Setting(config: Value, key: string, default: Value): (r: Value)
    ensures '.' !in key && config.Dict? && key in config.fields ==> r == config.fields[key]
    ensures '.' !in key && !(config.Dict? && key in config.fields) ==> r == default
  {
    PlainKey(key);
    LookupOne(config, key);
    Lookup(config, Split(key, '.')).GetOr(default)
  }

  /** A one-segment path is a single `get`. */
  lemma LookupOne(v: Value, key: string)
    ensures Lookup(v, [key]) == if v.Dict? && key in v.fields then Some(v.fields[key]) else None
  {
    assert [key][1..] == [];
    if v.Dict? && key in v.fields {
      assert Lookup(v.fields[key], []) == Some(v.fields[key]);
    }
  }

  /** A key without a dot is a single segment. */
  lemma PlainKey(key: string)
    ensures '.' !in key ==> Split(key, '.') == [key]
  {
    if '.' !in key {
      SplitNoSep(key, '.');
    }
  }

  // ---------------------------------------------------------------------------
  // Writing

  /** The walk of `set`: a missing intermediate becomes an empty mapping, and the last
      segment is written; indexing into anything but a mapping raises, before any change. */
  function SetPath(v: Value, path: seq<string>, value: Value): (r: Result<Value, ConfigError>)
    requires |path| >= 1
    decreases |path|
    ensures r.Ok? ==> v.Dict? && r.value.Dict? && r.value.fields.Keys == v.fields.Keys + {path[0]}
    ensures !v.Dict? ==> r.Err?
  {
    if !v.Dict? then Err(NotAMapping)
    else if |path| == 1 then Ok(Dict(v.fields[path[0] := value]))
    else
      var child := if path[0] in v.fields then v.fields[path[0]] else Dict(map[]);
      match SetPath(child, path[1..], value)
      case Err(e) => Err(e)
      case Ok(updated) => Ok(Dict(v.fields[path[0] := updated]))
  }

  /** `set` succeeds exactly when no proper prefix of the path leads to a non-mapping. */
  predicate OpenPath(v: Value, path: seq<string>) {
    forall i :: 0 <= i < |path| ==> Open(Lookup(v, path[..i]))
  }

  /** Nothing there, or a mapping: where `set` can go on. */
  predicate Open(o: Option<Value>) {
    o.None? || o.value.Dict?
  }

  lemma {:induction false} SetPathOkIff(v: Value, path: seq<string>, value: Value)
    requires |path| >= 1
    ensures SetPath(v, path, value).Ok? <==> OpenPath(v, path)
    decreases |path|
  {
    assert path[..0] == [];
    if v.Dict? && |path| > 1 {
      var child := if path[0] in v.fields then v.fields[path[0]] else Dict(map[]);
      SetPathOkIff(child, path[1..], value);
      forall i | 1 <= i < |path|
        ensures Open(Lookup(v, path[..i])) == Open(Lookup(child, path[1..][..i - 1]))
      {
        assert path[..i][0] == path[0] && path[..i][1..] == path[1..][..i - 1];
        if path[0] !in v.fields {
          NothingBelowEmpty(path[1..][..i - 1]);
        }
      }
      if OpenPath(v, path) {
        forall j | 0 <= j < |path[1..]|
          ensures Open(Lookup(child, path[1..][..j]))
        {
          assert Open(Lookup(v, path[..j + 1])) == Open(Lookup(child, path[1..][..j]));
        }
      }
      if OpenPath(child, path[1..]) {
        forall i | 0 <= i < |path|
          ensures Open(Lookup(v, path[..i]))
        {
          if i > 0 {
            assert Open(Lookup(v, path[..i])) == Open(Lookup(child, path[1..][..i - 1]));
          }
        }
      }
    }
  }

  /** An empty mapping holds nothing at any non-empty path, and itself at the empty one. */
  lemma NothingBelowEmpty(path: seq<string>)
    ensures Lookup(Dict(map[]), path) == if |path| == 0 then Some(Dict(map[])) else None
  {
  }

  /** After a write, the path holds the written value. */
  lemma {:induction false} SetThenLookup(v: Value, path: seq<string>, value: Value)
    requires |path| >= 1 && SetPath(v, path, value).Ok?
    ensures Lookup(SetPath(v, path, value).value, path) == Some(value)
    decreases |path|
  {
    if |path| > 1 {
      var child := if path[0] in v.fields then v.fields[path[0]] else Dict(map[]);
      SetThenLookup(child, path[1..], value);
    }
  }

  /** A write leaves every path that parts from it alone: one that agrees on the first
      `i` segments and differs on the next. */
  lemma {:induction false} SetLeavesOthers(v: Value, path: seq<string>, value: Value, other: seq<string>, i: nat)
    requires |path| >= 1 && SetPath(v, path, value).Ok?
    requires i < |path| && i < |other| && other[..i] == path[..i] && other[i] != path[i]
    ensures Lookup(SetPath(v, path, value).value, other) == Lookup(v, other)
    decreases i
  {
    if i > 0 {
      assert other[0] == path[0];
      var child := if path[0] in v.fields then v.fields[path[0]] else Dict(map[]);
      assert other[1..][..i - 1] == path[1..][..i - 1] by {
        assert other[1..][..i - 1] == other[..i][1..] && path[1..][..i - 1] == path[..i][1..];
      }
      SetLeavesOthers(child, path[1..], value, other[1..], i - 1);
      if path[0] !in v.fields {
        NothingBelowEmpty(other[1..]);
      }
    }
  }

  /** `set`: write at the dotted key (saving the file is not modelled). */
  function Assign(config: Value, key: string, value: Value): (r: Result<Value, ConfigError>)
    ensures !config.Dict? ==> r.Err?
    ensures r.Ok? ==> config.Dict? && r.value.Dict? && r.value.fields.Keys == config.fields.Keys + {Split(key, '.')[0]}
  {
    SetPath(config, Split(key, '.'), value)
  }

  /** Reading a key back after setting it gives the value set. */
  lemma AssignThenSetting(config: Value, key: string, value: Value, default: Value)
    requires Assign(config, key, value).Ok?
    ensures Setting(Assign(config, key, value).value, key, default) == value
  {
    SetThenLookup(config, Split(key, '.'), value);
  }

  /** Into a mapping whose intermediates are all mappings, or missing, every write succeeds. */
  lemma AssignSucceeds(config: Value, key: string, value: Value)
    requires OpenPath(config, Split(key, '.'))
    ensures Assign(config, key, value).Ok?
  {
    SetPathOkIff(config, Split(key, '.'), value);
  }

  // ---------------------------------------------------------------------------
  // Validation

  const ApiKeyMissing := "qianwen.api_key 未设置"
  const PackageMissing := "app.package 未设置"

  /** The checks of `validate`, given the two settings it reads. */
  function Complaints(apiKey: Value, package: Value): (r: (bool, seq<string>))
    ensures ApiKeyMissing in r.1 <==> !Truthy(apiKey)
    ensures PackageMissing in r.1 <==> !Truthy(package)
    ensures |r.1| <= 2 && forall e :: e in r.1 ==> e == ApiKeyMissing || e == PackageMissing
    ensures r.0 <==> r.1 == []
  {
    var errors := (if !Truthy(apiKey) then [ApiKeyMissing] else [])
                + (if !Truthy(package) then [PackageMissing] else []);
    (|errors| == 0, errors)
  }

  /** `validate`: one complaint per falsy required setting, valid iff there is none. */
  function Validate(config: Value): (r: (bool, seq<string>))
    ensures r.0 <==> r.1 == []
    ensures ApiKeyMissing in r.1 <==> !Truthy(Setting(config, "qianwen.api_key", Null))
    ensures PackageMissing in r.1 <==> !Truthy(Setting(config, "app.package", Null))
    ensures forall e :: e in r.1 ==> e == ApiKeyMissing || e == PackageMissing
  {
    Complaints(Setting(config, "qianwen.api_key", Null), Setting(config, "app.package", Null))
  }

  /** Splitting a dotted key spelled from dot-free segments gives the segments back. */
  lemma DottedKey(a: string, b: string)
    requires '.' !in a && '.' !in b
    ensures Split(a + "." + b, '.') == [a, b]
  {
    var parts := [a, b];
    assert Join(parts, ".") == a + "." + b by {
      assert parts[1..] == [b];
    }
    JoinSplit(parts, '.');
  }

  /** `validate` complains about the API key exactly when `qianwen` → `api_key` is
      missing or falsy. */
  lemma ValidateReadsApiKey(config: Value)
    ensures ApiKeyMissing in Validate(config).1 <==> !Truthy(Lookup(config, ["qianwen", "api_key"]).GetOr(Null))
  {
    assert "qianwen" + "." + "api_key" == "qianwen.api_key";
    DottedKey("qianwen", "api_key");
  }

  // ---------------------------------------------------------------------------
  // Finding the file

  /** A directory is the list of its path components from the root. */
  type Dir = seq<string>

  /** The nearest directory from `cwd[..n]` up that holds the file, if any. */
  function SearchUp(cwd: Dir, n: nat, present: Dir -> bool): (r: Option<nat>)
    requires n <= |cwd|
    ensures r.Some? ==> r.value <= n && present(cwd[..r.value] + [ConfigFileName])
    ensures r.Some? ==> forall m :: r.value < m <= n ==> !present(cwd[..m] + [ConfigFileName])
    ensures r.None? ==> forall m :: 0 <= m <= n ==> !present(cwd[..m] + [ConfigFileName])
  {
    if present(cwd[..n] + [ConfigFileName]) then Some(n)
    else if n == 0 then None
    else SearchUp(cwd, n - 1, present)
  }

  /** `_find_config_file`: the working directory's file if it exists, else the nearest
      ancestor's, else the working directory's all the same. */
  function FindConfigFile(cwd: Dir, present: Dir -> bool): (r: Dir)
    ensures present(r) ==> exists n :: 0 <= n <= |cwd| && r == cwd[..n] + [ConfigFileName]
    ensures present(cwd + [ConfigFileName]) ==> r == cwd + [ConfigFileName]
    ensures !present(r) ==> r == cwd + [ConfigFileName] && forall m :: 0 <= m <= |cwd| ==> !present(cwd[..m] + [ConfigFileName])
  {
    assert cwd[..|cwd|] == cwd;
    match SearchUp(cwd, |cwd|, present)
    case Some(n) => cwd[..n] + [ConfigFileName]
    case None => cwd + [ConfigFileName]
  }

  /** The file chosen is the nearest one: no directory between it and the working
      directory holds one. */
  lemma FindConfigFileNearest(cwd: Dir, present: Dir -> bool, n: nat)
    requires n <= |cwd| && FindConfigFile(cwd, present) == cwd[..n] + [ConfigFileName] && present(cwd[..n] + [ConfigFileName])
    ensures forall m :: n < m <= |cwd| ==> !present(cwd[..m] + [ConfigFileName])
  {
    assert cwd[..|cwd|] == cwd;
    var s := SearchUp(cwd, |cwd|, present);
    assert s.Some?;
    assert |FindConfigFile(cwd, present)| == s.value + 1;
  }
}

=== FILE: device_manager.dfy ===
/** The Genymotion device manager: reading `adb devices`, deciding whether a device is
    ready and which one, and the decisions `start` and `stop` take. The `adb` calls, the
    player process and the clock are parameters: each call's console output is given. */
module DeviceManager {
  import opened Wrappers
  import opened Text

  const DefaultPlayerPath := "C:/Program Files/Genymobile/Genymotion/player.exe"
  const DefaultDeviceName := "Google Pixel 3 XL"
  const DefaultStartupTimeout := 120

  /** The state `adb` reports for a device that is online and usable. */
  const Ready := "device"

  /** One row of `adb devices`. */
  datatype Device = Device(udid: string, status: string)

  // ---------------------------------------------------------------------------
  // Reading `adb devices`

  /** A row becomes a device when it is not blank, mentions "device" somewhere, and has
      at least two whitespace-separated words: the first two are the udid and status. */
  function DeviceOf(line: string): (r: Option<Device>)
    ensures r.Some? ==> Contains(line, Ready) && |SplitWs(line)| >= 2
    ensures r.Some? ==> IsToken(r.value.udid) && IsToken(r.value.status)
    ensures Contains(line, Ready) && |SplitWs(line)| >= 2 ==> r.Some?
  {
    BlankLine(line);
    RowDevice(Strip(line) != "" && Contains(line, Ready), SplitWs(line))
  }

  /** The device of a row, given whether it may hold one and its words. */
  function RowDevice(candidate: bool, parts: seq<string>): (r: Option<Device>)
    ensures r.Some? <==> candidate && |parts| >= 2
    ensures r.Some? ==> r.value == Device(parts[0], parts[1])
  {
    if candidate && |parts| >= 2 then Some(Device(parts[0], parts[1])) else None
  }

  lemma BlankLine(line: string)
    ensures Strip(line) == "" ==> |SplitWs(line)| == 0
  {
    if Strip(line) == "" {
      BlankHasNoWords(line);
    }
  }

  /** A line that strips to nothing has no words. */
  lemma BlankHasNoWords(line: string)
    requires Strip(line) == ""
    ensures |SplitWs(line)| == 0
  {
    var t := TrimStart(line);
    assert |TrimEnd(t)| == 0;
    assert |t| == 0;
    AllSpaceNoWords(line);
  }

  lemma {:induction false} AllSpaceNoWords(s: string)
    requires TrimStart(s) == ""
    ensures SplitWs(s) == []
    decreases |s|
  {
    if |s| > 0 {
      assert IsSpace(s[0]);
      AllSpaceNoWords(s[1..]);
    }
  }

  /** What `read` makes of each row, in order, rows it reads as nothing being skipped. */
  function Collect(read: string -> Option<Device>, lines: seq<string>): (r: seq<Device>)
    ensures |r| <= |lines|
    ensures forall d :: d in r ==> exists i :: 0 <= i < |lines| && read(lines[i]) == Some(d)
    ensures forall i :: 0 <= i < |lines| && read(lines[i]).Some? ==> read(lines[i]).value in r
  {
    if |lines| == 0 then []
    else
      var rest := Collect(read, lines[1..]);
      assert forall i :: 1 <= i < |lines| ==> lines[i] == lines[1..][i - 1];
      if read(lines[0]).Some? then [read(lines[0]).value] + rest else rest
  }

  /** The devices of the rows, in order. */
  function DevicesOf(lines: seq<string>): (r: seq<Device>)
    ensures |r| <= |lines|
    ensures forall d :: d in r ==> exists i :: 0 <= i < |lines| && DeviceOf(lines[i]) == Some(d)
    ensures forall i :: 0 <= i < |lines| && DeviceOf(lines[i]).Some? ==> DeviceOf(lines[i]).value in r
    ensures forall i :: 0 <= i < |r| ==> Tokens(r[i])
  {
    var r := Collect(DeviceOf, lines);
    assert forall i :: 0 <= i < |r| ==> Tokens(r[i]) by {
      forall i | 0 <= i < |r| ensures Tokens(r[i]) {
        assert r[i] in r;
        var j :| 0 <= j < |lines| && DeviceOf(lines[j]) == Some(r[i]);
      }
    }
    r
  }

  /** Rows are read one after another: the devices of two blocks of rows are the devices
      of the first block followed by those of the second. */
  lemma {:induction false} CollectAppend(read: string -> Option<Device>, a: seq<string>, b: seq<string>)
    ensures Collect(read, a + b) == Collect(read, a) + Collect(read, b)
    decreases |a|
  {
    if |a| > 0 {
      assert (a + b)[1..] == a[1..] + b;
      assert (a + b)[0] == a[0];
      CollectAppend(read, a[1..], b);
    } else {
      assert a + b == b;
    }
  }

  lemma DevicesOfAppend(a: seq<string>, b: seq<string>)
    ensures DevicesOf(a + b) == DevicesOf(a) + DevicesOf(b)
  {
    CollectAppend(DeviceOf, a, b);
  }

  /** `get_connected_devices`: the output is stripped, split into lines, and the first
      line (the "List of devices attached" header) is skipped. */
  function ConnectedDevices(output: string): (r: seq<Device>)
    ensures forall i :: 0 <= i < |r| ==> Tokens(r[i])
  {
    DevicesOf(Split(Strip(output), '\n')[1..])
  }

  // ---------------------------------------------------------------------------
  // Readiness

  /** Some device reports the ready status. */
  function AnyReady(devices: seq<Device>): (r: bool)
    ensures r <==> exists i :: 0 <= i < |devices| && devices[i].status == Ready
  {
    if |devices| == 0 then false
    else if devices[0].status == Ready then true
    else
      assert forall i :: 1 <= i < |devices| ==> devices[i] == devices[1..][i - 1];
      AnyReady(devices[1..])
  }

  /** `is_device_ready`. */
  function IsDeviceReady(devices: seq<Device>): (r: bool)
    ensures r <==> exists i :: 0 <= i < |devices| && devices[i].status == Ready
  {
    |devices| > 0 && AnyReady(devices)
  }

  /** `get_device_udid`: the udid of the first ready device. */
  function DeviceUdid(devices: seq<Device>): (r: Option<string>)
    ensures r.None? <==> forall i :: 0 <= i < |devices| ==> devices[i].status != Ready
    ensures r.Some? ==> exists i :: 0 <= i < |devices| && devices[i].status == Ready && devices[i].udid == r.value
                                    && forall j :: 0 <= j < i ==> devices[j].status != Ready
  {
    if |devices| == 0 then None
    else if devices[0].status == Ready then Some(devices[0].udid)
    else
      var r := DeviceUdid(devices[1..]);
      assert forall i :: 1 <= i < |devices| ==> devices[i] == devices[1..][i - 1];
      if r.Some? then
        var i :| 0 <= i < |devices[1..]| && devices[1..][i].status == Ready && devices[1..][i].udid == r.value
                 && forall j :: 0 <= j < i ==> devices[1..][j].status != Ready;
        assert devices[i + 1].status == Ready && devices[i + 1].udid == r.value;
        assert forall j :: 0 <= j < i + 1 ==> devices[j].status != Ready by {
          forall j | 0 <= j < i + 1
            ensures devices[j].status != Ready
          {
            if j > 0 {
              assert devices[j] == devices[1..][j - 1];
            }
          }
        }
        r
      else r
  }

  /** A device is ready exactly when there is a udid to report. */
  lemma ReadyIffUdid(devices: seq<Device>)
    ensures IsDeviceReady(devices) <==> DeviceUdid(devices).Some?
  {
  }

  /** `if udid:` — a udid read from `adb` is never empty, so it is truthy exactly when
      some device is ready. */
  lemma UdidTruthyIffReady(output: string)
    ensures var u := DeviceUdid(ConnectedDevices(output));
            (u.Some? && u.value != "") <==> IsDeviceReady(ConnectedDevices(output))
  {
    var ds := ConnectedDevices(output);
    var u := DeviceUdid(ds);
    if u.Some? {
      var i :| 0 <= i < |ds| && ds[i].status == Ready && ds[i].udid == u.value;
      assert IsToken(ds[i].udid);
    }
  }

  // ---------------------------------------------------------------------------
  // The round trip: what `adb devices` prints for a list of devices reads back as it

  const Header := "List of devices attached"

  function Row(d: Device): string {
    d.udid + "\t" + d.status
  }

  function Rows(devices: seq<Device>): (r: seq<string>)
    ensures |r| == |devices|
  {
    if |devices| == 0 then [] else [Row(devices[0])] + Rows(devices[1..])
  }

  lemma {:induction false} RowsAt(devices: seq<Device>, i: nat)
    requires i < |devices|
    ensures Rows(devices)[i] == Row(devices[i])
    decreases i
  {
    if i > 0 {
      RowsAt(devices[1..], i - 1);
    }
  }

  /** The listing `adb devices` prints: a header, one tab-separated row per device, and
      a blank line. */
  function Listing(devices: seq<Device>): string {
    ListingUnder(Header, devices)
  }

  function ListingUnder(header: string, devices: seq<Device>): string {
    if |devices| == 0 then header + "\n\n"
    else header + "\n" + Join(Rows(devices), "\n") + "\n\n"
  }

  /** A device whose row mentions "device" (every ready one does) is listed. */
  predicate Listed(d: Device) {
    Tokens(d) && Contains(Row(d), Ready)
  }

  /** Udid and status are single words, as `adb` prints them. */
  predicate Tokens(d: Device) {
    IsToken(d.udid) && IsToken(d.status)
  }

  lemma {:induction false} TokenLengthOf(w: string, rest: string)
    requires NoSpace(w) && (rest == "" || IsSpace(rest[0]))
    ensures TokenLength(w + rest) == |w|
    decreases |w|
  {
    if |w| > 0 {
      assert (w + rest)[1..] == w[1..] + rest;
      assert !IsSpace(w[0]);
      TokenLengthOf(w[1..], rest);
    } else {
      assert w + rest == rest;
    }
  }

  lemma WordsOfRow(d: Device)
    requires IsToken(d.udid) && IsToken(d.status)
    ensures SplitWs(Row(d)) == [d.udid, d.status]
  {
    var u, s := d.udid, d.status;
    assert Row(d) == u + ("\t" + s);
    LeadingWord(u, "\t" + s);
    SkipTab(s);
    LeadingWord(s, "");
    assert s + "" == s;
  }

  /** A word followed by whitespace or nothing is the first word. */
  lemma LeadingWord(w: string, rest: string)
    requires IsToken(w) && (rest == "" || IsSpace(rest[0]))
    ensures SplitWs(w + rest) == [w] + SplitWs(rest)
  {
    var t := w + rest;
    TokenLengthOf(w, rest);
    assert t[0] == w[0];
    assert t[..|w|] == w && t[|w|..] == rest;
  }

  lemma SkipTab(s: string)
    ensures SplitWs("\t" + s) == SplitWs(s)
  {
    assert ("\t" + s)[0] == '\t' && ("\t" + s)[1..] == s;
  }

  /** The row of a listed device reads back as that device. */
  lemma DeviceOfRow(d: Device)
    requires Listed(d)
    ensures DeviceOf(Row(d)) == Some(d)
  {
    WordsOfRow(d);
  }

  /** A reader that reads each printed row back as its device collects the devices. */
  lemma {:induction false} CollectRows(read: string -> Option<Device>, devices: seq<Device>)
    requires forall i :: 0 <= i < |devices| ==> read(Row(devices[i])) == Some(devices[i])
    ensures Collect(read, Rows(devices)) == devices
    decreases |devices|
  {
    if |devices| > 0 {
      var rest := devices[1..];
      var rows := Rows(devices);
      assert rows[0] == Row(devices[0]) && rows[1..] == Rows(rest);
      assert forall i :: 0 <= i < |rest| ==> rest[i] == devices[i + 1];
      CollectRows(read, rest);
      assert devices == [devices[0]] + rest;
    }
  }

  lemma DevicesOfRows(devices: seq<Device>)
    requires forall i :: 0 <= i < |devices| ==> Listed(devices[i])
    ensures DevicesOf(Rows(devices)) == devices
  {
    forall i | 0 <= i < |devices| ensures DeviceOf(Row(devices[i])) == Some(devices[i]) {
      DeviceOfRow(devices[i]);
    }
    CollectRows(DeviceOf, devices);
  }

  lemma RowNoNewline(d: Device)
    requires IsToken(d.udid) && IsToken(d.status)
    ensures '\n' !in Row(d)
  {
    assert IsSpace('\n');
    forall k | 0 <= k < |Row(d)|
      ensures Row(d)[k] != '\n'
    {
      if k < |d.udid| {
        assert Row(d)[k] == d.udid[k];
      } else if k > |d.udid| {
        assert Row(d)[k] == d.status[k - |d.udid| - 1];
      }
    }
  }

  /** Reading the listing of listed devices gives back those devices. */
  lemma ListingRoundTrip(devices: seq<Device>)
    requires forall i :: 0 <= i < |devices| ==> Listed(devices[i])
    ensures ConnectedDevices(Listing(devices)) == devices
  {
    if |devices| == 0 {
      EmptyListing();
    } else {
      var rows := Rows(devices);
      HeaderLine();
      ListingLines(Header, devices);
      assert Split(Strip(Listing(devices)), '\n')[1..] == rows;
      DevicesOfRows(devices);
    }
  }

  lemma EmptyListing()
    ensures ConnectedDevices(Header + "\n\n") == []
  {
    HeaderLine();
    StripTrailingSpace(Header, "\n\n");
    SplitNoSep(Header, '\n');
  }

  /** The header is one line of text that starts and ends with a letter. */
  lemma HeaderLine()
    ensures |Header| >= 1 && !IsSpace(Header[0]) && IsStripped(Header) && '\n' !in Header
  {
    assert Header[0] == 'L' && Header[|Header| - 1] == 'd';
  }

  /** The lines of a non-empty listing, once stripped: the header, then the rows. */
  lemma ListingLines(header: string, devices: seq<Device>)
    requires |header| >= 1 && !IsSpace(header[0]) && '\n' !in header
    requires |devices| >= 1 && forall i :: 0 <= i < |devices| ==> Tokens(devices[i])
    ensures Split(Strip(ListingUnder(header, devices)), '\n') == [header] + Rows(devices)
  {
    var rows := Rows(devices);
    RowLines(devices, rows);
    BodyLines(header, rows, Join(rows, "\n"));
  }

  lemma RowLines(devices: seq<Device>, rows: seq<string>)
    requires forall i :: 0 <= i < |devices| ==> Tokens(devices[i])
    requires rows == Rows(devices)
    ensures forall i :: 0 <= i < |rows| ==> RowLine(rows[i])
  {
    forall i | 0 <= i < |rows|
      ensures RowLine(rows[i])
    {
      RowsAt(devices, i);
      RowToken(devices[i]);
    }
  }

  lemma BodyLines(header: string, rows: seq<string>, body: string)
    requires |header| >= 1 && !IsSpace(header[0]) && '\n' !in header
    requires |rows| >= 1 && forall i :: 0 <= i < |rows| ==> RowLine(rows[i])
    requires body == Join(rows, "\n")
    ensures Split(Strip(header + "\n" + body + "\n\n"), '\n') == [header] + rows
  {
    var text := header + "\n" + body;
    assert Strip(text + "\n\n") == text by {
      JoinEnds(rows, body);
      TextStrip(header, body);
    }
    assert Split(text, '\n') == [header] + Split(body, '\n') by {
      SplitConcat(header, body, '\n');
    }
    assert Split(body, '\n') == rows by {
      assert forall i :: 0 <= i < |rows| ==> '\n' !in rows[i];
      JoinSplit(rows, '\n');
    }
  }

  lemma TextStrip(header: string, body: string)
    requires |header| >= 1 && !IsSpace(header[0])
    requires |body| >= 1 && !IsSpace(body[|body| - 1])
    ensures Strip(header + "\n" + body + "\n\n") == header + "\n" + body
  {
    var text := header + "\n" + body;
    assert text[|text| - 1] == body[|body| - 1];
    assert text[0] == header[0];
    StripTrailingSpace(text, "\n\n");
  }

  /** A row is one line that does not end in whitespace. */
  predicate RowLine(r: string) {
    |r| >= 1 && !IsSpace(r[|r| - 1]) && '\n' !in r
  }

  lemma RowToken(d: Device)
    requires Tokens(d)
    ensures RowLine(Row(d))
  {
    RowNoNewline(d);
    assert Row(d)[|Row(d)| - 1] == d.status[|d.status| - 1];
  }

  /** Rows joined by newlines end where the last row ends: not in whitespace. */
  lemma {:induction false} JoinEnds(rows: seq<string>, j: string)
    requires |rows| >= 1 && forall i :: 0 <= i < |rows| ==> RowLine(rows[i])
    requires j == Join(rows, "\n")
    ensures |j| >= 1 && !IsSpace(j[|j| - 1])
    decreases |rows|
  {
    if |rows| > 1 {
      var t := Join(rows[1..], "\n");
      JoinEnds(rows[1..], t);
      assert j == rows[0] + "\n" + t;
      assert j[|j| - 1] == t[|t| - 1];
    } else {
      assert j == rows[0];
    }
  }

  /** Stripping drops trailing whitespace after stripped text. */
  lemma StripTrailingSpace(s: string, ws: string)
    requires |s| >= 1 && IsStripped(s) && NoWord(ws)
    ensures Strip(s + ws) == s
  {
    var t := s + ws;
    assert TrimStart(t) == t;
    TrimEndSpace(s, ws);
  }

  predicate NoWord(ws: string) {
    forall k :: 0 <= k < |ws| ==> IsSpace(ws[k])
  }

  lemma {:induction false} TrimEndSpace(s: string, ws: string)
    requires |s| >= 1 && !IsSpace(s[|s| - 1]) && NoWord(ws)
    ensures TrimEnd(s + ws) == s
    decreases |ws|
  {
    if |ws| == 0 {
      assert s + ws == s;
    } else {
      var t := s + ws;
      assert t[|t| - 1] == ws[|ws| - 1];
      assert t[..|t| - 1] == s + ws[..|ws| - 1];
      TrimEndSpace(s, ws[..|ws| - 1]);
    }
  }

  // ---------------------------------------------------------------------------
  // Starting and stopping

  /** What `start` did: its return value and whether it launched the player. */
  datatype Started = Started(ok: bool, launched: bool)

  /** Some poll of the boot loop saw a ready device. */
  predicate AnyPollReady(polls: seq<string>) {
    exists i :: 0 <= i < |polls| && PollReady(polls[i])
  }

  predicate PollReady(output: string) {
    IsDeviceReady(ConnectedDevices(output))
  }

  /** `start`, given the `adb devices` output before anything is done, whether the
      player executable exists, the outputs the boot loop saw before the startup timeout
      ran out, and the output read once the loop broke off. */
  function Start(before: string, playerExists: bool, polls: seq<string>, after: string): (r: Started)
    ensures IsDeviceReady(ConnectedDevices(before)) ==> r == Started(true, false)
    ensures !IsDeviceReady(ConnectedDevices(before)) && !playerExists ==> r == Started(false, false)
    ensures r.launched <==> !IsDeviceReady(ConnectedDevices(before)) && playerExists
    ensures r.launched ==> (r.ok <==> AnyPollReady(polls) && IsDeviceReady(ConnectedDevices(after)))
  {
    if IsDeviceReady(ConnectedDevices(before)) then Started(true, false)
    else if !playerExists then Started(false, false)
    else if !BootedFrom(polls, 0) then Started(false, true)
    else
      var udid := DeviceUdid(ConnectedDevices(after));
      UdidTruthyIffReady(after);
      Started(udid.Some? && udid.value != "", true)
  }

  /** The boot loop from poll `i` on: it stops at the first poll that sees a ready
      device. */
  function BootedFrom(polls: seq<string>, i: nat): (r: bool)
    decreases |polls| - i
    ensures r <==> exists j :: i <= j < |polls| && PollReady(polls[j])
  {
    if i >= |polls| then false
    else if PollReady(polls[i]) then true
    else BootedFrom(polls, i + 1)
  }

  /** What `stop` did: its return value, whether it sent `adb emu kill`, whether it
      terminated the player, and whether a process handle is kept afterwards. */
  datatype Stopped = Stopped(ok: bool, emuKill: bool, terminated: bool, processKept: bool)

  /** `stop`, given the `adb devices` output and whether a player process is held. */
  function Stop(output: string, hasProcess: bool): (r: Stopped)
    ensures r.ok && !r.processKept
    ensures r.emuKill <==> IsDeviceReady(ConnectedDevices(output))
    ensures r.terminated == hasProcess
  {
    var udid := DeviceUdid(ConnectedDevices(output));
    UdidTruthyIffReady(output);
    Stopped(true, udid.Some? && udid.value != "", hasProcess, false)
  }
}

=== FILE: hierarchy_locator.dfy ===
/** The structural locator: it reads the UI dump as a flat list of attribute maps in
    document order, keeps the meaningful nodes, numbers them 0..n-1, lists them for the
    classifier and resolves the classifier's answer to one element with bounded retry. */
module HierarchyLocator {
  import opened Wrappers
  import opened Text
  import opened Bounds
  import opened Numbering
  import opened Locating
  import opened Values

  /** One node of the dump: its attributes. */
  type Node = map<string, string>

  datatype UIElement = UIElement(
    index: nat,
    text: string,
    contentDesc: string,
    resourceId: string,
    className: string,
    bounds: Rect,
    clickable: bool,
    enabled: bool,
    focused: bool,
    selected: bool)

  /** The last `.`-separated part of the class name. */
  function ShortClass(e: UIElement): (r: string)
    ensures '.' !in r
    ensures r == AfterLast(e.className, '.')
  {
    var parts := Split(e.className, '.');
    AfterLastIsLastPiece(e.className, '.');
    parts[|parts| - 1]
  }

  /** The last `/`-separated part of a resource id, taken the way `display_text` does:
      the last piece when there is more than one, else the id itself. */
  function ShortId(rid: string): (r: string)
    ensures r == AfterLast(rid, '/')
  {
    var parts := Split(rid, '/');
    AfterLastIsLastPiece(rid, '/');
    SplitJoin(rid, '/');
    if |parts| > 1 then parts[|parts| - 1] else rid
  }

  /** The label the locator prints for an element: text, then description, then the
      short resource id, then the short class name. */
  function DisplayText(e: UIElement): (r: string)
    ensures e.text != "" ==> r == e.text
    ensures e.text == "" && e.contentDesc != "" ==> r == e.contentDesc
    ensures e.text == "" && e.contentDesc == "" && e.resourceId != "" ==>
              r == AfterLast(e.resourceId, '/')
    ensures e.text == "" && e.contentDesc == "" && e.resourceId == "" ==>
              r == AfterLast(e.className, '.')
  {
    if e.text != "" then e.text
    else if e.contentDesc != "" then e.contentDesc
    else if e.resourceId != "" then ShortId(e.resourceId)
    else ShortClass(e)
  }

  // ---------------------------------------------------------------------------
  // Extraction

  /** The element built from a node that is kept, numbered `index`. Missing attributes
      default to the empty string; `clickable`, `focused` and `selected` default to false
      and `enabled` to true. */
  function ToElement(n: Node, index: nat): UIElement {
    UIElement(
      index,
      Get(n, "text", ""),
      Get(n, "content-desc", ""),
      Get(n, "resource-id", ""),
      Get(n, "class", ""),
      ParseBounds(Get(n, "bounds", "")),
      Get(n, "clickable", "false") == "true",
      Get(n, "enabled", "true") == "true",
      Get(n, "focused", "false") == "true",
      Get(n, "selected", "false") == "true")
  }

  /** Which nodes the extractor keeps: a non-empty bounds attribute, some text,
      description or resource id (or a clickable flag), and more than 10 pixels each way. */
  predicate Kept(n: Node) {
    var b := ParseBounds(Get(n, "bounds", ""));
    && Get(n, "bounds", "") != ""
    && (|| Get(n, "text", "") != ""
        || Get(n, "content-desc", "") != ""
        || Get(n, "resource-id", "") != ""
        || Get(n, "clickable", "false") == "true")
    && b.Width() > 10
    && b.Height() > 10
  }

  /** The kept nodes, in document order. */
  function KeptNodes(nodes: seq<Node>): (r: seq<Node>)
    ensures |r| <= |nodes|
    ensures forall i :: 0 <= i < |r| ==> Kept(r[i])
  {
    if |nodes| == 0 then []
    else if Kept(nodes[0]) then [nodes[0]] + KeptNodes(nodes[1..])
    else KeptNodes(nodes[1..])
  }

  /** What an element promises about the node it came from. */
  predicate Meaningful(e: UIElement) {
    && (e.text != "" || e.contentDesc != "" || e.resourceId != "" || e.clickable)
    && e.bounds.Width() > 10
    && e.bounds.Height() > 10
  }

  /** The extraction loop: walk the nodes once, numbering each survivor with the next
      free index. */
  function ParseNodes(nodes: seq<Node>, next: nat): (r: seq<UIElement>)
    ensures |r| <= |nodes|
    ensures forall i :: 0 <= i < |r| ==> r[i].index == next + i
    ensures forall i :: 0 <= i < |r| ==> Meaningful(r[i])
    ensures forall i :: 0 <= i < |r| ==> NonNegative(r[i].bounds)
  {
    if |nodes| == 0 then []
    else
      var n := nodes[0];
      var hasText := Get(n, "text", "") != "" || Get(n, "content-desc", "") != ""
                     || Get(n, "resource-id", "") != "";
      var clickable := Get(n, "clickable", "false") == "true";
      var boundsText := Get(n, "bounds", "");
      if boundsText != "" && (hasText || clickable) then
        var b := ParseBounds(boundsText);
        if b.Width() > 10 && b.Height() > 10 then
          [ToElement(n, next)] + ParseNodes(nodes[1..], next + 1)
        else ParseNodes(nodes[1..], next)
      else ParseNodes(nodes[1..], next)
  }

  /** The extraction loop numbers exactly the kept nodes. */
  lemma {:induction false} ParseNodesIsNumbered(nodes: seq<Node>, next: nat)
    ensures ParseNodes(nodes, next) == Numbered(ToElement, KeptNodes(nodes), next)
  {
    if |nodes| > 0 {
      ParseNodesStep(nodes, next);
      var kept := KeptNodes(nodes);
      if Kept(nodes[0]) {
        ParseNodesIsNumbered(nodes[1..], next + 1);
        assert kept[0] == nodes[0] && kept[1..] == KeptNodes(nodes[1..]);
      } else {
        ParseNodesIsNumbered(nodes[1..], next);
      }
    }
  }

  /** The extractor's output is exactly the kept nodes, numbered from `next` on. */
  lemma ParseNodesNumbersKept(nodes: seq<Node>, next: nat)
    ensures |ParseNodes(nodes, next)| == |KeptNodes(nodes)|
    ensures forall i :: 0 <= i < |KeptNodes(nodes)| ==>
              ParseNodes(nodes, next)[i] == ToElement(KeptNodes(nodes)[i], next + i)
  {
    ParseNodesIsNumbered(nodes, next);
    NumberedAt(ToElement, KeptNodes(nodes), next);
  }

  /** The loop's test on one node is `Kept`. */
  lemma ParseNodesStep(nodes: seq<Node>, next: nat)
    requires |nodes| > 0
    ensures Kept(nodes[0]) ==> ParseNodes(nodes, next) == [ToElement(nodes[0], next)] + ParseNodes(nodes[1..], next + 1)
    ensures !Kept(nodes[0]) ==> ParseNodes(nodes, next) == ParseNodes(nodes[1..], next)
  {
  }

  /** The parsed dump: `None` when the XML does not parse. */
  function ParseHierarchy(parsed: Option<seq<Node>>): (r: seq<UIElement>)
    ensures parsed.None? ==> r == []
    ensures forall i :: 0 <= i < |r| ==> r[i].index == i && Meaningful(r[i])
  {
    match parsed
    case None => []
    case Some(nodes) => ParseNodes(nodes, 0)
  }

  /** The device's page source: its text, and the node list the XML parser makes of it
      (`None` when it does not parse). */
  datatype PageSource = PageSource(text: string, nodes: Option<seq<Node>>)

  /** `dump_and_parse`: an empty page source is an error; unparsable XML is no elements. */
  function DumpAndParse(page: PageSource): (r: Result<seq<UIElement>, LocateError>)
    ensures r.Err? <==> page.text == ""
    ensures r.Err? ==> r.error == NoHierarchy
    ensures r.Ok? && page.nodes.None? ==> r.value == []
  {
    if page.text == "" then Err(NoHierarchy) else Ok(ParseHierarchy(page.nodes))
  }

  // ---------------------------------------------------------------------------
  // The listing shown to the classifier

  function Quoted(name: string, value: string): string {
    name + "=\"" + value + "\""
  }

  /** The attribute part of a line: text, description and short id when present. */
  function AttrParts(e: UIElement): (r: seq<string>)
    ensures |r| == 0 <==> e.text == "" && e.contentDesc == "" && e.resourceId == ""
    ensures e.text != "" ==> r[0] == Quoted("文本", e.text)
  {
    (if e.text != "" then [Quoted("文本", e.text)] else [])
    + (if e.contentDesc != "" then [Quoted("描述", e.contentDesc)] else [])
    + (if e.resourceId != "" then ["ID=" + AfterLast(e.resourceId, '/')] else [])
  }

  /** The status words: clickable, focused, selected, disabled, in that order. */
  function StatusParts(e: UIElement): (r: seq<string>)
    ensures "可点击" in r <==> e.clickable
    ensures "聚焦" in r <==> e.focused
    ensures "已选中" in r <==> e.selected
    ensures "禁用" in r <==> !e.enabled
    ensures |r| <= 4
  {
    (if e.clickable then ["可点击"] else [])
    + (if e.focused then ["聚焦"] else [])
    + (if e.selected then ["已选中"] else [])
    + (if !e.enabled then ["禁用"] else [])
  }

  /** The start of an element's line: its index in brackets. */
  function IndexLabel(index: nat): string {
    "[" + NatToString(index) + "] "
  }

  /** What follows the label: `attrs (ShortClass)` and ` [status, ...]` when there is a
      status; the attributes fall back to the short class name. */
  function LineBody(e: UIElement): string {
    var attrs := AttrParts(e);
    var status := StatusParts(e);
    var attrText := if |attrs| > 0 then Join(attrs, ", ") else ShortClass(e);
    var statusText := if |status| > 0 then " [" + Join(status, ", ") + "]" else "";
    attrText + " (" + ShortClass(e) + ")" + statusText
  }

  /** One line of the listing. */
  function ElementLine(e: UIElement): (r: string)
    ensures |IndexLabel(e.index)| <= |r| && r[..|IndexLabel(e.index)|] == IndexLabel(e.index)
  {
    var lead := IndexLabel(e.index);
    var body := LineBody(e);
    assert (lead + body)[..|lead|] == lead;
    lead + body
  }

  const PromptHeader: seq<string> := ["当前界面的 UI 元素列表：", ""]

  /** The listing: two header lines, then one line per element in list order. */
  function ElementPrompt(elements: seq<UIElement>): (r: string)
  {
    Join(PromptHeader + seq(|elements|, i requires 0 <= i < |elements| => ElementLine(elements[i])), "\n")
  }

  /** When no element text contains a line break, line `2 + i` of the listing is the
      line of element `i`. */
  lemma ElementPromptLines(elements: seq<UIElement>)
    requires forall i :: 0 <= i < |elements| ==> '\n' !in ElementLine(elements[i])
    ensures Split(ElementPrompt(elements), '\n')
         == PromptHeader + seq(|elements|, i requires 0 <= i < |elements| => ElementLine(elements[i]))
  {
    var lines := PromptHeader + seq(|elements|, i requires 0 <= i < |elements| => ElementLine(elements[i]));
    forall i | 0 <= i < |lines|
      ensures '\n' !in lines[i]
    {
      if i >= 2 {
        assert lines[i] == ElementLine(elements[i - 2]);
      }
    }
    JoinSplit(lines, '\n');
  }

  // ---------------------------------------------------------------------------
  // Reading the classifier's answer

  /** The first number in an element's line is its index: the listing's numbering reads
      back unchanged. */
  lemma LineNumberReadsBack(e: UIElement)
    ensures FirstSignedInt(ElementLine(e)) == Some(e.index as int)
  {
    LabelReadsBack(ElementLine(e), e.index);
  }

  /** Any text starting with `[n] ` has `n` as its first number. */
  lemma LabelReadsBack(line: string, n: nat)
    requires |IndexLabel(n)| <= |line| && line[..|IndexLabel(n)|] == IndexLabel(n)
    ensures FirstSignedInt(line) == Some(n as int)
  {
    var d := NatToString(n);
    var lead := IndexLabel(n);
    LabelShape(d);
    assert line[0] == '[' && line[1 + |d|] == ']' by {
      assert line[0] == lead[0] && line[1 + |d|] == lead[1 + |d|];
    }
    assert line[0..|lead|] == lead;
    SubSlice(line, 0, lead, 1, 1 + |d|);
    DigitRunOfSlice(line, 1, d);
    assert IsDigit(line[1]) by {
      assert line[1] == d[0];
    }
    SignedIntAtRun(line, 1, d);
    assert FirstSignedInt(line) == SignedIntFrom(line, 1);
  }

  lemma LabelShape(d: string)
    ensures var lead := "[" + d + "] ";
            && |lead| == |d| + 3 && lead[0] == '[' && lead[1 + |d|] == ']'
            && lead[1..1 + |d|] == d
  {
  }

  // ---------------------------------------------------------------------------
  // Resolution with bounded retry

  /** The number a reply names, if any. */
  function ReplyNumber(reply: Reply): Option<int> {
    match reply
    case Answer(t) => FirstSignedInt(t)
    case Failure(_) => None
  }

  /** One attempt over `n` elements: a failed call and a `-1` answer raise inside the
      `try`; an index in range is taken; anything else is silently tried again. */
  function Judge(reply: Reply, n: nat, description: string): (v: Verdict)
    ensures v.Pick? <==> ReplyNumber(reply).Some? && 0 <= ReplyNumber(reply).value < n
    ensures v.Pick? ==> v.k as int == ReplyNumber(reply).value
    ensures v == Retry(Some(NotMatched(description))) <==> ReplyNumber(reply) == Some(-1)
    ensures reply.Failure? ==> v == Retry(Some(ClassifierFailed(reply.message)))
    ensures reply.Answer? && ReplyNumber(reply) != Some(-1) && !v.Pick? ==> v == Retry(None)
  {
    match reply
    case Failure(m) => Retry(Some(ClassifierFailed(m)))
    case Answer(t) =>
      match FirstSignedInt(t)
      case None => Retry(None)
      case Some(k) =>
        if k == -1 then Retry(Some(NotMatched(description)))
        else if 0 <= k < n then Pick(k)
        else Retry(None)
  }

  /** The outcome of `find_element` and the number of classifier calls it made. */
  datatype Located = Located(result: Result<UIElement, LocateError>, calls: nat)

  /** The retry loop over elements numbered 0..n-1: reply `k` answers attempt `k`. */
  function Resolve(elements: seq<UIElement>, oracle: nat -> Reply, description: string,
                   retryCount: int): (r: Located)
    requires forall i :: 0 <= i < |elements| ==> elements[i].index == i
    ensures r.calls <= Remaining(0, retryCount)
    ensures r.calls == 0 <==> retryCount <= 0
    ensures r.result.Ok? ==>
              && r.calls >= 1
              && ReplyNumber(oracle(r.calls - 1)).Some?
              && var k := ReplyNumber(oracle(r.calls - 1)).value;
              && 0 <= k < |elements|
              && r.result.value == elements[k]
              && r.result.value.index == k
    ensures r.result.Err? && r.calls > 0 ==>
              && r.calls == Remaining(0, retryCount)
              && (ReplyNumber(oracle(r.calls - 1)) == Some(-1) ==> r.result.error == NotMatched(description))
              && (oracle(r.calls - 1).Failure? ==> r.result.error == ClassifierFailed(oracle(r.calls - 1).message))
              && (oracle(r.calls - 1).Answer? && ReplyNumber(oracle(r.calls - 1)) != Some(-1) ==>
                    r.result.error == CannotLocate(description))
    ensures r.result.Err? && r.calls == 0 ==> r.result.error == CannotLocate(description)
    ensures forall j: nat :: j < r.calls - 1 ==> Judge(oracle(j), |elements|, description).Retry?
  {
    var judge := (j: nat) => Judge(oracle(j), |elements|, description);
    var t := Attempts(judge, description, 0, retryCount);
    assert forall j: nat :: j < t.calls - 1 ==> Judge(oracle(j), |elements|, description).Retry? by {
      forall j: nat | j < t.calls - 1 ensures Judge(oracle(j), |elements|, description).Retry? {
        assert judge(j) == Judge(oracle(j), |elements|, description);
      }
    }
    var last := if t.calls > 0 then t.calls - 1 else 0;
    var v := Judge(oracle(last), |elements|, description);
    assert judge(last) == v;
    match t.result
    case Ok(k) => Located(Ok(elements[k]), t.calls)
    case Err(e) => Located(Err(e), t.calls)
  }

  /** `find_element`: read the dump; with no element, fail before calling the classifier;
      else resolve the classifier's replies. */
  function FindElement(page: PageSource, oracle: nat -> Reply, description: string,
                       retryCount: int): (r: Located)
    ensures page.text == "" ==> r == Located(Err(NoHierarchy), 0)
    ensures page.text != "" && ParseHierarchy(page.nodes) == [] ==> r == Located(Err(NoElements), 0)
    ensures page.text != "" && ParseHierarchy(page.nodes) != [] ==>
              r == Resolve(ParseHierarchy(page.nodes), oracle, description, retryCount)
  {
    match DumpAndParse(page)
    case Err(e) => Located(Err(e), 0)
    case Ok(elements) =>
      if |elements| == 0 then Located(Err(NoElements), 0)
      else Resolve(elements, oracle, description, retryCount)
  }

  /** With elements present, the lookup succeeds exactly when some attempt's reply names
      an index in range. */
  lemma FindElementSucceedsIff(page: PageSource, oracle: nat -> Reply, description: string, retryCount: int)
    requires page.text != "" && ParseHierarchy(page.nodes) != []
    ensures var n := |ParseHierarchy(page.nodes)|;
            FindElement(page, oracle, description, retryCount).result.Ok?
            <==> exists j: nat :: j < retryCount && ReplyNumber(oracle(j)).Some?
                                  && 0 <= ReplyNumber(oracle(j)).value < n
  {
    var n := |ParseHierarchy(page.nodes)|;
    var judge := (j: nat) => Judge(oracle(j), n, description);
    AttemptsSucceedIff(judge, description, retryCount);
    assert forall j: nat :: judge(j) == Judge(oracle(j), n, description);
  }

  /** The text of an element: its text, else its description, else empty. */
  function ElementText(e: UIElement): (r: string)
    ensures r == "" <==> e.text == "" && e.contentDesc == ""
    ensures e.text != "" ==> r == e.text
    ensures e.text == "" ==> r == e.contentDesc
  {
    if e.text != "" then e.text else if e.contentDesc != "" then e.contentDesc else ""
  }

  /** `get_text`: locate the element, then read its text; a failed lookup is passed on. */
  function GetText(page: PageSource, oracle: nat -> Reply, description: string, retryCount: int)
    : (r: Result<string, LocateError>)
    ensures var f := FindElement(page, oracle, description, retryCount);
            && (r.Ok? <==> f.result.Ok?)
            && (r.Ok? ==> r.value == ElementText(f.result.value))
            && (r.Err? ==> r.error == f.result.error)
  {
    var f := FindElement(page, oracle, description, retryCount);
    match f.result
    case Ok(e) => Ok(ElementText(e))
    case Err(err) => Err(err)
  }
}

=== FILE: locating.dfy ===
/** What the two element locators share: the classifier's replies, the numbers read
    out of them, and the bounded retry loop that turns replies into one pick or an error. */
module Locating {
  import opened Wrappers
  import opened Text
  import opened Bounds

  /** Why locating failed. `NoHierarchy` and `NoCapture` are the empty-capture errors of
      the structural and the Set-of-Mark locator; `NotMatched` is the classifier's `-1`. */
  datatype LocateError =
    | NoHierarchy
    | NoCapture
    | NoElements
    | NotMatched(description: string)
    | CannotLocate(description: string)
    | ClassifierFailed(message: string)


  /** `re.search(r'-?\d+', s)` from position `i`, as an integer: the leftmost place where
      a digit run starts, with a `-` in front of it when there is one. */
  function SignedIntFrom(s: string, i: nat): (r: Option<int>)
    decreases |s| - i
    ensures r.None? <==> forall k :: i <= k < |s| ==> !IsDigit(s[k])
  {
    if i >= |s| then None
    else if IsDigit(s[i]) then
      Some(DigitsValue(s[i..i + DigitRun(s, i)]))
    else if s[i] == '-' && i + 1 < |s| && IsDigit(s[i + 1]) then
      Some(-(DigitsValue(s[i + 1..i + 1 + DigitRun(s, i + 1)]) as int))
    else SignedIntFrom(s, i + 1)
  }

  function FirstSignedInt(s: string): (r: Option<int>)
    ensures r.None? <==> forall k :: 0 <= k < |s| ==> !IsDigit(s[k])
  {
    SignedIntFrom(s, 0)
  }

  /** `re.search(r'(\d+)', s)` from position `i`, as an integer: the first digit run, with
      no sign. */
  function UnsignedIntFrom(s: string, i: nat): (r: Option<nat>)
    decreases |s| - i
    ensures r.None? <==> forall k :: i <= k < |s| ==> !IsDigit(s[k])
  {
    if i >= |s| then None
    else if IsDigit(s[i]) then Some(DigitsValue(s[i..i + DigitRun(s, i)]))
    else UnsignedIntFrom(s, i + 1)
  }

  function FirstUnsignedInt(s: string): (r: Option<nat>)
    ensures r.None? <==> forall k :: 0 <= k < |s| ==> !IsDigit(s[k])
  {
    UnsignedIntFrom(s, 0)
  }

  function Magnitude(v: Option<int>): Option<nat> {
    match v
    case None => None
    case Some(x) => Some(if x < 0 then -x else x)
  }

  /** Both scans stop at the same digit run; the signed one only adds the sign of a `-`
      right in front of it. */
  lemma {:induction false} UnsignedIsMagnitudeFrom(s: string, i: nat)
    ensures UnsignedIntFrom(s, i) == Magnitude(SignedIntFrom(s, i))
    decreases |s| - i
  {
    if i < |s| && !IsDigit(s[i]) {
      if s[i] == '-' && i + 1 < |s| && IsDigit(s[i + 1]) {
        assert UnsignedIntFrom(s, i) == UnsignedIntFrom(s, i + 1);
      } else {
        UnsignedIsMagnitudeFrom(s, i + 1);
      }
    }
  }

  /** The unsigned reading is the magnitude of the signed one: they differ exactly when
      the first number is written with a minus sign. */
  lemma UnsignedIsMagnitude(s: string)
    ensures FirstUnsignedInt(s) == Magnitude(FirstSignedInt(s))
  {
    UnsignedIsMagnitudeFrom(s, 0);
  }

  /** A digit run at `i` is the number found from `i`. */
  lemma SignedIntAtRun(s: string, i: nat, d: string)
    requires i < |s| && IsDigit(s[i])
    requires i + |d| <= |s| && DigitRun(s, i) == |d| && s[i..i + |d|] == d
    ensures SignedIntFrom(s, i) == Some(DigitsValue(d) as int)
  {
    var n := DigitRun(s, i);
    assert n == |d|;
    assert s[i..i + n] == d;
  }

  /** The classifier's k-th reply: its text, or the failure of the call. */
  datatype Reply = Answer(text: string) | Failure(message: string)

  /** What one attempt decides: an element index, or another attempt — carrying the
      exception raised in it, which is re-raised if no attempt is left. */
  datatype Verdict = Pick(k: nat) | Retry(raised: Option<LocateError>)

  /** The outcome of the attempts — the index picked, or the error — and how many
      classifier calls they made. */
  datatype Tried = Tried(result: Result<nat, LocateError>, calls: nat)

  function Remaining(attempt: nat, retryCount: int): nat {
    if retryCount > attempt then retryCount - attempt else 0
  }

  /** The retry loop from attempt `attempt` on, below `retryCount`; `judge(k)` is what
      attempt `k` decides. A pick ends the loop; a retry moves on, except that the last
      attempt re-raises what it raised, or falls out of the loop into "cannot locate". */
  function Attempts(judge: nat -> Verdict, description: string, attempt: nat, retryCount: int): (r: Tried)
    decreases Remaining(attempt, retryCount)
    ensures r.calls <= Remaining(attempt, retryCount)
    ensures r.calls == 0 <==> Remaining(attempt, retryCount) == 0
    ensures forall j :: attempt <= j < attempt + r.calls - 1 ==> judge(j).Retry?
    ensures r.result.Ok? ==> r.calls >= 1 && judge(attempt + r.calls - 1) == Pick(r.result.value)
    ensures r.result.Err? ==>
              && r.calls == Remaining(attempt, retryCount)
              && (r.calls == 0 ==> r.result.error == CannotLocate(description))
              && (r.calls > 0 ==>
                    && judge(attempt + r.calls - 1).Retry?
                    && r.result.error == judge(attempt + r.calls - 1).raised.GetOr(CannotLocate(description)))
  {
    if attempt >= retryCount then Tried(Err(CannotLocate(description)), 0)
    else
      match judge(attempt)
      case Pick(k) => Tried(Ok(k), 1)
      case Retry(raised) =>
        if attempt < retryCount - 1 then
          var rest := Attempts(judge, description, attempt + 1, retryCount);
          Tried(rest.result, rest.calls + 1)
        else
          Tried(Err(raised.GetOr(CannotLocate(description))), 1)
  }

  /** The loop succeeds exactly when some attempt below `retryCount` picks. */
  lemma AttemptsSucceedIff(judge: nat -> Verdict, description: string, retryCount: int)
    ensures Attempts(judge, description, 0, retryCount).result.Ok?
            <==> exists j: nat :: j < retryCount && judge(j).Pick?
  {
    var r := Attempts(judge, description, 0, retryCount);
    if r.result.Err? {
      forall j: nat | j < retryCount
        ensures judge(j).Retry?
      {
        assert j < r.calls;
      }
    } else {
      var j: nat := r.calls - 1;
      assert j < retryCount && judge(j).Pick?;
    }
  }

  /** The loop stops at the first pick: every earlier attempt was a retry. */
  lemma AttemptsTakeFirstPick(judge: nat -> Verdict, description: string, retryCount: int, j: nat)
    requires j < retryCount && judge(j).Pick?
    requires forall i :: 0 <= i < j ==> judge(i).Retry?
    ensures Attempts(judge, description, 0, retryCount) == Tried(Ok(judge(j).k), j + 1)
  {
    var r := Attempts(judge, description, 0, retryCount);
    AttemptsSucceedIff(judge, description, retryCount);
    assert r.result.Ok?;
    assert r.calls - 1 == j;
  }
}

=== FILE: numbering.dfy ===
/** Consecutive numbering of the items a scan keeps, as both locators number their
    elements (from 0 in the structural one, from 1 in the Set-of-Mark one). */
module Numbering {

  /** `make(ns[i], next + i)` for every item, in order. */
  function Numbered<N, E>(make: (N, nat) -> E, ns: seq<N>, next: nat): (r: seq<E>)
    ensures |r| == |ns|
  {
    if |ns| == 0 then [] else [make(ns[0], next)] + Numbered(make, ns[1..], next + 1)
  }

  /** Item `i` of the numbering is item `i` of the input with number `next + i`. */
  lemma {:induction false} NumberedAt<N, E>(make: (N, nat) -> E, ns: seq<N>, next: nat)
    ensures forall i :: 0 <= i < |ns| ==> Numbered(make, ns, next)[i] == make(ns[i], next + i)
  {
    if |ns| > 0 {
      var r, rest := Numbered(make, ns, next), Numbered(make, ns[1..], next + 1);
      NumberedAt(make, ns[1..], next + 1);
      assert r == [make(ns[0], next)] + rest;
      forall i | 1 <= i < |ns|
        ensures r[i] == make(ns[i], next + i)
      {
        assert r[i] == rest[i - 1];
        assert ns[i] == ns[1..][i - 1];
      }
    }
  }
}

=== FILE: paths.dfy ===
/** File-path helpers with the semantics of Python's `posixpath`: `join`, `basename`,
    `splitext`, and `str.rsplit('.', 1)`. */
module Paths {
  import opened Wrappers
  import opened Text

  /** `os.path.join(a, b)`: an absolute `b` replaces `a`; otherwise one `/` between them,
      unless `a` is empty or already ends with one. */
  function PathJoin(a: string, b: string): (r: string)
    ensures EndsWith(r, b)
    ensures |b| >= 1 && b[0] == '/' ==> r == b
    ensures !(|b| >= 1 && b[0] == '/') ==>
              a <= r && (|r| == |a| + |b| || (|r| == |a| + 1 + |b| && r[|a|] == '/'))
    ensures !(|b| >= 1 && b[0] == '/') && a != "" && a[|a| - 1] != '/' ==> |r| == |a| + 1 + |b|
  {
    if |b| >= 1 && b[0] == '/' then b
    else if a == "" || a[|a| - 1] == '/' then a + b
    else a + "/" + b
  }

  /** `os.path.basename`: what follows the last `/`. */
  function Basename(p: string): (r: string)
    ensures '/' !in r && EndsWith(p, r)
    ensures |r| < |p| ==> p[|p| - |r| - 1] == '/'
  {
    AfterLast(p, '/')
  }

  /** Joining a plain file name onto a directory leaves that name as the basename. */
  lemma BasenameOfJoin(dir: string, name: string)
    requires '/' !in name
    ensures Basename(PathJoin(dir, name)) == name
  {
    var j := PathJoin(dir, name);
    assert !(|name| >= 1 && name[0] == '/') by {
      if |name| >= 1 {
        assert name[0] in name;
      }
    }
    if dir == "" {
      assert j == name;
      AfterLastWithout(name, '/');
    } else if dir[|dir| - 1] == '/' {
      var d := dir[..|dir| - 1];
      assert dir == d + "/";
      assert j == d + "/" + name;
      AfterDirSlash(d, name);
    } else {
      assert j == dir + "/" + name;
      AfterDirSlash(dir, name);
    }
  }

  lemma AfterDirSlash(dir: string, name: string)
    requires '/' !in name
    ensures AfterLast(dir + "/" + name, '/') == name
  {
    assert dir + "/" + name == dir + ['/'] + name;
    AfterLastSuffix(dir, name, '/');
  }

  /** The position of the last `.`, if any. */
  function LastDot(s: string): (r: Option<nat>)
    decreases |s|
    ensures r.Some? ==> r.value < |s| && s[r.value] == '.' && forall k :: r.value < k < |s| ==> s[k] != '.'
    ensures r.None? ==> forall k :: 0 <= k < |s| ==> s[k] != '.'
  {
    if |s| == 0 then None
    else if s[|s| - 1] == '.' then Some(|s| - 1)
    else LastDot(s[..|s| - 1])
  }

  predicate AllDots(s: string) {
    forall k :: 0 <= k < |s| ==> s[k] == '.'
  }

  /** `os.path.splitext(name)[0]` for a name without `/`: everything before the last dot,
      unless only dots precede it (a leading-dot name has no extension). */
  function ExtRoot(name: string): (r: string)
    ensures r <= name
  {
    match LastDot(name)
    case None => name
    case Some(d) => if AllDots(name[..d]) then name else name[..d]
  }

  /** The file name without directory and extension. */
  function Stem(p: string): string {
    ExtRoot(Basename(p))
  }

  /** The stem of `dir/name.ext` is `name`, for a name that does not start with a dot. */
  lemma StemOfFile(dir: string, name: string, ext: string)
    requires |name| >= 1 && name[0] != '.' && '/' !in name
    requires '.' !in ext && '/' !in ext
    ensures Stem(PathJoin(dir, name + "." + ext)) == name
  {
    var file := name + "." + ext;
    NoSlashIn(name, ext);
    BasenameOfJoin(dir, file);
    RootOf(name, ext);
  }

  lemma NoSlashIn(name: string, ext: string)
    requires '/' !in name && '/' !in ext
    ensures '/' !in name + "." + ext
  {
  }

  lemma RootOf(name: string, ext: string)
    requires |name| >= 1 && name[0] != '.' && '.' !in ext
    ensures ExtRoot(name + "." + ext) == name
  {
    var file := name + "." + ext;
    assert file[|name|] == '.';
    assert forall k :: |name| < k < |file| ==> file[k] == ext[k - |name| - 1];
    assert LastDot(file) == Some(|name|);
    assert file[..|name|] == name;
    assert !AllDots(name);
  }

  /** `p.rsplit('.', 1)[0]`: everything before the last dot, or all of `p`. */
  function BeforeLastDot(p: string): (r: string)
    ensures r <= p
  {
    match LastDot(p)
    case None => p
    case Some(d) => p[..d]
  }

  /** Swapping the last extension: the part before `.ext` is kept whole. */
  lemma BeforeLastDotOf(stem: string, ext: string)
    requires '.' !in ext
    ensures BeforeLastDot(stem + "." + ext) == stem
  {
    var p := stem + "." + ext;
    assert p[|stem|] == '.';
    assert forall k :: |stem| < k < |p| ==> p[k] == ext[k - |stem| - 1];
    assert LastDot(p) == Some(|stem|);
    assert p[..|stem|] == stem;
  }
}

=== FILE: qianwen_client.dfy ===
/** The model-service client: how a request's content is put together, how the status of
    the reply is handled, how image data is encoded, and how a JSON value is dug out of a
    free-text reply. The service call, base64 and the JSON parser itself are parameters. */
module QianwenClient {
  import opened Wrappers
  import opened Text

  // ---------------------------------------------------------------------------
  // Image encoding

  /** What `_encode_image` may be handed: a path, raw bytes, a string (taken to be base64
      already), or anything else. */
  datatype ImageData = PathData(path: string) | BytesData(bytes: seq<bv8>) | TextData(text: string) | OtherData

  /** `_encode_image`, with base64 and file reading as parameters. */
  function EncodeImage(d: ImageData, base64: seq<bv8> -> string, readFile: string -> seq<bv8>): (r: string)
    ensures d.TextData? ==> r == d.text
    ensures d.BytesData? ==> r == base64(d.bytes)
    ensures d.OtherData? ==> r == ""
  {
    match d
    case PathData(p) => base64(readFile(p))
    case BytesData(b) => base64(b)
    case TextData(t) => t
    case OtherData => ""
  }

  /** A path is encoded as the bytes of the file it names. */
  lemma EncodePathIsEncodeBytes(p: string, base64: seq<bv8> -> string, readFile: string -> seq<bv8>)
    ensures EncodeImage(PathData(p), base64, readFile) == EncodeImage(BytesData(readFile(p)), base64, readFile)
  {
  }

  // ---------------------------------------------------------------------------
  // The request

  datatype ContentItem = ImageItem(uri: string) | TextItem(text: string)

  /** The message content of `generate`: an image item first when an image path is given
      (an empty path counts as none), then exactly one text item. `absolute` resolves a
      path against the working directory. */
  function MessageContent(prompt: string, imagePath: Option<string>, absolute: string -> string)
    : (r: seq<ContentItem>)
    ensures 1 <= |r| <= 2 && r[|r| - 1] == TextItem(prompt)
    ensures |r| == 2 <==> imagePath.Some? && imagePath.value != ""
    ensures |r| == 2 ==> r[0] == ImageItem("file://" + absolute(imagePath.value))
    ensures forall i :: 0 <= i < |r| - 1 ==> r[i].ImageItem?
  {
    match imagePath
    case Some(p) => if p != "" then [ImageItem("file://" + absolute(p)), TextItem(prompt)] else [TextItem(prompt)]
    case None => [TextItem(prompt)]
  }

  /** What the service answers: its status, the text of its first content item, and its
      error code and message. */
  datatype ApiResponse = ApiResponse(status: int, text: string, code: string, message: string)

  datatype ClientError = NotInstalled | CallFailed(code: string, message: string)

  /** `generate`: without the SDK nothing is sent; else the content is sent and a 200 status
      gives the reply text, any other status an error carrying the service's code and
      message. `call` is the service. */
  function Generate(prompt: string, imagePath: Option<string>, installed: bool,
                    absolute: string -> string, call: seq<ContentItem> -> ApiResponse)
    : (r: Result<string, ClientError>)
    ensures !installed ==> r == Err(NotInstalled)
    ensures installed ==>
              var resp := call(MessageContent(prompt, imagePath, absolute));
              && (r.Ok? <==> resp.status == 200)
              && (r.Ok? ==> r.value == resp.text)
              && (r.Err? ==> r.error == CallFailed(resp.code, resp.message))
  {
    if !installed then Err(NotInstalled)
    else
      var resp := call(MessageContent(prompt, imagePath, absolute));
      if resp.status == 200 then Ok(resp.text) else Err(CallFailed(resp.code, resp.message))
  }

  /** The content `analyze_image` sends: the encoded image as a PNG data URI, then the
      prompt. */
  function ImageContent(prompt: string, d: ImageData, base64: seq<bv8> -> string,
                        readFile: string -> seq<bv8>): (r: seq<ContentItem>)
    ensures |r| == 2 && r[1] == TextItem(prompt)
    ensures r[0] == ImageItem("data:image/png;base64," + EncodeImage(d, base64, readFile))
  {
    [ImageItem("data:image/png;base64," + EncodeImage(d, base64, readFile)), TextItem(prompt)]
  }

  /** `analyze_image`: like `generate`, but the image travels inline instead of as a path. */
  function AnalyzeImage(prompt: string, d: ImageData, installed: bool, base64: seq<bv8> -> string,
                        readFile: string -> seq<bv8>, call: seq<ContentItem> -> ApiResponse)
    : (r: Result<string, ClientError>)
    ensures !installed ==> r == Err(NotInstalled)
    ensures installed ==>
              var resp := call(ImageContent(prompt, d, base64, readFile));
              && (r.Ok? <==> resp.status == 200)
              && (r.Ok? ==> r.value == resp.text)
              && (r.Err? ==> r.error == CallFailed(resp.code, resp.message))
  {
    if !installed then Err(NotInstalled)
    else
      var resp := call(ImageContent(prompt, d, base64, readFile));
      if resp.status == 200 then Ok(resp.text) else Err(CallFailed(resp.code, resp.message))
  }

  /** Handing over raw bytes is the same request as handing over their base64 text. */
  lemma AnalyzeBytesAsText(prompt: string, bytes: seq<bv8>, installed: bool, base64: seq<bv8> -> string,
                           readFile: string -> seq<bv8>, call: seq<ContentItem> -> ApiResponse)
    ensures AnalyzeImage(prompt, BytesData(bytes), installed, base64, readFile, call)
         == AnalyzeImage(prompt, TextData(base64(bytes)), installed, base64, readFile, call)
  {
    assert ImageContent(prompt, BytesData(bytes), base64, readFile)
        == ImageContent(prompt, TextData(base64(bytes)), base64, readFile);
  }

  // ---------------------------------------------------------------------------
  // Fenced blocks: re.search(r'```(?:json)?\s*([\s\S]*?)\s*```', s)

  /** The first fence at or after `from`. */
  function FirstFence(s: string, from: nat): (r: Option<nat>)
    decreases |s| - from
    ensures r.Some? ==> from <= r.value && FenceAt(s, r.value)
    ensures r.None? ==> forall x :: from <= x ==> !FenceAt(s, x)
  {
    if from + 3 > |s| then None
    else if FenceAt(s, from) then Some(from)
    else FirstFence(s, from + 1)
  }


  /** The `json` tag at `q`. */
  predicate TagAt(s: string, q: nat) {
    q + 4 <= |s| && s[q] == 'j' && s[q + 1] == 's' && s[q + 2] == 'o' && s[q + 3] == 'n'
  }

  /** A lazy group may end at `e`: after the whitespace there, a closing fence follows. */
  predicate CloserAt(s: string, e: nat) {
    e <= |s| && FenceAt(s, e + SpaceRun(s, e))
  }

  /** The end of the lazy group started at `from`: the first place a closer follows. */
  function LazyEnd(s: string, from: nat): (r: Option<nat>)
    decreases |s| + 1 - from
    ensures r.Some? ==> from <= r.value <= |s| && CloserAt(s, r.value)
    ensures r.Some? ==> forall y :: from <= y < r.value ==> !CloserAt(s, y)
    ensures r.None? ==> forall y :: from <= y <= |s| ==> !CloserAt(s, y)
  {
    if from > |s| then None
    else if CloserAt(s, from) then Some(from)
    else LazyEnd(s, from + 1)
  }

  /** Where the group starts after the opener at `p`: past an optional `json` tag and the
      whitespace that follows. */
  function GroupStart(s: string, p: nat): (g: nat)
    requires FenceAt(s, p)
    ensures p + 3 <= g <= |s|
    ensures g < |s| ==> !IsSpace(s[g])
  {
    var q := p + 3;
    var c := if TagAt(s, q) then q + 4 else q;
    c + SpaceRun(s, c)
  }

  /** The group of the first match. The opener is the first fence in `s`: the lazy group can
      swallow anything, so a match exists at the first fence exactly when some closer
      follows, and never at a later fence otherwise. Likewise the `json` tag is skipped
      whenever it is present, because it never stands in the way of a match. */
  function FenceBody(s: string): (r: Option<string>)
    ensures r.Some? ==> IsStripped(r.value)
    ensures r.Some? ==> NoFence(r.value)
  {
    match FirstFence(s, 0)
    case None => None
    case Some(p) =>
      var g := GroupStart(s, p);
      match LazyEnd(s, g)
      case None => None
      case Some(e) =>
        BodyStripped(s, g, e);
        BodyNoFence(s, g, e);
        Some(s[g..e])
  }

  /** The group is stripped: it starts after the leading whitespace, and it cannot end in
      whitespace, because the group would then have ended one place earlier. */
  lemma BodyStripped(s: string, g: nat, e: nat)
    requires g <= e <= |s| && (g < |s| ==> !IsSpace(s[g]))
    requires forall y :: g <= y < e ==> !CloserAt(s, y)
    requires CloserAt(s, e)
    ensures IsStripped(s[g..e])
  {
    if g < e {
      assert s[g..e][0] == s[g];
      assert s[g..e][e - g - 1] == s[e - 1];
      assert !CloserAt(s, e - 1);
      assert SpaceRun(s, e - 1) == if IsSpace(s[e - 1]) then 1 + SpaceRun(s, e) else 0;
    }
  }

  /** The group holds no fence: at a fence inside it the group would have ended. */
  lemma BodyNoFence(s: string, g: nat, e: nat)
    requires g <= e <= |s|
    requires forall y :: g <= y < e ==> !CloserAt(s, y)
    ensures NoFence(s[g..e])
  {
    var b := s[g..e];
    forall k | 0 <= k < |b|
      ensures !FenceAt(b, k)
    {
      assert !CloserAt(s, g + k);
      if k + 3 <= |b| {
        assert b[k] == s[g + k] && b[k + 1] == s[g + k + 1] && b[k + 2] == s[g + k + 2];
        assert SpaceRun(s, g + k) == if IsSpace(s[g + k]) then 1 + SpaceRun(s, g + k + 1) else 0;
      }
    }
  }

  /** The first closer at or after `g` is `e`. */
  lemma {:induction false} LazyEndIs(s: string, g: nat, e: nat)
    requires g <= e <= |s| && CloserAt(s, e)
    requires forall y :: g <= y < e ==> !CloserAt(s, y)
    ensures LazyEnd(s, g) == Some(e)
    decreases e - g
  {
    if g < e {
      LazyEndIs(s, g + 1, e);
    }
  }

  /** How a fenced reply is laid out: the fence, the tag, a line break, the body, a line
      break and the closing fence, with the body starting at `start`. */
  predicate FencedAt(s: string, tag: string, b: string, start: nat) {
    && start == |tag| + 4
    && start + |b| + 4 <= |s|
    && FenceAt(s, 0) && s[3..3 + |tag|] == tag && s[start - 1] == '\n'
    && s[start..start + |b|] == b
    && s[start + |b|] == '\n' && FenceAt(s, start + |b| + 1)
  }

  lemma FencedShape(tag: string, b: string, post: string, start: nat)
    requires start == |tag| + 4
    ensures FencedAt(Fence + tag + "\n" + b + "\n" + Fence + post, tag, b, start)
  {
    var s := Fence + tag + "\n" + b + "\n" + Fence + post;
    var piece := Fence + tag + "\n" + b + "\n" + Fence;
    var n := |piece|;
    assert n == start + |b| + 4;
    assert s[..n] == piece;
    SubSlice(s, 0, piece, 3, 3 + |tag|);
    SubSlice(s, 0, piece, start, start + |b|);
    forall k | 0 <= k < n
      ensures s[k] == piece[k]
    {
    }
  }

  /** Inside a laid-out body, no place before its end is a closer: the whitespace from there
      stops inside the body (its last character is not whitespace), and a fence there would
      lie inside the body or run into the line break after it. */
  lemma NoCloserInBody(s: string, tag: string, b: string, start: nat, y: nat)
    requires FencedAt(s, tag, b, start) && IsStripped(b) && NoFence(b)
    requires start <= y < start + |b|
    ensures !CloserAt(s, y)
  {
    var end := start + |b|;
    SpaceRunInside(s, y, end);
    var x := y + SpaceRun(s, y);
    if x + 3 <= end {
      var k := x - start;
      assert s[start..end][k] == s[x] && s[start..end][k + 1] == s[x + 1] && s[start..end][k + 2] == s[x + 2];
      assert !FenceAt(b, k);
    } else {
      assert s[end] == '\n';
    }
  }

  /** A whitespace run that starts before `end` stops before it when `s[end - 1]` is not
      whitespace. */
  lemma {:induction false} SpaceRunInside(s: string, y: nat, end: nat)
    requires y < end <= |s| && !IsSpace(s[end - 1])
    ensures y + SpaceRun(s, y) < end
    decreases end - y
  {
    if IsSpace(s[y]) {
      SpaceRunInside(s, y + 1, end);
    }
  }

  /** Where the group starts in a laid-out reply. */
  lemma FencedGroupStart(s: string, tag: string, b: string, start: nat)
    requires tag == "json" || tag == ""
    requires FencedAt(s, tag, b, start) && IsStripped(b)
    ensures GroupStart(s, 0) == if |b| > 0 then start else start + 1
  {
    assert TagAt(s, 3) <==> tag == "json" by {
      if tag == "json" {
        assert s[3..7][0] == s[3] && s[3..7][1] == s[4] && s[3..7][2] == s[5] && s[3..7][3] == s[6];
      } else {
        assert s[3] == '\n';
      }
    }
    assert SpaceRun(s, start - 1) == 1 + SpaceRun(s, start);
    if |b| > 0 {
      assert s[start] == s[start..start + |b|][0] == b[0];
    } else {
      assert SpaceRun(s, start) == 1 + SpaceRun(s, start + 1);
    }
  }

  /** A laid-out fenced block at the front of `s` is the first match, and its group is
      the body. */
  lemma FenceBodyOfLaidOut(s: string, tag: string, b: string, start: nat)
    requires tag == "json" || tag == ""
    requires FencedAt(s, tag, b, start) && IsStripped(b) && NoFence(b)
    ensures FenceBody(s) == Some(b)
  {
    assert FirstFence(s, 0) == Some(0);
    FencedGroupStart(s, tag, b, start);
    var end := start + |b|;
    var g := GroupStart(s, 0);
    var e := if |b| > 0 then end else start + 1;
    forall y | g <= y < e
      ensures !CloserAt(s, y)
    {
      NoCloserInBody(s, tag, b, start, y);
    }
    assert CloserAt(s, e) by {
      if |b| > 0 {
        assert SpaceRun(s, end) == 1 + SpaceRun(s, end + 1);
      }
    }
    LazyEndIs(s, g, e);
    assert s[g..e] == b;
  }

  /** Round trip: a reply that starts with a fenced block, tagged `json` or not, gives back
      the block's body when it is stripped and holds no fence. */
  lemma FenceBodyOfFenced(tag: string, b: string, post: string)
    requires tag == "json" || tag == ""
    requires IsStripped(b) && NoFence(b)
    ensures FenceBody(Fence + tag + "\n" + b + "\n" + Fence + post) == Some(b)
  {
    var start := |tag| + 4;
    FencedShape(tag, b, post, start);
    FenceBodyOfLaidOut(Fence + tag + "\n" + b + "\n" + Fence + post, tag, b, start);
  }

  // ---------------------------------------------------------------------------
  // Greedy spans: re.search(r'\{[\s\S]*\}', s) and re.search(r'\[[\s\S]*\]', s)

  /** The first index of `c` at or after `from`. */
  function FirstIndex(s: string, c: char, from: nat): (r: Option<nat>)
    decreases |s| - from
    ensures r.Some? ==> from <= r.value < |s| && s[r.value] == c
    ensures r.Some? ==> forall k :: from <= k < r.value ==> s[k] != c
    ensures r.None? ==> forall k :: from <= k < |s| ==> s[k] != c
  {
    if from >= |s| then None
    else if s[from] == c then Some(from)
    else FirstIndex(s, c, from + 1)
  }

  /** The last index of `c` below `upto`. */
  function LastIndex(s: string, c: char, upto: nat): (r: Option<nat>)
    requires upto <= |s|
    ensures r.Some? ==> r.value < upto && s[r.value] == c
    ensures r.Some? ==> forall k :: r.value < k < upto ==> s[k] != c
    ensures r.None? ==> forall k :: 0 <= k < upto ==> s[k] != c
  {
    if upto == 0 then None
    else if s[upto - 1] == c then Some(upto - 1)
    else LastIndex(s, c, upto - 1)
  }

  /** Where the span runs: from the first `open` to the last `close`, when that `close`
      comes after it. The greedy `[\s\S]*` runs to the last `close`; the leftmost `open`
      is the first one, since a later `open` has a `close` after it only if the first one
      does. */
  function SpanBounds(s: string, open: char, close: char): (r: Option<(nat, nat)>)
    ensures r.Some? ==> var (i, j) := r.value;
              && i < j < |s| && s[i] == open && s[j] == close
              && (forall k :: 0 <= k < i ==> s[k] != open)
              && (forall k :: j < k < |s| ==> s[k] != close)
    ensures r.None? <==> forall i, j :: 0 <= i < j < |s| ==> !(s[i] == open && s[j] == close)
  {
    match FirstIndex(s, open, 0)
    case None => None
    case Some(i) =>
      match LastIndex(s, close, |s|)
      case None => None
      case Some(j) => if i < j then Some((i, j)) else None
  }

  /** The greedy span: the slice from the first `open` to the last `close`, or none when no
      `open` comes before a `close`. */
  function Span(s: string, open: char, close: char): (r: Option<string>)
    ensures r.None? <==> forall i, j :: 0 <= i < j < |s| ==> !(s[i] == open && s[j] == close)
    ensures r.Some? ==> exists i, j :: 0 <= i < j < |s| && s[i] == open && s[j] == close && r.value == s[i..j + 1]
                          && (forall k :: 0 <= k < i ==> s[k] != open)
                          && (forall k :: j < k < |s| ==> s[k] != close)
    ensures r.Some? ==> |r.value| >= 2 && r.value[0] == open && r.value[|r.value| - 1] == close
  {
    match SpanBounds(s, open, close)
    case None => None
    case Some((i, j)) =>
      assert s[i..j + 1][0] == s[i] && s[i..j + 1][j - i] == s[j];
      Some(s[i..j + 1])
  }

  /** A span wrapped in text holding no `open` before and no `close` after is found whole. */
  lemma SpanOfWrapped(pre: string, t: string, post: string, open: char, close: char)
    requires |t| >= 2 && t[0] == open && t[|t| - 1] == close
    requires open !in pre && close !in post
    ensures Span(pre + t + post, open, close) == Some(t)
  {
    var s := pre + t + post;
    var i, j := |pre|, |pre| + |t| - 1;
    assert s[i] == open && s[j] == close;
    var (i', j') := SpanBounds(s, open, close).value;
    assert s[i..j + 1] == t;
  }

  // ---------------------------------------------------------------------------
  // The cascade

  /** The texts tried in turn: the whole reply, the fenced body, the brace span and the
      bracket span (`None` where a stage's pattern does not match). */
  function Candidates(response: string): (r: seq<Option<string>>)
    ensures |r| == 4 && r[0] == Some(response)
  {
    [Some(response), FenceBody(response), Span(response, '{', '}'), Span(response, '[', ']')]
  }

  predicate ParsesAt<J>(parse: string -> Option<J>, response: string, i: nat)
    requires i < 4
  {
    Candidates(response)[i].Some? && parse(Candidates(response)[i].value).Some?
  }

  /** `response[:200]`. */
  function Snippet(s: string): (r: string)
    ensures r <= s
    ensures |r| == if |s| <= 200 then |s| else 200
  {
    if |s| <= 200 then s else s[..200]
  }

  const ParseErrorPrefix: string := "无法解析 JSON 响应: "

  /** `parse_json_response`: the value of the first candidate that parses, else an error
      quoting the start of the reply. */
  function ParseJsonResponse<J>(response: string, parse: string -> Option<J>): (r: Result<J, string>)
    ensures r.Ok? <==> exists i :: 0 <= i < 4 && ParsesAt(parse, response, i)
    ensures r.Ok? ==> exists i :: 0 <= i < 4 && ParsesAt(parse, response, i)
                                && parse(Candidates(response)[i].value) == Some(r.value)
                                && forall k :: 0 <= k < i ==> !ParsesAt(parse, response, k)
    ensures r.Err? ==> r.error == ParseErrorPrefix + Snippet(response)
  {
    var c := Candidates(response);
    if ParsesAt(parse, response, 0) then Ok(parse(c[0].value).value)
    else if ParsesAt(parse, response, 1) then Ok(parse(c[1].value).value)
    else if ParsesAt(parse, response, 2) then Ok(parse(c[2].value).value)
    else if ParsesAt(parse, response, 3) then Ok(parse(c[3].value).value)
    else
      assert forall i :: 0 <= i < 4 ==> !ParsesAt(parse, response, i) by {
        forall i | 0 <= i < 4
          ensures !ParsesAt(parse, response, i)
        {
          assert i == 0 || i == 1 || i == 2 || i == 3;
        }
      }
      Err(ParseErrorPrefix + Snippet(response))
  }

  /** A reply that is valid JSON as a whole is taken as it is. */
  lemma DirectParseWins<J>(response: string, parse: string -> Option<J>)
    requires parse(response).Some?
    ensures ParseJsonResponse(response, parse) == Ok(parse(response).value)
  {
    assert ParsesAt(parse, response, 0);
  }

  /** A fenced reply that does not parse as a whole gives the value of its body. */
  lemma FencedReplyParses<J>(tag: string, b: string, post: string, parse: string -> Option<J>)
    requires tag == "json" || tag == ""
    requires IsStripped(b) && NoFence(b)
    requires parse(Fence + tag + "\n" + b + "\n" + Fence + post).None? && parse(b).Some?
    ensures ParseJsonResponse(Fence + tag + "\n" + b + "\n" + Fence + post, parse) == Ok(parse(b).value)
  {
    var response := Fence + tag + "\n" + b + "\n" + Fence + post;
    FenceBodyOfFenced(tag, b, post);
    assert !ParsesAt(parse, response, 0) && ParsesAt(parse, response, 1);
  }

  /** Prose around one JSON object, with no other brace in it, gives the object when the
      reply has no usable fenced block. */
  lemma ObjectInProseParses<J>(pre: string, obj: string, post: string, parse: string -> Option<J>)
    requires |obj| >= 2 && obj[0] == '{' && obj[|obj| - 1] == '}'
    requires '{' !in pre && '}' !in post && parse(obj).Some?
    requires parse(pre + obj + post).None?
    requires FenceBody(pre + obj + post).None? || parse(FenceBody(pre + obj + post).value).None?
    ensures ParseJsonResponse(pre + obj + post, parse) == Ok(parse(obj).value)
  {
    var response := pre + obj + post;
    SpanOfWrapped(pre, obj, post, '{', '}');
    assert !ParsesAt(parse, response, 0) && !ParsesAt(parse, response, 1) && ParsesAt(parse, response, 2);
  }
}

=== FILE: script_generator.dfy ===
/** The script generator's handling of the model's reply and of script files: fence
    removal, the name taken from a description, and where scripts are saved and listed. */
module ScriptGenerator {
  import opened Wrappers
  import opened Text
  import opened Paths

  // ---------------------------------------------------------------------------
  // `_clean_script`

  /** The language tags the first pass accepts after a fence, in the order the
      alternation tries them. Since `robot` is tried first and is a prefix of
      `robotframework`, the longer tag can never match. */
  const WrittenTags: seq<string> := ["robot", "robotframework"]

  /** The order that lets `robotframework` be removed whole. */
  const IntendedTags: seq<string> := ["robotframework", "robot"]

  /** The length of the first tag in `tags` that `t` starts with, 0 if none. */
  function TagLength(t: string, tags: seq<string>): (n: nat)
    ensures n <= |t|
  {
    if |tags| == 0 then 0
    else if tags[0] <= t then |tags[0]|
    else TagLength(t, tags[1..])
  }

  /** The length of the match at a fence: the backticks, an optional tag, an optional
      newline. */
  function FenceMatch(s: string, tags: seq<string>): (n: nat)
    requires |s| >= 3
    ensures 3 <= n <= |s|
  {
    var k := 3 + TagLength(s[3..], tags);
    if k < |s| && s[k] == '\n' then k + 1 else k
  }

  /** One `re.sub` pass that deletes every fence match, scanning left to right. No fence
      survives it: a character kept just before a deleted match is never a backtick, so
      the deletions cannot bring three backticks together. */
  function Unfence(s: string, tags: seq<string>): (r: string)
    decreases |s|
    ensures NoFence(r)
    ensures |r| >= 1 && r[0] == '`' ==> |s| >= 1 && s[0] == '`'
    ensures |r| >= 2 && r[0] == '`' && r[1] == '`' ==> |s| >= 2 && s[1] == '`'
  {
    if |s| < 3 then s
    else if FenceAt(s, 0) then Unfence(s[FenceMatch(s, tags)..], tags)
    else
      var rest := Unfence(s[1..], tags);
      var r := [s[0]] + rest;
      assert !FenceAt(r, 0) by {
        assert |rest| >= 2 && rest[0] == '`' && rest[1] == '`' ==> s[1] == '`' && s[2] == '`';
      }
      assert forall x :: 1 <= x < |r| ==> (FenceAt(r, x) <==> FenceAt(rest, x - 1));
      r
  }

  /** Text without a backtick passes through a pass untouched. */
  lemma {:induction false} UnfencePlain(a: string, b: string, tags: seq<string>)
    requires '`' !in a
    ensures Unfence(a + b, tags) == a + Unfence(b, tags)
    decreases |a|
  {
    if |a| > 0 {
      assert (a + b)[0] == a[0];
      assert (a + b)[1..] == a[1..] + b;
      UnfencePlain(a[1..], b, tags);
    } else {
      assert a + b == b;
    }
  }

  /** Without a fence there is nothing for a pass to do. */
  lemma {:induction false} UnfenceIdle(s: string, tags: seq<string>)
    requires NoFence(s)
    ensures Unfence(s, tags) == s
    decreases |s|
  {
    if |s| >= 3 {
      assert !FenceAt(s, 0);
      assert NoFence(s[1..]) by {
        forall x | 0 <= x < |s[1..]|
          ensures !FenceAt(s[1..], x)
        {
          assert !FenceAt(s, x + 1);
        }
      }
      UnfenceIdle(s[1..], tags);
    }
  }

  /** The text after both passes. */
  function Unfenced(response: string, tags: seq<string>): string {
    Unfence(Unfence(response, tags), [])
  }

  /** The second pass never finds anything: the first has left no fence. */
  lemma SecondPassIdle(response: string, tags: seq<string>)
    ensures Unfenced(response, tags) == Unfence(response, tags)
  {
    UnfenceIdle(Unfence(response, tags), []);
  }

  const Settings := "*** Settings ***"

  /** `_clean_script` with the given tag order: drop the fences, start at the first
      `*** Settings ***` if there is one, strip. */
  function CleanScriptWith(response: string, tags: seq<string>): (r: string)
    ensures IsStripped(r) && NoFence(r)
    ensures Contains(Unfenced(response, tags), Settings) ==> Settings <= r
  {
    var script := Unfenced(response, tags);
    var from := SettingsStart(script);
    StrippedTail(script, from);
    if Contains(script, Settings) then
      StripKeepsPrefix(script[from..], Settings);
      Strip(script[from..])
    else Strip(script[from..])
  }

  /** Where the script starts: at the first `*** Settings ***`, or at the beginning. */
  function SettingsStart(script: string): (n: nat)
    ensures n <= |script|
    ensures Contains(script, Settings) ==> Settings <= script[n..]
    ensures !Contains(script, Settings) ==> n == 0
  {
    if Contains(script, Settings) then
      var i := Find(script, Settings).value;
      assert script[i..][..|Settings|] == script[i..i + |Settings|];
      i
    else 0
  }

  /** Stripping a tail of fence-free text leaves fence-free text. */
  lemma StrippedTail(script: string, from: nat)
    requires NoFence(script) && from <= |script|
    ensures NoFence(Strip(script[from..]))
  {
    NoFenceSlice(script, from, |script|);
    assert script[from..|script|] == script[from..];
    StrippedNoFence(script[from..]);
  }

  lemma StrippedNoFence(t: string)
    requires NoFence(t)
    ensures NoFence(Strip(t))
  {
    StripSlice(t);
    NoFenceSlice(t, LeadingSpace(t), LeadingSpace(t) + |Strip(t)|);
  }

  /** A piece of fence-free text is fence-free. */
  lemma NoFenceSlice(s: string, b: nat, c: nat)
    requires NoFence(s) && b <= c <= |s|
    ensures NoFence(s[b..c])
  {
    var t := s[b..c];
    forall x | 0 <= x < |t|
      ensures !FenceAt(t, x)
    {
      assert !FenceAt(s, b + x);
    }
  }

  /** `_clean_script` as written. */
  function CleanScriptAsWritten(response: string): (r: string)
    ensures IsStripped(r) && NoFence(r)
  {
    CleanScriptWith(response, WrittenTags)
  }

  /** `_clean_script` as evidently intended: a `robotframework` tag goes with its fence. */
  function CleanScript(response: string): (r: string)
    ensures IsStripped(r) && NoFence(r)
    ensures Contains(Unfenced(response, IntendedTags), Settings) ==> Settings <= r
  {
    CleanScriptWith(response, IntendedTags)
  }

  /** A script without backticks, wrapped in a fence with a tag the alternation takes
      whole, comes out of the first pass with only a newline left of the closing fence. */
  lemma UnfenceWrapped(tag: string, body: string, tags: seq<string>)
    requires '`' !in body
    requires TagLength(tag + "\n" + body + "\n" + Fence, tags) == |tag|
    ensures Unfence(Fence + tag + "\n" + body + "\n" + Fence, tags) == body + "\n"
  {
    var rest := body + "\n" + Fence;
    assert tag + "\n" + body + "\n" + Fence == tag + "\n" + rest;
    assert Fence + tag + "\n" + body + "\n" + Fence == Fence + tag + "\n" + rest;
    OpeningFence(tag, rest, tags);
    assert rest == body + ("\n" + Fence);
    UnfencePlain(body, "\n" + Fence, tags);
    UnfenceClosing(tags);
  }

  /** An opening fence whose tag the alternation takes whole goes with its newline. */
  lemma OpeningFence(tag: string, rest: string, tags: seq<string>)
    requires TagLength(tag + "\n" + rest, tags) == |tag|
    ensures Unfence(Fence + tag + "\n" + rest, tags) == Unfence(rest, tags)
  {
    var s := Fence + tag + "\n" + rest;
    assert s[3..] == tag + "\n" + rest;
    assert s[3 + |tag|] == '\n';
    assert FenceMatch(s, tags) == |tag| + 4;
    assert s[|tag| + 4..] == rest;
  }

  /** The closing fence with the newline before it leaves only the newline. */
  lemma UnfenceClosing(tags: seq<string>)
    ensures Unfence("\n" + Fence, tags) == "\n"
  {
    UnfencePlain("\n", Fence, tags);
    assert Fence[3..] == "";
    assert FenceMatch(Fence, tags) == 3;
    assert Fence[3..] == [];
  }

  /** A fenced script that starts with its settings section comes back as it was, whether
      the fence is bare or tagged `robot` or `robotframework`. */
  lemma FencedScriptCleans(tag: string, body: string)
    requires tag == "" || tag == "robot" || tag == "robotframework"
    requires |body| >= 1 && IsStripped(body) && '`' !in body && Settings <= body
    ensures CleanScript(Fence + tag + "\n" + body + "\n" + Fence) == body
  {
    var t := tag + "\n" + body + "\n" + Fence;
    IntendedTagLength(tag, body);
    UnfenceWrapped(tag, body, IntendedTags);
    var script := body + "\n";
    NoTickNoFence(script);
    UnfenceIdle(script, []);
    assert Settings <= script;
    ContainsPrefix(script, Settings);
    assert OccursAt(script, Settings, 0);
    assert Find(script, Settings) == Some(0);
    assert script[0..] == script;
    StripTrailingNewline(body);
  }

  lemma IntendedTagLength(tag: string, body: string)
    requires tag == "" || tag == "robot" || tag == "robotframework"
    ensures TagLength(tag + "\n" + body + "\n" + Fence, IntendedTags) == |tag|
  {
    var t := tag + "\n" + body + "\n" + Fence;
    assert IntendedTags[1..] == ["robot"] && ["robot"][1..] == [];
    if tag == "" {
      assert t[0] == '\n';
      NotPrefix("robotframework", t, 0);
      NotPrefix("robot", t, 0);
      assert TagLength(t, ["robot"]) == TagLength(t, []) == 0;
    } else if tag == "robot" {
      assert t[5] == '\n';
      NotPrefix("robotframework", t, 5);
      assert t[..5] == "robot";
    } else {
      assert t[..14] == "robotframework";
    }
  }

  lemma NotPrefix(p: string, t: string, k: nat)
    requires k < |p| && k < |t| && p[k] != t[k]
    ensures !(p <= t)
  {
  }

  lemma NoTickNoFence(s: string)
    requires '`' !in s
    ensures NoFence(s)
  {
    forall x | 0 <= x < |s|
      ensures !FenceAt(s, x)
    {
      assert s[x] in s;
    }
  }

  /** An occurrence of `pat` in `pre + body + post` must lie inside `body` when `pre`
      lacks its first character and `post` its last. */
  lemma NoOccurrenceAround(pre: string, body: string, post: string, pat: string)
    requires |pat| >= 1 && !Contains(body, pat)
    requires forall k :: 0 <= k < |pre| ==> pre[k] != pat[0]
    requires forall k :: 0 <= k < |post| ==> post[k] != pat[|pat| - 1]
    ensures !Contains(pre + body + post, pat)
  {
    var s := pre + body + post;
    assert s[|pre|..|pre| + |body|] == body;
    forall i | 0 <= i
      ensures !OccursAt(s, pat, i)
    {
      if i + |pat| > |s| {
      } else if i < |pre| {
        assert s[i..i + |pat|][0] == s[i] == pre[i];
      } else if i + |pat| > |pre| + |body| {
        var last := i + |pat| - 1;
        assert s[i..i + |pat|][|pat| - 1] == s[last] == post[last - |pre| - |body|];
      } else {
        var j := i - |pre|;
        SubSlice(s, |pre|, body, j, j + |pat|);
        assert !OccursAt(body, pat, j);
      }
    }
  }

  /** With the tags as written, a `robotframework` fence loses only `robot`: a script
      without a settings section keeps a stray `framework` line at its top. */
  lemma FrameworkTagLeftBehind(body: string)
    requires |body| >= 1 && IsStripped(body) && '`' !in body && !Contains(body, Settings)
    ensures CleanScriptAsWritten(Fence + "robotframework" + "\n" + body + "\n" + Fence) == "framework\n" + body
  {
    UnfenceAsWritten(body);
    Leftover(body);
    StrippedAfter("framework\n", body);
    CleanStripped(Fence + "robotframework" + "\n" + body + "\n" + Fence, WrittenTags, "framework\n" + body);
  }

  /** What the first pass leaves has no fence, and the leftover tag does not bring in a
      settings header. */
  lemma Leftover(body: string)
    requires '`' !in body && !Contains(body, Settings)
    ensures var script := "framework\n" + body + "\n";
            NoFence(script) && !Contains(script, Settings)
  {
    NoTickNoFence("framework\n" + body + "\n");
    NoOccurrenceAround("framework\n", body, "\n", Settings);
  }

  /** Text that starts with a non-blank character, followed by stripped text, is stripped. */
  lemma StrippedAfter(pre: string, body: string)
    requires |pre| >= 1 && !IsSpace(pre[0]) && |body| >= 1 && IsStripped(body)
    ensures IsStripped(pre + body)
  {
    assert (pre + body)[|pre + body| - 1] == body[|body| - 1];
  }

  /** The first pass as written: `robot` goes with the fence, `framework` stays. */
  lemma UnfenceAsWritten(body: string)
    requires '`' !in body
    ensures Unfence(Fence + "robotframework" + "\n" + body + "\n" + Fence, WrittenTags) == "framework\n" + body + "\n"
  {
    var rest := "framework\n" + body;
    Regroup(body);
    assert "robot" <= "robot" + (rest + ("\n" + Fence));
    assert '`' !in rest;
    UnfenceTagged("robot", rest, WrittenTags);
  }

  lemma Regroup(body: string)
    ensures Fence + "robotframework" + "\n" + body + "\n" + Fence
         == Fence + ("robot" + (("framework\n" + body) + ("\n" + Fence)))
  {
  }

  /** A fence whose tag is followed directly by text keeps that text. */
  lemma UnfenceTagged(tag: string, rest: string, tags: seq<string>)
    requires '`' !in rest && |rest| >= 1 && rest[0] != '\n'
    requires TagLength(tag + (rest + ("\n" + Fence)), tags) == |tag|
    ensures Unfence(Fence + (tag + (rest + ("\n" + Fence))), tags) == rest + "\n"
  {
    var s := Fence + (tag + (rest + ("\n" + Fence)));
    assert s[3..] == tag + (rest + ("\n" + Fence));
    assert s[3 + |tag|] == rest[0];
    assert FenceMatch(s, tags) == 3 + |tag|;
    assert s[3 + |tag|..] == rest + ("\n" + Fence);
    UnfencePlain(rest, "\n" + Fence, tags);
    UnfenceClosing(tags);
  }

  /** With the intended tag order the same reply comes back as the script alone. */
  lemma FrameworkTagRemoved(body: string)
    requires |body| >= 1 && IsStripped(body) && '`' !in body && !Contains(body, Settings)
    ensures CleanScript(Fence + "robotframework" + "\n" + body + "\n" + Fence) == body
  {
    IntendedTagLength("robotframework", body);
    UnfenceWrapped("robotframework", body, IntendedTags);
    var script := body + "\n";
    NoTickNoFence(script);
    NoOccurrenceAround("", body, "\n", Settings);
    assert "" + body + "\n" == script;
    CleanStripped(Fence + "robotframework" + "\n" + body + "\n" + Fence, IntendedTags, body);
  }

  /** When the first pass leaves stripped, fence-free text and a newline, without a
      settings header, the cleaning gives that text. */
  lemma CleanStripped(response: string, tags: seq<string>, text: string)
    requires |text| >= 1 && IsStripped(text)
    requires Unfence(response, tags) == text + "\n" && NoFence(text + "\n") && !Contains(text + "\n", Settings)
    ensures CleanScriptWith(response, tags) == text
  {
    CleanOfUnfenced(response, tags, text + "\n");
    StripTrailingNewline(text);
  }

  /** Fence-free text without a settings header comes out of the cleaning stripped. */
  lemma CleanOfUnfenced(response: string, tags: seq<string>, script: string)
    requires Unfence(response, tags) == script && NoFence(script) && !Contains(script, Settings)
    ensures CleanScriptWith(response, tags) == Strip(script)
  {
    UnfenceIdle(script, []);
    assert script[0..] == script;
  }

  // ---------------------------------------------------------------------------
  // `extract_name`

  const NameLimit := 20

  /** The characters a file name cannot hold on Windows. */
  predicate Forbidden(c: char) {
    c == '\\' || c == '/' || c == ':' || c == '*' || c == '?' || c == '"' || c == '<' || c == '>' || c == '|'
  }

  function DropForbidden(s: string): (r: string)
    ensures |r| <= |s|
    ensures forall k :: 0 <= k < |r| ==> !Forbidden(r[k])
    ensures (forall k :: 0 <= k < |s| ==> !Forbidden(s[k])) ==> r == s
  {
    if |s| == 0 then ""
    else (if Forbidden(s[0]) then [] else [s[0]]) + DropForbidden(s[1..])
  }

  lemma {:induction false} DropForbiddenAppend(a: string, b: string)
    ensures DropForbidden(a + b) == DropForbidden(a) + DropForbidden(b)
    decreases |a|
  {
    if |a| == 0 {
      assert a + b == b;
    } else {
      assert (a + b)[1..] == a[1..] + b;
      DropForbiddenAppend(a[1..], b);
    }
  }

  /** A single forbidden character is dropped. */
  lemma DropOne(c: char)
    requires Forbidden(c)
    ensures DropForbidden([c]) == ""
  {
    assert [c][1..] == "";
  }

  /** The part of the description the name is taken from: before the first full-width
      colon, else before the first colon, else the first twenty characters. */
  function NameSource(description: string): string {
    if '：' in description then Split(description, '：')[0]
    else if ':' in description then Split(description, ':')[0]
    else Take(description, NameLimit)
  }

  /** `extract_name`; `stamp` is the `%Y%m%d_%H%M%S` rendering of the current time. */
  function ExtractName(description: string, stamp: string): (r: string)
    ensures r == "test_" + stamp || (|r| >= 1 && IsStripped(r) && forall k :: 0 <= k < |r| ==> !Forbidden(r[k]))
    ensures Strip(DropForbidden(NameSource(description))) == "" ==> r == "test_" + stamp
    ensures Strip(DropForbidden(NameSource(description))) != "" ==> r == Strip(DropForbidden(NameSource(description)))
  {
    var cleaned := DropForbidden(NameSource(description));
    StripSlice(cleaned);
    var name := Strip(cleaned);
    if name == "" then "test_" + stamp else name
  }

  /** A name that is usable as it is comes back when the description puts it before a
      full-width colon. */
  lemma NameBeforeFullWidthColon(name: string, rest: string, stamp: string)
    requires |name| >= 1 && IsStripped(name) && '：' !in name
    requires forall k :: 0 <= k < |name| ==> !Forbidden(name[k])
    ensures ExtractName(name + "：" + rest, stamp) == name
  {
    SourceBeforeFullWidthColon(name, rest);
    StripOfStripped(name);
  }

  /** The full-width colon takes precedence: an ASCII colon before it is only deleted. */
  lemma FullWidthColonFirst(x: string, y: string, rest: string, stamp: string)
    requires '：' !in x && '：' !in y
    requires forall k :: 0 <= k < |x| ==> !Forbidden(x[k])
    requires forall k :: 0 <= k < |y| ==> !Forbidden(y[k])
    requires Strip(x + y) != ""
    ensures ExtractName(x + ":" + y + "：" + rest, stamp) == Strip(x + y)
  {
    var head := x + ":" + y;
    assert '：' !in head;
    SourceBeforeFullWidthColon(head, rest);
    DropColon(x, y);
  }

  lemma DropColon(x: string, y: string)
    requires forall k :: 0 <= k < |x| ==> !Forbidden(x[k])
    requires forall k :: 0 <= k < |y| ==> !Forbidden(y[k])
    ensures DropForbidden(x + ":" + y) == x + y
  {
    DropForbiddenAppend(x + ":", y);
    DropForbiddenAppend(x, ":");
    DropOne(':');
    assert DropForbidden(x) == x && DropForbidden(y) == y;
    assert DropForbidden(x + ":") == x + "";
    assert x + "" == x;
  }

  lemma SourceBeforeFullWidthColon(head: string, rest: string)
    requires '：' !in head
    ensures NameSource(head + "：" + rest) == head
  {
    var d := head + "：" + rest;
    assert d[|head|] == '：';
    assert d == head + ['：'] + rest;
    SplitConcat(head, rest, '：');
  }

  // ---------------------------------------------------------------------------
  // `save` and `list_scripts`

  const ScriptSuffix := ".robot"

  /** Where `save` writes a script. */
  function SavePath(testsDir: string, name: string): (r: string)
    ensures EndsWith(r, ScriptSuffix)
  {
    PathJoin(testsDir, name + ScriptSuffix)
  }

  /** The script names among a directory's entries, in listing order. */
  function RobotNames(entries: seq<string>): (r: seq<string>)
    ensures forall n :: n in r ==> n + ScriptSuffix in entries
    ensures forall e :: e in entries && EndsWith(e, ScriptSuffix) ==> e[..|e| - 6] in r
  {
    if |entries| == 0 then []
    else
      var e := entries[0];
      var rest := RobotNames(entries[1..]);
      if EndsWith(e, ScriptSuffix) then
        assert e[..|e| - 6] + ScriptSuffix == e;
        [e[..|e| - 6]] + rest
      else rest
  }

  /** `list_scripts`: nothing without the directory, else every `.robot` entry without
      its suffix. */
  function ListScripts(dirExists: bool, entries: seq<string>): (r: seq<string>)
    ensures !dirExists ==> r == []
    ensures dirExists ==> forall n :: n in r ==> n + ScriptSuffix in entries
    ensures dirExists ==> forall e :: e in entries && EndsWith(e, ScriptSuffix) ==> e[..|e| - 6] in r
  {
    if dirExists then RobotNames(entries) else []
  }

  /** A saved script is listed under the name it was saved with. */
  lemma SavedScriptListed(testsDir: string, name: string, others: seq<string>)
    requires '/' !in name
    ensures var file := Basename(SavePath(testsDir, name));
            file == name + ScriptSuffix && name in ListScripts(true, others + [file])
  {
    var file := name + ScriptSuffix;
    assert '/' !in file by {
      assert forall k :: 0 <= k < |file| ==> file[k] == if k < |name| then name[k] else ScriptSuffix[k - |name|];
    }
    BasenameOfJoin(testsDir, file);
    assert file in others + [file];
    assert file[..|file| - 6] == name;
  }
}

=== FILE: test_generator.dfy ===
/** The test-case generator: what it does with the model's reply (fence removal, start at
    the first section marker), the file name it derives from the description, and the
    scenario list it reads out of a suggestion reply. */
module TestGenerator {
  import opened Wrappers
  import opened Text

  /** Which characters `re`'s `\w` accepts; for text this is Unicode-wide, so it is a
      parameter. It never accepts whitespace. */
  type WordClass = char -> bool

  /** The length of the run of word characters of `s` from `i` on. */
  function WordRun(s: string, i: nat, word: WordClass): (n: nat)
    requires i <= |s|
    decreases |s| - i
    ensures i + n <= |s| && (forall k :: i <= k < i + n ==> word(s[k])) && (i + n < |s| ==> !word(s[i + n]))
  {
    if i == |s| || !word(s[i]) then 0 else 1 + WordRun(s, i + 1, word)
  }

  // ---------------------------------------------------------------------------
  // `_clean_code`

  /** The length of the match of the opening fence with its language tag and newline at
      the very start, 0 when there is none. */
  function OpeningFence(s: string, word: WordClass): (n: nat)
    ensures n <= |s|
    ensures n > 0 <==> Fence <= s
  {
    if Fence <= s then
      var k := 3 + WordRun(s, 3, word);
      if k < |s| && s[k] == '\n' then k + 1 else k
    else 0
  }

  /** The removal of a closing fence, with the newline before it, at the end of the text
      or just before a final newline (`$` matches there too). */
  function DropClosingFence(s: string): (r: string)
    ensures |r| <= |s|
  {
    var n := |s|;
    if EndsWith(s, "\n" + Fence) then s[..n - 4]
    else if EndsWith(s, Fence) then s[..n - 3]
    else if EndsWith(s, "\n" + Fence + "\n") then s[..n - 5] + "\n"
    else if EndsWith(s, Fence + "\n") then s[..n - 4] + "\n"
    else s
  }

  const Stars := "***"

  /** `_clean_code`: drop the fences; unless the stripped text already starts with `***`,
      start at the first `***` there is; strip. */
  function CleanCode(code: string, word: WordClass): (r: string)
    ensures IsStripped(r)
    ensures Contains(DropClosingFence(code[OpeningFence(code, word)..]), Stars) ==> Stars <= r
  {
    var bare := DropClosingFence(code[OpeningFence(code, word)..]);
    if Stars <= Strip(bare) then Strip(bare)
    else match Find(bare, Stars)
      case Some(i) =>
        StripKeepsPrefix(bare[i..], Stars);
        Strip(bare[i..])
      case None => Strip(bare)
  }

  /** A fenced reply whose body is a stripped script starting with `***` cleans to the
      body itself. */
  lemma FencedCodeCleans(tag: string, body: string, word: WordClass)
    requires !word('\n') && forall k :: 0 <= k < |tag| ==> word(tag[k])
    requires IsStripped(body) && Stars <= body
    ensures CleanCode(Fence + tag + "\n" + body + "\n" + Fence, word) == body
  {
    var s := Fence + tag + "\n" + body + "\n" + Fence;
    assert Fence <= s;
    TagRun(s, tag, word);
    assert s[3 + |tag|] == '\n';
    var rest := s[OpeningFence(s, word)..];
    assert rest == body + "\n" + Fence;
    assert rest[|rest| - 4..] == "\n" + Fence;
    assert EndsWith(rest, "\n" + Fence);
    assert DropClosingFence(rest) == body;
    StripOfStripped(body);
  }

  lemma TagRun(s: string, tag: string, word: WordClass)
    requires |s| > 3 + |tag| && s[3..3 + |tag|] == tag && !word(s[3 + |tag|])
    requires forall k :: 0 <= k < |tag| ==> word(tag[k])
    ensures WordRun(s, 3, word) == |tag|
  {
    assert forall k :: 0 <= k < |tag| ==> s[3 + k] == tag[k];
  }

  /** A reply that is already a bare stripped script comes back unchanged. */
  lemma BareCodeUnchanged(body: string, word: WordClass)
    requires IsStripped(body) && Stars <= body && !EndsWith(body, Fence)
    ensures CleanCode(body, word) == body
  {
    assert !(Fence <= body) by {
      assert body[0] == '*';
    }
    assert body[0..] == body;
    EndsWithParts(body, "\n", Fence);
    EndsWithParts(body, "\n" + Fence, "\n");
    EndsWithParts(body, Fence, "\n");
    assert !EndsWith(body, "\n") by {
      assert !IsSpace(body[|body| - 1]);
    }
    assert DropClosingFence(body) == body;
    StripOfStripped(body);
  }

  /** A text that ends with `x + y` ends with `y`. */
  lemma EndsWithParts(s: string, x: string, y: string)
    ensures EndsWith(s, x + y) ==> EndsWith(s, y)
  {
    if EndsWith(s, x + y) {
      assert s[|s| - |y|..] == s[|s| - |x + y|..][|x|..];
    }
  }

  // ---------------------------------------------------------------------------
  // `_extract_test_name`

  const NameLimit := 20
  const FallbackName := "test_case"

  /** The characters the name keeps: word characters, the CJK unified ideographs and
      whitespace. */
  predicate Kept(c: char, word: WordClass) {
    word(c) || ('一' <= c <= '鿿') || IsSpace(c)
  }

  function KeepOnly(s: string, word: WordClass): (r: string)
    ensures |r| <= |s|
    ensures forall k :: 0 <= k < |r| ==> Kept(r[k], word)
    ensures (forall k :: 0 <= k < |s| ==> Kept(s[k], word)) ==> r == s
  {
    if |s| == 0 then ""
    else (if Kept(s[0], word) then [s[0]] else []) + KeepOnly(s[1..], word)
  }

  /** `re.sub(r'\s+', '_', s)`: every run of whitespace becomes one underscore. */
  function Collapse(s: string): (r: string)
    decreases |s|
    ensures |r| <= |s|
    ensures forall k :: 0 <= k < |r| ==> !IsSpace(r[k])
  {
    if |s| == 0 then ""
    else if IsSpace(s[0]) then
      var n := LeadingSpace(s);
      "_" + Collapse(s[n..])
    else [s[0]] + Collapse(s[1..])
  }

  /** `_extract_test_name`: keep the allowed characters, take the first twenty, strip,
      turn whitespace runs into underscores; `test_case` when nothing is left. */
  function ExtractTestName(description: string, word: WordClass): (r: string)
    ensures |r| >= 1 && |r| <= NameLimit
    ensures forall k :: 0 <= k < |r| ==> !IsSpace(r[k])
    ensures r == FallbackName || forall k :: 0 <= k < |r| ==> r[k] == '_' || Kept(r[k], word)
  {
    var t := Trimmed(description, word);
    CollapseKept(t, word);
    var name := Collapse(t);
    FallbackPlain();
    if name == "" then FallbackName else name
  }

  /** The fallback name has no whitespace. */
  lemma FallbackPlain()
    ensures forall k :: 0 <= k < |FallbackName| ==> !IsSpace(FallbackName[k])
  {
    forall k | 0 <= k < |FallbackName|
      ensures !IsSpace(FallbackName[k])
    {
      assert FallbackName[k] in "test_case";
    }
  }

  /** Collapsing keeps allowed characters allowed: it only adds underscores. */
  lemma {:induction false} CollapseKept(s: string, word: WordClass)
    requires forall k :: 0 <= k < |s| ==> Kept(s[k], word)
    ensures forall k :: 0 <= k < |Collapse(s)| ==> Collapse(s)[k] == '_' || Kept(Collapse(s)[k], word)
    decreases |s|
  {
    if |s| > 0 {
      if IsSpace(s[0]) {
        var n := LeadingSpace(s);
        CollapseKept(s[n..], word);
        assert Collapse(s) == "_" + Collapse(s[n..]);
      } else {
        CollapseKept(s[1..], word);
        assert Collapse(s) == [s[0]] + Collapse(s[1..]);
      }
    }
  }

  /** The allowed characters of the description, the first twenty of them, stripped. */
  function Trimmed(description: string, word: WordClass): (t: string)
    ensures |t| <= NameLimit
    ensures forall k :: 0 <= k < |t| ==> Kept(t[k], word)
  {
    var s := Take(KeepOnly(description, word), NameLimit);
    StripSlice(s);
    var a := LeadingSpace(s);
    assert forall k :: 0 <= k < |Strip(s)| ==> Strip(s)[k] == s[a + k];
    Strip(s)
  }

  /** Words of allowed characters separated by single spaces come back joined by
      underscores, when they fit in twenty characters. */
  lemma SpacedWordsJoinedByUnderscore(words: seq<string>, word: WordClass)
    requires |words| >= 1
    requires forall i :: 0 <= i < |words| ==> PlainWord(words[i], word)
    requires |Join(words, " ")| <= NameLimit
    ensures ExtractTestName(Join(words, " "), word) == Join(words, "_")
  {
    var d := Join(words, " ");
    JoinKept(words, word);
    JoinPlainEnds(words, word, " ");
    StripOfStripped(d);
    CollapseJoin(words);
    JoinPlainEnds(words, word, "_");
  }

  /** A word the name keeps as it is: non-empty, allowed characters, no whitespace. */
  predicate PlainWord(w: string, word: WordClass) {
    |w| >= 1 && forall k :: 0 <= k < |w| ==> Kept(w[k], word) && !IsSpace(w[k])
  }

  lemma {:induction false} JoinKept(words: seq<string>, word: WordClass)
    requires forall i :: 0 <= i < |words| ==> PlainWord(words[i], word)
    ensures forall k :: 0 <= k < |Join(words, " ")| ==> Kept(Join(words, " ")[k], word)
    decreases |words|
  {
    if |words| > 1 {
      JoinKept(words[1..], word);
      var rest := Join(words[1..], " ");
      assert Join(words, " ") == words[0] + " " + rest;
      forall k | 0 <= k < |Join(words, " ")|
        ensures Kept(Join(words, " ")[k], word)
      {
        if k > |words[0]| {
          assert Join(words, " ")[k] == rest[k - |words[0]| - 1];
        }
      }
    }
  }

  /** Joined plain words neither start nor end with whitespace. */
  lemma {:induction false} JoinPlainEnds(words: seq<string>, word: WordClass, sep: string)
    requires |words| >= 1
    requires forall i :: 0 <= i < |words| ==> PlainWord(words[i], word)
    ensures var j := Join(words, sep); |j| >= 1 && !IsSpace(j[0]) && !IsSpace(j[|j| - 1])
    decreases |words|
  {
    if |words| > 1 {
      JoinPlainEnds(words[1..], word, sep);
      var rest := Join(words[1..], sep);
      assert Join(words, sep) == words[0] + sep + rest;
    }
  }

  lemma {:induction false} CollapseJoin(words: seq<string>)
    requires |words| >= 1
    requires forall i :: 0 <= i < |words| ==> |words[i]| >= 1 && NoSpace(words[i])
    ensures Collapse(Join(words, " ")) == Join(words, "_")
    decreases |words|
  {
    if |words| == 1 {
      CollapsePlain(words[0]);
    } else {
      var tail := words[1..];
      var rest := Join(tail, " ");
      CollapseJoin(tail);
      JoinHead(tail, " ");
      assert !IsSpace(tail[0][0]);
      calc {
        Collapse(Join(words, " "));
        { assert Join(words, " ") == words[0] + (" " + rest); }
        Collapse(words[0] + (" " + rest));
        { CollapseAppend(words[0], " " + rest); }
        words[0] + Collapse(" " + rest);
        { CollapseSpaceThen(rest); }
        words[0] + ("_" + Join(tail, "_"));
        { assert words[0] + ("_" + Join(tail, "_")) == words[0] + "_" + Join(tail, "_"); }
        Join(words, "_");
      }
    }
  }

  /** A join starts with the first piece. */
  lemma JoinHead(parts: seq<string>, sep: string)
    requires |parts| >= 1 && |parts[0]| >= 1
    ensures |Join(parts, sep)| >= 1 && Join(parts, sep)[0] == parts[0][0]
  {
  }

  /** One space before a word becomes one underscore. */
  lemma CollapseSpaceThen(rest: string)
    requires |rest| >= 1 && !IsSpace(rest[0])
    ensures Collapse(" " + rest) == "_" + Collapse(rest)
  {
    var t := " " + rest;
    assert t[1] == rest[0];
    assert LeadingSpace(t) == 1;
    assert t[1..] == rest;
  }

  lemma {:induction false} CollapsePlain(w: string)
    requires NoSpace(w)
    ensures Collapse(w) == w
    decreases |w|
  {
    if |w| > 0 {
      CollapsePlain(w[1..]);
    }
  }

  /** Collapsing a space-free head followed by the rest collapses the rest only. */
  lemma {:induction false} CollapseAppend(w: string, rest: string)
    requires NoSpace(w)
    ensures Collapse(w + rest) == w + Collapse(rest)
    decreases |w|
  {
    if |w| == 0 {
      assert w + rest == rest;
    } else {
      assert w + rest == [w[0]] + (w[1..] + rest);
      CollapseCons(w[0], w[1..] + rest);
      CollapseAppend(w[1..], rest);
      assert w == [w[0]] + w[1..];
    }
  }

  /** A character that is not whitespace is kept in front. */
  lemma CollapseCons(c: char, t: string)
    requires !IsSpace(c)
    ensures Collapse([c] + t) == [c] + Collapse(t)
  {
    assert ([c] + t)[1..] == t;
  }

  // ---------------------------------------------------------------------------
  // `generate`

  datatype Generated = Generated(file: string, lines: nat, content: string)

  /** `generate`, after the model has answered `reply`: the cleaned code, the line count
      (newlines plus one) and the file, `tests/<name>.robot` when none was given. */
  function GenerateTest(description: string, outputFile: string, reply: string, word: WordClass): (r: Generated)
    ensures r.content == CleanCode(reply, word)
    ensures r.lines == |Split(r.content, '\n')|
    ensures outputFile != "" ==> r.file == outputFile
    ensures outputFile == "" ==> r.file == "tests/" + ExtractTestName(description, word) + ".robot"
  {
    var content := CleanCode(reply, word);
    SplitLength(content, '\n');
    var file := if outputFile == "" then "tests/" + ExtractTestName(description, word) + ".robot" else outputFile;
    Generated(file, CountChar(content, '\n') + 1, content)
  }

  // ---------------------------------------------------------------------------
  // `suggest_scenarios`

  /** The length of a leading `N.`, `N)` or `N、` numbering with the whitespace after it,
      0 when the line does not start with one. */
  function Numbering(l: string): (n: nat)
    ensures n <= |l|
    ensures n > 0 ==> IsDigit(l[0])
    ensures n > 0 && n < |l| ==> !IsSpace(l[n])
  {
    var d := DigitRun(l, 0);
    if d > 0 && d < |l| && (l[d] == '.' || l[d] == ')' || l[d] == '、') then
      d + 1 + SpaceRun(l, d + 1)
    else 0
  }

  /** One line of the reply: blank and `#` lines are dropped, the numbering is removed,
      and a line left empty is dropped. */
  function Scenario(line: string): (r: Option<string>)
    ensures r.Some? ==> |r.value| >= 1 && IsStripped(r.value)
  {
    var l := Strip(line);
    if l == "" || l[0] == '#' then None
    else
      var t := l[Numbering(l)..];
      NumberingLeavesStripped(l);
      if t == "" then None else Some(t)
  }

  /** What is left after the numbering of a stripped line is stripped. */
  lemma NumberingLeavesStripped(l: string)
    requires |l| >= 1 && IsStripped(l)
    ensures IsStripped(l[Numbering(l)..])
  {
    var n := Numbering(l);
    var t := l[n..];
    if |t| > 0 {
      assert t[0] == l[n] && t[|t| - 1] == l[|l| - 1];
    }
  }

  function Scenarios(lines: seq<string>): (r: seq<string>)
    ensures |r| <= |lines|
    ensures forall i :: 0 <= i < |r| ==> |r[i]| >= 1 && IsStripped(r[i])
  {
    if |lines| == 0 then []
    else match Scenario(lines[0])
      case Some(t) => [t] + Scenarios(lines[1..])
      case None => Scenarios(lines[1..])
  }

  /** `suggest_scenarios`, after the model has answered `response`. */
  function SuggestScenarios(response: string): (r: seq<string>)
    ensures |r| <= CountChar(Strip(response), '\n') + 1
    ensures forall i :: 0 <= i < |r| ==> |r[i]| >= 1 && IsStripped(r[i])
    ensures Strip(response) == "" ==> r == []
  {
    SplitLength(Strip(response), '\n');
    assert Split("", '\n') == [""];
    assert Scenario("") == None by {
      assert IsStripped("");
      StripOfStripped("");
    }
    Scenarios(Split(Strip(response), '\n'))
  }

  /** A scenario the parse keeps verbatim: one non-blank line that is not a comment and
      not numbered. */
  predicate PlainScenario(l: string) {
    |l| >= 1 && IsStripped(l) && '\n' !in l && l[0] != '#' && !IsDigit(l[0])
  }

  /** Plain scenarios, one per line, come back as they were and in their order. */
  lemma PlainScenariosRoundTrip(lines: seq<string>)
    requires forall i :: 0 <= i < |lines| ==> PlainScenario(lines[i])
    ensures SuggestScenarios(Join(lines, "\n")) == lines
  {
    if |lines| == 0 {
      SplitNoSep("", '\n');
    } else {
      JoinEndsOf(lines, "\n");
      StripOfStripped(Join(lines, "\n"));
      JoinSplit(lines, '\n');
      PlainScenarios(lines);
    }
  }

  lemma {:induction false} PlainScenarios(lines: seq<string>)
    requires forall i :: 0 <= i < |lines| ==> PlainScenario(lines[i])
    ensures Scenarios(lines) == lines
    decreases |lines|
  {
    if |lines| > 0 {
      StripOfStripped(lines[0]);
      assert Numbering(lines[0]) == 0;
      assert lines[0][0..] == lines[0];
      PlainScenarios(lines[1..]);
    }
  }

  /** Joined non-empty stripped pieces are stripped. */
  lemma {:induction false} JoinEndsOf(lines: seq<string>, sep: string)
    requires |lines| >= 1
    requires forall i :: 0 <= i < |lines| ==> |lines[i]| >= 1 && IsStripped(lines[i])
    ensures IsStripped(Join(lines, sep))
    decreases |lines|
  {
    if |lines| > 1 {
      JoinEndsOf(lines[1..], sep);
      var rest := Join(lines[1..], sep);
      assert Join(lines, sep) == lines[0] + sep + rest;
    }
  }

  /** A numbered line loses its numbering. */
  lemma NumberedScenario(n: nat, mark: char, text: string)
    requires mark == '.' || mark == ')' || mark == '、'
    requires PlainScenario(text)
    ensures Scenario(NatToString(n) + [mark] + " " + text) == Some(text)
  {
    var digits := NatToString(n);
    var l := digits + [mark] + " " + text;
    assert l[0] == digits[0] && l[|l| - 1] == text[|text| - 1];
    StripOfStripped(l);
    NumberingOf(digits, mark, text);
    assert l[|digits| + 2..] == text;
  }

  lemma NumberingOf(digits: string, mark: char, text: string)
    requires mark == '.' || mark == ')' || mark == '、'
    requires |digits| >= 1 && AllDigits(digits) && PlainScenario(text)
    ensures Numbering(digits + [mark] + " " + text) == |digits| + 2
  {
    var l := digits + [mark] + " " + text;
    DigitRunOfSlice(l, 0, digits);
    assert l[|digits|] == mark;
    assert l[|digits| + 1] == ' ';
    assert l[|digits| + 2] == text[0];
    assert SpaceRun(l, |digits| + 1) == 1;
  }
}

=== FILE: test_manager.dfy ===
/** The test manager: where a run's results go, which file Robot Framework is given, how
    the pass/fail counts are read from its console output, the run history, and the
    lookup and listing of scripts. */
module TestManager {
  import opened Wrappers
  import opened Text
  import opened Values
  import opened Paths

  const TestsDir := "tests"
  const ResultsDir := "results"

  // ---------------------------------------------------------------------------
  // Paths of a run

  /** The output directory: the one given, else `results/<script stem>/<stamp>`, where
      `stamp` is the `%Y%m%d_%H%M%S` rendering of the current time. */
  function OutputDir(scriptPath: string, outputDir: Option<string>, stamp: string): (r: string)
    ensures outputDir.Some? ==> r == outputDir.value
    ensures outputDir.None? && '/' !in stamp ==> Basename(r) == stamp
  {
    match outputDir
    case Some(d) => d
    case None =>
      var parent := PathJoin(ResultsDir, Stem(scriptPath));
      if '/' in stamp then PathJoin(parent, stamp)
      else BasenameOfJoin(parent, stamp); PathJoin(parent, stamp)
  }

  /** A script `dir/name.ext` gets its results under `results/name/<stamp>`. */
  lemma OutputDirOfScript(dir: string, name: string, ext: string, stamp: string)
    requires |name| >= 1 && name[0] != '.' && '/' !in name
    requires '.' !in ext && '/' !in ext
    requires |stamp| >= 1 && stamp[0] != '/'
    ensures OutputDir(PathJoin(dir, name + "." + ext), None, stamp) == ResultsDir + "/" + name + "/" + stamp
  {
    StemOfFile(dir, name, ext);
    assert name[0] in name && name[|name| - 1] in name;
    JoinPlain(ResultsDir, name);
    JoinPlain(ResultsDir + "/" + name, stamp);
  }

  lemma JoinPlain(a: string, b: string)
    requires |a| >= 1 && a[|a| - 1] != '/' && |b| >= 1 && b[0] != '/'
    ensures PathJoin(a, b) == a + "/" + b
  {
  }

  /** The file Robot Framework runs: a `.yaml`/`.yml` script is first converted to the
      same path with its last extension replaced by `.robot`. */
  function RobotPath(scriptPath: string): (r: string)
    ensures !EndsWith(scriptPath, ".yaml") && !EndsWith(scriptPath, ".yml") ==> r == scriptPath
  {
    if EndsWith(scriptPath, ".yaml") || EndsWith(scriptPath, ".yml") then BeforeLastDot(scriptPath) + ".robot"
    else scriptPath
  }

  lemma RobotPathOfYaml(stem: string, ext: string)
    requires ext == "yaml" || ext == "yml"
    ensures RobotPath(stem + "." + ext) == stem + ".robot"
  {
    assert "." + ext == ".yaml" || "." + ext == ".yml";
    EndsWithExt(stem, ext);
    BeforeLastDotOf(stem, ext);
  }

  /** `stem.ext` ends with `.ext`. */
  lemma EndsWithExt(stem: string, ext: string)
    ensures EndsWith(stem + "." + ext, "." + ext)
  {
    var p := stem + "." + ext;
    assert p[|p| - |"." + ext|..] == "." + ext;
  }

  // ---------------------------------------------------------------------------
  // Reading the counts: re.search(r'(\d+)\s+passed.*?(\d+)\s+failed', line)
  //
  // The pattern is written over its two words, `first` and `second`; the parser uses
  // "passed" and "failed", and the proofs hold for any two lower-case words.

  const PassedWord := "passed"
  const FailedWord := "failed"

  /** A word of the pattern: lower-case ASCII letters. */
  predicate IsWord(w: string) {
    |w| >= 1 && forall k :: 0 <= k < |w| ==> 'a' <= w[k] <= 'z'
  }

  lemma SpelledWords()
    ensures IsWord(PassedWord) && IsWord(FailedWord) && PassedWord[0] == 'p'
  {
  }

  /** A word holds no digit, no whitespace and no line break. */
  lemma WordChars(w: string)
    requires IsWord(w)
    ensures !IsSpace(w[0]) && NoDigit(w) && '\n' !in w
  {
  }

  /** Where `(\d+)\s+word` matches at `i`, the position just after the word. Greedy runs
      cannot give anything back here: a shorter digit run is followed by a digit, a
      shorter whitespace run by whitespace. */
  function WordEnd(line: string, i: nat, word: string): (r: Option<nat>)
    ensures r.Some? ==> r.value >= |word| && OccursAt(line, word, r.value - |word|)
  {
    WordAfterDigits(line, i, DigitRun(line, i), word)
  }

  /** The same, given the length `d` of the digit run at `i`. */
  function WordAfterDigits(line: string, i: nat, d: nat, word: string): Option<nat> {
    WordAfterRuns(line, i, d, SpaceRun(line, i + d), word)
  }

  /** The same, given also the length `sp` of the whitespace run after the digits. */
  function WordAfterRuns(line: string, i: nat, d: nat, sp: nat, word: string): Option<nat> {
    if d > 0 && sp > 0 && OccursAt(line, word, i + d + sp) then Some(i + d + sp + |word|) else None
  }

  /** The lazy `.*?`: the first position from `k` on where `(\d+)\s+word` matches. */
  function FirstFrom(line: string, k: nat, word: string): (r: Option<nat>)
    decreases |line| - k
    ensures r.Some? ==> k <= r.value && WordEnd(line, r.value, word).Some?
    ensures r.Some? ==> forall j :: k <= j < r.value ==> WordEnd(line, j, word).None?
    ensures r.None? ==> forall j :: k <= j <= |line| ==> WordEnd(line, j, word).None?
  {
    if WordEnd(line, k, word).Some? then Some(k)
    else if k >= |line| then None
    else FirstFrom(line, k + 1, word)
  }

  /** The value of the digit run at `k`. */
  function CountAt(line: string, k: nat): nat {
    RunValue(line, k, DigitRun(line, k))
  }

  /** The value of the `d` digits at `k`. */
  function RunValue(line: string, k: nat, d: nat): nat {
    if k + d <= |line| then DigitsValue(line[k..k + d]) else 0
  }

  /** The whole pattern matched from `i`: the two counts. */
  function PatternAt(line: string, i: nat, first: string, second: string): Option<(nat, nat)> {
    PatternAfter(line, i, WordEnd(line, i, first), second)
  }

  /** The same, given where the first word ends. */
  function PatternAfter(line: string, i: nat, end: Option<nat>, second: string): Option<(nat, nat)> {
    if end.None? then None else PatternWith(line, i, FirstFrom(line, end.value, second))
  }

  /** The same, given where the second count starts. */
  function PatternWith(line: string, i: nat, k: Option<nat>): Option<(nat, nat)> {
    if k.None? then None else Some((CountAt(line, i), CountAt(line, k.value)))
  }

  /** `re.search` from `i` on: the match with the leftmost start. */
  function SearchFrom(line: string, i: nat, first: string, second: string): Option<(nat, nat)>
    decreases |line| - i, 1
  {
    SearchAfter(line, i, first, second, PatternAt(line, i, first, second))
  }

  /** The same, given what the pattern matched at `i`. */
  function SearchAfter(line: string, i: nat, first: string, second: string, here: Option<(nat, nat)>): Option<(nat, nat)>
    decreases |line| - i, 0
  {
    if here.Some? then here
    else if i >= |line| then None
    else SearchFrom(line, i + 1, first, second)
  }

  /** The counts pattern searched for in a line. */
  function Search(line: string): Option<(nat, nat)> {
    SearchFrom(line, 0, PassedWord, FailedWord)
  }

  /** The line the counts are read from must mention both words in any letter case. */
  predicate Mentions(line: string) {
    Contains(Lower(line), PassedWord) && Contains(Lower(line), FailedWord)
  }

  /** The counts from the first line that mentions both words and matches. */
  function CountsOf(lines: seq<string>): (r: (nat, nat))
    ensures r != (0, 0) ==> exists i :: 0 <= i < |lines| && Mentions(lines[i]) && Search(lines[i]) == Some(r)
    ensures (forall i :: 0 <= i < |lines| ==> !(Mentions(lines[i]) && Search(lines[i]).Some?)) ==> r == (0, 0)
  {
    if |lines| == 0 then (0, 0)
    else if Mentions(lines[0]) && Search(lines[0]).Some? then Search(lines[0]).value
    else
      var r := CountsOf(lines[1..]);
      assert forall i :: 1 <= i < |lines| ==> lines[i] == lines[1..][i - 1];
      r
  }

  /** The passed and failed counts in Robot Framework's console output, 0/0 if none. */
  function ParseCounts(output: string): (nat, nat) {
    CountsOf(Split(output, '\n'))
  }

  /** A lower-case word occurs in the lower-cased line where it occurs in the line. */
  lemma LowerKeeps(line: string, w: string, p: nat)
    requires IsWord(w) && OccursAt(line, w, p)
    ensures Contains(Lower(line), w)
  {
    var l := Lower(line);
    forall k | 0 <= k < |w|
      ensures l[p + k] == w[k]
    {
      assert line[p + k] == line[p..p + |w|][k];
    }
    assert l[p..p + |w|] == w;
    ContainsAt(l, w, p);
  }

  /** A line where the pattern matches mentions both words, so the case-insensitive
      check never turns away a matching line. */
  lemma PatternMentions(line: string, i: nat, first: string, second: string)
    requires IsWord(first) && IsWord(second) && PatternAt(line, i, first, second).Some?
    ensures Contains(Lower(line), first) && Contains(Lower(line), second)
  {
    var q := WordEnd(line, i, first).value;
    WordMentioned(line, i, first);
    WordMentioned(line, FirstFrom(line, q, second).value, second);
  }

  /** A word that `(\d+)\s+word` matches occurs in the lower-cased line. */
  lemma WordMentioned(line: string, i: nat, word: string)
    requires IsWord(word) && WordEnd(line, i, word).Some?
    ensures Contains(Lower(line), word)
  {
    var e := WordEnd(line, i, word).value;
    LowerKeeps(line, word, e - |word|);
  }

  lemma {:induction false} SearchMentions(line: string, i: nat, first: string, second: string)
    requires IsWord(first) && IsWord(second) && SearchFrom(line, i, first, second).Some?
    ensures Contains(Lower(line), first) && Contains(Lower(line), second)
    decreases |line| - i
  {
    if PatternAt(line, i, first, second).Some? {
      PatternMentions(line, i, first, second);
    } else {
      SearchMentions(line, i + 1, first, second);
    }
  }

  /** The pattern matches at none of the positions `i` up to `j`. */
  predicate Unmatched(line: string, i: nat, j: nat, first: string, second: string)
    decreases j - i
  {
    i >= j || (PatternAt(line, i, first, second).None? && Unmatched(line, i + 1, j, first, second))
  }

  /** Positions where nothing matches are passed over. */
  lemma {:induction false} SearchSkips(line: string, i: nat, j: nat, first: string, second: string)
    requires i <= j <= |line| && Unmatched(line, i, j, first, second)
    ensures SearchFrom(line, i, first, second) == SearchFrom(line, j, first, second)
    decreases j - i
  {
    if i < j {
      SearchStep(line, i, first, second);
      SearchSkips(line, i + 1, j, first, second);
    }
  }

  /** A prefix of positions where nothing matches is unmatched. */
  lemma {:induction false} UnmatchedOf(line: string, i: nat, j: nat, first: string, second: string)
    requires forall k :: i <= k < j ==> PatternAt(line, k, first, second).None?
    ensures Unmatched(line, i, j, first, second)
    decreases j - i
  {
    if i < j {
      UnmatchedOf(line, i + 1, j, first, second);
    }
  }

  lemma SearchStep(line: string, i: nat, first: string, second: string)
    requires i < |line| && PatternAt(line, i, first, second).None?
    ensures SearchFrom(line, i, first, second) == SearchFrom(line, i + 1, first, second)
  {
  }

  /** How a run's counts are reported: "`dp` `first`, `df` `second`". */
  function Message(dp: string, df: string, first: string, second: string): string {
    dp + " " + first + ", " + df + " " + second
  }

  /** The message of a run, `"<passed> passed, <failed> failed"`. */
  function RunMessage(passed: nat, failed: nat): string {
    Message(NatToString(passed), NatToString(failed), PassedWord, FailedWord)
  }

  /** "`d` `word`" sits at `i`: the digits, one space, the word. */
  predicate CountedWord(line: string, i: nat, d: string, word: string) {
    i + |d| + 1 + |word| <= |line|
    && line[i..i + |d|] == d && line[i + |d|] == ' ' && line[i + |d| + 1..i + |d| + 1 + |word|] == word
  }

  /** A message sits at `i`, piece by piece. */
  predicate MessageAt(line: string, i: nat, dp: string, df: string, first: string, second: string) {
    var q := i + |dp| + 1 + |first|;
    CountedWord(line, i, dp, first) && q + 2 <= |line| && line[q] == ',' && line[q + 1] == ' '
    && CountedWord(line, q + 2, df, second)
  }

  /** A message at position `i` matches there with its counts. */
  lemma PatternAtCounts(line: string, i: nat, dp: string, df: string, first: string, second: string)
    requires |dp| >= 1 && |df| >= 1 && AllDigits(dp) && AllDigits(df) && IsWord(first) && IsWord(second)
    requires MessageAt(line, i, dp, df, first, second)
    ensures PatternAt(line, i, first, second) == Some((DigitsValue(dp), DigitsValue(df)))
  {
    var q := i + |dp| + 1 + |first|;
    CountedWordEnd(line, i, dp, first);
    CountedWordFirst(line, q, df, second);
    PatternAtOf(line, i, q, q + 2, first, second);
  }

  lemma PatternAtOf(line: string, i: nat, q: nat, k: nat, first: string, second: string)
    requires WordEnd(line, i, first) == Some(q) && FirstFrom(line, q, second) == Some(k)
    ensures PatternAt(line, i, first, second) == Some((CountAt(line, i), CountAt(line, k)))
  {
  }

  /** `(\d+)\s+word` matches "`D` word" with the count `D`. */
  lemma CountedWordEnd(line: string, i: nat, d: string, word: string)
    requires |d| >= 1 && AllDigits(d) && |word| >= 1 && !IsSpace(word[0]) && CountedWord(line, i, d, word)
    ensures WordEnd(line, i, word) == Some(i + |d| + 1 + |word|) && CountAt(line, i) == DigitsValue(d)
  {
    DigitsSpaceWord(line, i, d, word);
    WordEndOf(line, i, |d|, word);
  }

  /** After the first word, the lazy gap stops at the first "`D` word": here after two
      characters that are not digits. */
  lemma CountedWordFirst(line: string, q: nat, d: string, word: string)
    requires |d| >= 1 && AllDigits(d) && |word| >= 1 && !IsSpace(word[0])
    requires q + 2 <= |line| && line[q] == ',' && line[q + 1] == ' ' && CountedWord(line, q + 2, d, word)
    ensures FirstFrom(line, q, word) == Some(q + 2) && CountAt(line, q + 2) == DigitsValue(d)
  {
    CountedWordEnd(line, q + 2, d, word);
    FirstFromOf(line, q, word);
  }

  /** `(\d+)\s+word` matches "`D` word" with one space. */
  lemma WordEndOf(line: string, i: nat, d: nat, word: string)
    requires d > 0 && DigitRun(line, i) == d && SpaceRun(line, i + d) == 1 && OccursAt(line, word, i + d + 1)
    ensures WordEnd(line, i, word) == Some(i + d + 1 + |word|)
  {
  }

  lemma FirstFromOf(line: string, q: nat, word: string)
    requires q + 2 <= |line| && !IsDigit(line[q]) && !IsDigit(line[q + 1])
    requires WordEnd(line, q + 2, word).Some?
    ensures FirstFrom(line, q, word) == Some(q + 2)
  {
    assert DigitRun(line, q) == 0 && DigitRun(line, q + 1) == 0;
    assert WordEnd(line, q, word).None? && WordEnd(line, q + 1, word).None?;
    assert FirstFrom(line, q + 2, word) == Some(q + 2);
    assert FirstFrom(line, q + 1, word) == Some(q + 2);
  }

  /** "`D` `word`" at `i`: a digit run of `D`, one space, then the word. */
  lemma DigitsSpaceWord(line: string, i: nat, d: string, word: string)
    requires |d| >= 1 && AllDigits(d) && |word| >= 1 && !IsSpace(word[0]) && CountedWord(line, i, d, word)
    ensures DigitRun(line, i) == |d| && CountAt(line, i) == DigitsValue(d)
    ensures SpaceRun(line, i + |d|) == 1 && OccursAt(line, word, i + |d| + 1)
  {
    DigitsAt(line, i, d);
    SpaceThenWord(line, i + |d|, word);
  }

  /** Digits followed by a non-digit: the run and its value. */
  lemma DigitsAt(line: string, i: nat, d: string)
    requires AllDigits(d) && i + |d| < |line| && line[i..i + |d|] == d && !IsDigit(line[i + |d|])
    ensures DigitRun(line, i) == |d| && CountAt(line, i) == DigitsValue(d)
  {
    DigitRunOfSlice(line, i, d);
  }

  /** One space and then a word that does not start with whitespace. */
  lemma SpaceThenWord(line: string, p: nat, word: string)
    requires |word| >= 1 && !IsSpace(word[0]) && p + 1 + |word| <= |line|
    requires line[p] == ' ' && line[p + 1..p + 1 + |word|] == word
    ensures SpaceRun(line, p) == 1 && OccursAt(line, word, p + 1)
  {
    assert line[p + 1] == word[0];
    assert SpaceRun(line, p + 1) == 0;
  }

  /** A message placed at `i` lays out its pieces there. */
  lemma MessagePieces(line: string, i: nat, dp: string, df: string, first: string, second: string)
    requires i + |Message(dp, df, first, second)| <= |line|
    requires line[i..i + |Message(dp, df, first, second)|] == Message(dp, df, first, second)
    ensures MessageAt(line, i, dp, df, first, second)
  {
    MessageParts(dp, df, first, second);
    LaidAt(line, i, Message(dp, df, first, second), dp, df, first, second);
  }

  /** How "`dp` `first`, `df` `second`" is laid out in `w`. */
  predicate Laid(w: string, dp: string, df: string, first: string, second: string) {
    var q := |dp| + 1 + |first|;
    |w| == q + 3 + |df| + |second| && w[0..|dp|] == dp && w[|dp|] == ' ' && w[|dp| + 1..q] == first
    && w[q] == ',' && w[q + 1] == ' ' && w[q + 2..q + 2 + |df|] == df
    && w[q + 2 + |df|] == ' ' && w[q + 3 + |df|..|w|] == second
  }

  /** A laid-out message at `i` in the line puts its pieces there. */
  lemma LaidAt(line: string, i: nat, w: string, dp: string, df: string, first: string, second: string)
    requires i + |w| <= |line| && line[i..i + |w|] == w && Laid(w, dp, df, first, second)
    ensures MessageAt(line, i, dp, df, first, second)
  {
    var q := |dp| + 1 + |first|;
    CountedWordIn(line, i, w, 0, dp, first);
    CharAt(line, i, w, q);
    CharAt(line, i, w, q + 1);
    CountedWordIn(line, i, w, q + 2, df, second);
  }

  /** "`d` `word`" at `a` inside `w`, and `w` at `p` in the line: the counted word sits at
      `p + a` in the line. */
  lemma CountedWordIn(line: string, p: nat, w: string, a: nat, d: string, word: string)
    requires p + |w| <= |line| && line[p..p + |w|] == w && a + |d| + 1 + |word| <= |w|
    requires w[a..a + |d|] == d && w[a + |d|] == ' ' && w[a + |d| + 1..a + |d| + 1 + |word|] == word
    ensures CountedWord(line, p + a, d, word)
  {
    SliceAt(line, p, w, a, a + |d|);
    CharAt(line, p, w, a + |d|);
    SliceAt(line, p, w, a + |d| + 1, a + |d| + 1 + |word|);
  }

  /** Where the pieces of a message sit inside it. */
  lemma MessageParts(dp: string, df: string, first: string, second: string)
    ensures Laid(Message(dp, df, first, second), dp, df, first, second)
  {
  }

  lemma CharAt(line: string, p: nat, w: string, a: nat)
    requires p + |w| <= |line| && line[p..p + |w|] == w && a < |w|
    ensures line[p + a] == w[a]
  {
    assert line[p..p + |w|][a] == line[p + a];
  }

  lemma SliceAt(line: string, p: nat, w: string, a: nat, b: nat)
    requires p + |w| <= |line| && line[p..p + |w|] == w && a <= b <= |w|
    ensures line[p + a..p + b] == w[a..b]
  {
    forall j | 0 <= j < b - a
      ensures line[p + a..p + b][j] == w[a..b][j]
    {
      CharAt(line, p, w, a + j);
    }
  }

  /** A message placed at `i` of a line matches there with its counts. */
  lemma MessageMatches(line: string, i: nat, passed: nat, failed: nat, first: string, second: string)
    requires IsWord(first) && IsWord(second)
    requires var m := Message(NatToString(passed), NatToString(failed), first, second);
             i + |m| <= |line| && line[i..i + |m|] == m
    ensures PatternAt(line, i, first, second) == Some((passed, failed))
  {
    var dp, df := NatToString(passed), NatToString(failed);
    assert MessageAt(line, i, dp, df, first, second) by {
      MessagePieces(line, i, dp, df, first, second);
    }
    PatternAtCounts(line, i, dp, df, first, second);
  }

  /** A message is one line that the search reads back, and it mentions both words. */
  lemma MessageSearch(passed: nat, failed: nat, first: string, second: string)
    requires IsWord(first) && IsWord(second)
    ensures var m := Message(NatToString(passed), NatToString(failed), first, second);
            SearchFrom(m, 0, first, second) == Some((passed, failed))
            && Contains(Lower(m), first) && Contains(Lower(m), second)
  {
    var m := Message(NatToString(passed), NatToString(failed), first, second);
    assert PatternAt(m, 0, first, second) == Some((passed, failed)) by {
      assert m[0..|m|] == m;
      MessageMatches(m, 0, passed, failed, first, second);
    }
    PatternMentions(m, 0, first, second);
  }

  /** A message holds no line break. */
  lemma MessageOneLine(dp: string, df: string, first: string, second: string)
    requires AllDigits(dp) && AllDigits(df) && IsWord(first) && IsWord(second)
    ensures '\n' !in Message(dp, df, first, second)
  {
    WordChars(first);
    WordChars(second);
  }

  /** Read back by the same parser, a run's message gives its counts. */
  lemma RunMessageParsesBack(passed: nat, failed: nat)
    ensures ParseCounts(RunMessage(passed, failed)) == (passed, failed)
  {
    var m := RunMessage(passed, failed);
    SpelledWords();
    MessageSearch(passed, failed, PassedWord, FailedWord);
    MessageOneLine(NatToString(passed), NatToString(failed), PassedWord, FailedWord);
    SplitNoSep(m, '\n');
  }

  /** Robot Framework's summary line, "`N` tests, `P` passed, `F` failed", gives `P`
      and `F`: at the leading total the pattern finds `tests` where it needs `passed`. */
  lemma SummaryLineCounts(total: nat, noun: string, passed: nat, failed: nat)
    requires |noun| >= 1 && noun[0] != 'p' && !IsSpace(noun[0]) && NoDigit(noun)
    ensures Search(NatToString(total) + " " + noun + ", " + RunMessage(passed, failed)) == Some((passed, failed))
  {
    SpelledWords();
    SummaryCounts(total, noun, passed, failed, PassedWord, FailedWord);
  }

  lemma SummaryCounts(total: nat, noun: string, passed: nat, failed: nat, first: string, second: string)
    requires IsWord(first) && IsWord(second)
    requires |noun| >= 1 && noun[0] != first[0] && !IsSpace(noun[0]) && NoDigit(noun)
    ensures var m := Message(NatToString(passed), NatToString(failed), first, second);
            SearchFrom(NatToString(total) + " " + noun + ", " + m, 0, first, second) == Some((passed, failed))
  {
    var m := Message(NatToString(passed), NatToString(failed), first, second);
    var pre := NatToString(total) + " " + noun + ", ";
    MessageAfter(pre, passed, failed, first, second);
    PrefixUnmatched(NatToString(total), noun, m, first, second);
    SearchSkips(pre + m, 0, |pre|, first, second);
  }

  /** A message placed after any prefix matches where it starts. */
  lemma MessageAfter(pre: string, passed: nat, failed: nat, first: string, second: string)
    requires IsWord(first) && IsWord(second)
    ensures var m := Message(NatToString(passed), NatToString(failed), first, second);
            PatternAt(pre + m, |pre|, first, second) == Some((passed, failed))
  {
    var m := Message(NatToString(passed), NatToString(failed), first, second);
    TailOf(pre, m);
    MessageMatches(pre + m, |pre|, passed, failed, first, second);
  }

  /** Nothing matches inside "`total` `noun`, ". */
  lemma PrefixUnmatched(dn: string, noun: string, rest: string, first: string, second: string)
    requires |dn| >= 1 && AllDigits(dn) && IsWord(first) && |rest| >= 1
    requires |noun| >= 1 && noun[0] != first[0] && !IsSpace(noun[0]) && NoDigit(noun)
    ensures var pre := dn + " " + noun + ", ";
            Unmatched(pre + rest, 0, |pre|, first, second)
  {
    var pre := dn + " " + noun + ", ";
    var line := pre + rest;
    forall k | 0 <= k < |pre|
      ensures PatternAt(line, k, first, second).None?
    {
      PrefixNoMatch(dn, noun, line, k, first, second);
    }
    UnmatchedOf(line, 0, |pre|, first, second);
  }

  lemma TailOf(a: string, b: string)
    ensures (a + b)[|a|..|a| + |b|] == b
  {
  }

  lemma PrefixNoMatch(dn: string, noun: string, line: string, k: nat, first: string, second: string)
    requires |dn| >= 1 && AllDigits(dn) && IsWord(first)
    requires |noun| >= 1 && noun[0] != first[0] && !IsSpace(noun[0]) && NoDigit(noun)
    requires dn + " " + noun + ", " <= line && k < |dn + " " + noun + ", "| < |line|
    ensures PatternAt(line, k, first, second).None?
  {
    var pre := dn + " " + noun + ", ";
    assert forall j :: 0 <= j < |pre| ==> line[j] == pre[j];
    if k < |dn| {
      TotalNoMatch(dn, noun, line, k, first);
    } else {
      assert !IsDigit(line[k]) by {
        if |dn| + 1 <= k < |dn| + 1 + |noun| {
          assert line[k] == noun[k - |dn| - 1];
        } else {
          assert line[k] == pre[k];
        }
      }
      assert DigitRun(line, k) == 0;
    }
  }

  /** Inside the leading total, the count is followed by the noun, not the first word. */
  lemma TotalNoMatch(dn: string, noun: string, line: string, k: nat, first: string)
    requires |dn| >= 1 && AllDigits(dn) && IsWord(first) && |noun| >= 1 && noun[0] != first[0]
    requires !IsSpace(noun[0]) && k < |dn| && |dn| + 1 < |line|
    requires line[..|dn|] == dn && line[|dn|] == ' ' && line[|dn| + 1] == noun[0]
    ensures WordEnd(line, k, first).None?
  {
    assert forall j :: k <= j < |dn| ==> IsDigit(line[j]) by {
      assert forall j :: k <= j < |dn| ==> line[j] == dn[j];
    }
    DigitRunOf(line, k, |dn| - k);
    assert SpaceRun(line, |dn| + 1) == 0;
    assert SpaceRun(line, |dn|) == 1;
    assert !OccursAt(line, first, |dn| + 1) by {
      var e := |dn| + 1 + |first|;
      assert e <= |line| ==> line[|dn| + 1..e][0] == line[|dn| + 1];
    }
  }

  /** The counts come from the first line that matches; lines before it that do not
      match are passed over whatever words they mention. */
  lemma {:induction false} CountsOfFirstMatch(before: seq<string>, line: string, after: seq<string>)
    requires forall i :: 0 <= i < |before| ==> Search(before[i]).None?
    requires Search(line).Some?
    ensures CountsOf(before + [line] + after) == Search(line).value
    decreases |before|
  {
    var all := before + [line] + after;
    if |before| == 0 {
      assert all[0] == line;
      SpelledWords();
      SearchMentions(line, 0, PassedWord, FailedWord);
    } else {
      assert all[0] == before[0];
      assert all[1..] == before[1..] + [line] + after;
      CountsOfFirstMatch(before[1..], line, after);
    }
  }

  // ---------------------------------------------------------------------------
  // Running

  /** What running Robot Framework came to. */
  datatype Completion =
    | Completed(returnCode: int, stdout: string, stderr: string)
    | TimedOut
    | Raised(message: string)

  /** The result dictionary of a run; only a completed run names its report file. */
  datatype TestRun = TestRun(success: bool, outputDir: string, passed: nat, failed: nat, message: string,
                             report: Option<string>)

  const TimeoutMessage := "执行超时"

  /** A history entry as `json.dump` writes it. */
  function HistoryRecord(timestamp: string, success: bool, passed: nat, failed: nat, outputDir: string): Value {
    Dict(map["timestamp" := Str(timestamp), "success" := Bool(success), "passed" := Int(passed),
             "failed" := Int(failed), "output_dir" := Str(outputDir)])
  }

  /** Python's name for the type of a loaded JSON value. */
  function TypeName(v: Value): string {
    match v
    case Null => "NoneType"
    case Bool(_) => "bool"
    case Int(_) => "int"
    case Str(_) => "str"
    case List(_) => "list"
    case Dict(_) => "dict"
  }

  /** The records already on file: none when the file is missing or unreadable. */
  function Previous(loaded: Option<Value>): seq<Value> {
    if loaded.Some? && loaded.value.List? then loaded.value.items else []
  }

  /** `_save_history`: the loaded history (empty when there was no readable file) with
      the new record appended; a loaded value that is not a list has no `append`. */
  function SaveHistory(loaded: Option<Value>, record: Value): (r: Result<seq<Value>, string>)
    ensures r.Ok? <==> loaded.None? || loaded.value.List?
    ensures r.Ok? ==> |r.value| == |Previous(loaded)| + 1
    ensures r.Ok? ==> r.value[..|r.value| - 1] == Previous(loaded) && r.value[|r.value| - 1] == record
  {
    match loaded
    case None => Ok([record])
    case Some(List(items)) =>
      assert (items + [record])[..|items|] == items;
      Ok(items + [record])
    case Some(v) => Err("'" + TypeName(v) + "' object has no attribute 'append'")
  }

  /** A history file written by a run: where it goes and the records it holds. */
  datatype HistoryWrite = HistoryWrite(file: string, records: seq<Value>)

  /** `run_test`, given how the run went and what the history file held. Returns the
      result and the history write, if the history is written. A loaded history that is
      not a list makes `append` raise inside the `try`, so the run reports that error. */
  function RunTest(scriptPath: string, outputDir: Option<string>, stamp: string, timestamp: string,
                   run: Completion, loaded: Option<Value>): (r: (TestRun, Option<HistoryWrite>))
    ensures r.0.outputDir == OutputDir(scriptPath, outputDir, stamp)
    ensures r.0.success ==> run.Completed? && run.returnCode == 0 && r.1.Some?
    ensures !run.Completed? ==> r.0.passed == 0 && r.0.failed == 0 && !r.0.success && r.1.None?
    ensures run.TimedOut? ==> r.0.message == TimeoutMessage
    ensures run.Raised? ==> r.0.message == run.message
    ensures run.Completed? ==> (r.1.Some? <==> loaded.None? || loaded.value.List?)
    ensures r.1.Some? ==> run.Completed? && r.0.success == (run.returnCode == 0)
                          && (r.0.passed, r.0.failed) == ParseCounts(run.stdout + run.stderr)
                          && r.0.message == RunMessage(r.0.passed, r.0.failed)
                          && r.0.report == Some(PathJoin(r.0.outputDir, "report.html"))
                          && r.1.value.file == HistoryFile(scriptPath)
    ensures r.1.None? ==> r.0.report.None? && !r.0.success && r.0.passed == 0 && r.0.failed == 0
    ensures run.Completed? && r.1.None? ==>
              r.0.message == "'" + TypeName(loaded.value) + "' object has no attribute 'append'"
  {
    var dir := OutputDir(scriptPath, outputDir, stamp);
    match run
    case TimedOut => (TestRun(false, dir, 0, 0, TimeoutMessage, None), None)
    case Raised(m) => (TestRun(false, dir, 0, 0, m, None), None)
    case Completed(code, out, err) =>
      var counts := ParseCounts(out + err);
      var success := code == 0;
      match SaveHistory(loaded, HistoryRecord(timestamp, success, counts.0, counts.1, dir))
      case Err(e) => (TestRun(false, dir, 0, 0, e, None), None)
      case Ok(history) =>
        (TestRun(success, dir, counts.0, counts.1, RunMessage(counts.0, counts.1), Some(PathJoin(dir, "report.html"))),
         Some(HistoryWrite(HistoryFile(scriptPath), history)))
  }

  const HistoryName := "history.json"

  /** Where the history of a script is kept: `results/<script stem>/history.json`. */
  function HistoryFile(scriptPath: string): string {
    PathJoin(PathJoin(ResultsDir, Stem(scriptPath)), HistoryName)
  }

  /** The history of `dir/name.ext` sits beside its default output directories, in
      `results/name`. */
  lemma HistoryFileOfScript(dir: string, name: string, ext: string)
    requires |name| >= 1 && name[0] != '.' && '/' !in name
    requires '.' !in ext && '/' !in ext
    ensures HistoryFile(PathJoin(dir, name + "." + ext)) == ResultsDir + "/" + name + "/" + HistoryName
  {
    StemOfFile(dir, name, ext);
    assert name[0] in name && name[|name| - 1] in name;
    JoinPlain(ResultsDir, name);
    JoinPlain(ResultsDir + "/" + name, HistoryName);
  }

  /** A written history keeps every earlier record and ends with this run's record. */
  lemma RunRecordsHistory(scriptPath: string, outputDir: Option<string>, stamp: string, timestamp: string,
                          run: Completion, loaded: Option<Value>)
    requires RunTest(scriptPath, outputDir, stamp, timestamp, run, loaded).1.Some?
    ensures var (t, h) := RunTest(scriptPath, outputDir, stamp, timestamp, run, loaded);
            h.value.records == Previous(loaded) + [HistoryRecord(timestamp, t.success, t.passed, t.failed, t.outputDir)]
  {
    var (t, h) := RunTest(scriptPath, outputDir, stamp, timestamp, run, loaded);
    var rs := h.value.records;
    assert rs == rs[..|rs| - 1] + [rs[|rs| - 1]];
  }

  /** A run whose history was written reports counts its own message gives back. */
  lemma RunReportAgrees(scriptPath: string, outputDir: Option<string>, stamp: string, timestamp: string,
                        run: Completion, loaded: Option<Value>)
    requires RunTest(scriptPath, outputDir, stamp, timestamp, run, loaded).1.Some?
    ensures var t := RunTest(scriptPath, outputDir, stamp, timestamp, run, loaded).0;
            ParseCounts(t.message) == (t.passed, t.failed)
  {
    var t := RunTest(scriptPath, outputDir, stamp, timestamp, run, loaded).0;
    RunMessageParsesBack(t.passed, t.failed);
  }

  // ---------------------------------------------------------------------------
  // Scripts on disk

  /** `get_script_content`: the `.yaml` script if there is one, else the `.robot` one. */
  function ScriptContent(name: string, isFile: string -> bool, read: string -> string): (r: Option<string>)
    ensures r.Some? <==> isFile(PathJoin(TestsDir, name + ".yaml")) || isFile(PathJoin(TestsDir, name + ".robot"))
    ensures isFile(PathJoin(TestsDir, name + ".yaml")) ==> r == Some(read(PathJoin(TestsDir, name + ".yaml")))
    ensures !isFile(PathJoin(TestsDir, name + ".yaml")) && isFile(PathJoin(TestsDir, name + ".robot")) ==>
              r == Some(read(PathJoin(TestsDir, name + ".robot")))
  {
    var yaml := PathJoin(TestsDir, name + ".yaml");
    var robot := PathJoin(TestsDir, name + ".robot");
    if isFile(yaml) then Some(read(yaml))
    else if isFile(robot) then Some(read(robot))
    else None
  }

  /** The test name of a directory entry: a `.robot` or `.yaml` file without its suffix. */
  function TestName(entry: string): (r: Option<string>)
    ensures r.Some? ==> r.value + ".robot" == entry || r.value + ".yaml" == entry
    ensures r.Some? <==> EndsWith(entry, ".robot") || EndsWith(entry, ".yaml")
  {
    if EndsWith(entry, ".robot") then
      assert entry[..|entry| - 6] + ".robot" == entry;
      Some(entry[..|entry| - 6])
    else if EndsWith(entry, ".yaml") then
      assert entry[..|entry| - 5] + ".yaml" == entry;
      Some(entry[..|entry| - 5])
    else None
  }

  /** The values present in a sequence of options, in order. */
  function Present(xs: seq<Option<string>>): (r: seq<string>)
    ensures forall x :: x in r <==> Some(x) in xs
    ensures |r| <= |xs|
  {
    if |xs| == 0 then []
    else
      assert forall o :: o in xs <==> o == xs[0] || o in xs[1..];
      (if xs[0].Some? then [xs[0].value] else []) + Present(xs[1..])
  }

  /** The test names of the entries of the tests directory, in directory order. */
  function TestNames(entries: seq<string>): (r: seq<string>)
    ensures forall n :: n in r <==> exists e :: e in entries && TestName(e) == Some(n)
  {
    var names := seq(|entries|, i requires 0 <= i < |entries| => TestName(entries[i]));
    NamesOfEntries(entries, names);
    Present(names)
  }

  /** A name is among the entries' names exactly when some entry has it. */
  lemma NamesOfEntries(entries: seq<string>, names: seq<Option<string>>)
    requires |names| == |entries| && forall i :: 0 <= i < |entries| ==> names[i] == TestName(entries[i])
    ensures forall n :: Some(n) in names <==> exists e :: e in entries && TestName(e) == Some(n)
  {
    forall n ensures Some(n) in names <==> exists e :: e in entries && TestName(e) == Some(n) {
      if Some(n) in names {
        var i :| 0 <= i < |names| && names[i] == Some(n);
        assert entries[i] in entries;
      }
      if exists e :: e in entries && TestName(e) == Some(n) {
        var e :| e in entries && TestName(e) == Some(n);
        var i :| 0 <= i < |entries| && entries[i] == e;
        assert names[i] == Some(n);
      }
    }
  }

  /** `list_tests`. */
  function ListTests(dirExists: bool, entries: seq<string>): (r: seq<string>)
    ensures !dirExists ==> r == []
    ensures dirExists ==> forall n :: n in r <==> exists e :: e in entries && TestName(e) == Some(n)
  {
    if dirExists then TestNames(entries) else []
  }

  /** A `.yml` file is not listed (only `.yaml` is). */
  lemma YmlNotListed(name: string)
    ensures TestName(name + ".yml").None?
  {
    var e := name + ".yml";
    assert e[|e| - 3] == 'y';
    assert !EndsWith(e, ".yaml") by {
      assert ".yaml"[2] == 'a';
    }
    assert !EndsWith(e, ".robot") by {
      assert ".robot"[5] == 't';
    }
  }

  /** Every listed test whose file is on disk has content. */
  lemma ListedTestHasContent(entries: seq<string>, entry: string, isFile: string -> bool, read: string -> string)
    requires entry in entries && TestName(entry).Some? && isFile(PathJoin(TestsDir, entry))
    ensures TestName(entry).value in ListTests(true, entries)
    ensures ScriptContent(TestName(entry).value, isFile, read).Some?
  {
  }
}

=== FILE: text.dfy ===
/** String helpers with the semantics of the Python built-ins the source relies on:
    `str.strip`, `str.split(sep)`, `str.split()`, `str.find`, `in`, `int(...)`,
    and the `\d` / `\s` character classes of `re`. Strings are `seq<char>`. */
module Text {
  import opened Wrappers

  // ---------------------------------------------------------------------------
  // Character classes

  /** The characters for which Python's `str.isspace` holds; `re`'s `\s`, `str.strip()`
      and `str.split()` all use this set on text. */
  predicate IsSpace(c: char) {
    || c == ' '
    || ('\t' <= c <= '\r')
    || ('\U{1c}' <= c <= '\U{1f}')
    || c == '\U{85}' || c == '\U{a0}' || c == '\U{1680}'
    || ('\U{2000}' <= c <= '\U{200a}')
    || c == '\U{2028}' || c == '\U{2029}' || c == '\U{202f}' || c == '\U{205f}' || c == '\U{3000}'
  }

  /** `\d`, restricted to the ASCII digits. */
  predicate IsDigit(c: char) {
    '0' <= c <= '9'
  }

  predicate AllDigits(s: string) {
    forall i :: 0 <= i < |s| ==> IsDigit(s[i])
  }

  predicate NoSpace(s: string) {
    forall i :: 0 <= i < |s| ==> !IsSpace(s[i])
  }

  /** Length of the run of ASCII digits starting at `i`. */
  function DigitRun(s: string, i: nat): (n: nat)
    decreases |s| - i
    ensures i + n <= |s| || (i > |s| && n == 0)
    ensures i + n < |s| ==> !IsDigit(s[i + n])
  {
    if i < |s| && IsDigit(s[i]) then 1 + DigitRun(s, i + 1) else 0
  }

  /** Every character of the run is a digit. */
  lemma {:induction false} DigitRunDigits(s: string, i: nat)
    ensures forall k :: i <= k < i + DigitRun(s, i) ==> IsDigit(s[k])
    decreases |s| - i
  {
    if i < |s| && IsDigit(s[i]) {
      DigitRunDigits(s, i + 1);
    }
  }

  lemma {:induction false} DigitRunOf(s: string, i: nat, k: nat)
    requires i + k <= |s|
    requires forall j :: i <= j < i + k ==> IsDigit(s[j])
    requires i + k == |s| || !IsDigit(s[i + k])
    ensures DigitRun(s, i) == k
    decreases k
  {
    if k > 0 {
      DigitRunOf(s, i + 1, k - 1);
    }
  }

  /** The digit run `d` found at `p` and followed by a non-digit (or the end) is the
      whole run there. */
  lemma DigitRunOfSlice(s: string, p: nat, d: string)
    requires AllDigits(d) && p + |d| <= |s| && s[p..p + |d|] == d
    requires p + |d| == |s| || !IsDigit(s[p + |d|])
    ensures DigitRun(s, p) == |d|
  {
    forall q | p <= q < p + |d|
      ensures IsDigit(s[q])
    {
      assert s[q] == d[q - p];
    }
    DigitRunOf(s, p, |d|);
  }

  /** The length of the whitespace run starting at `y` (what a greedy `\s*` takes). */
  function SpaceRun(s: string, y: nat): (n: nat)
    decreases |s| - y
    ensures y + n <= |s| || (y > |s| && n == 0)
    ensures y + n < |s| ==> !IsSpace(s[y + n])
  {
    if y < |s| && IsSpace(s[y]) then 1 + SpaceRun(s, y + 1) else 0
  }
  // ---------------------------------------------------------------------------
  // Decimal numbers

  /** The value of one decimal digit (callers only pass digits). */
  function DigitValue(c: char): nat {
    if IsDigit(c) then c as int - '0' as int else 0
  }

  /** The value of a run of decimal digits, most significant first. */
  function DigitsValue(s: string): nat {
    if |s| == 0 then 0 else 10 * DigitsValue(s[..|s| - 1]) + DigitValue(s[|s| - 1])
  }

  function DigitChar(d: nat): (c: char)
    requires d < 10
    ensures IsDigit(c) && c as int - '0' as int == d
  {
    ('0' as int + d) as char
  }

  /** `str(n)` for a non-negative integer: the shortest decimal spelling. */
  function NatToString(n: nat): (r: string)
    ensures |r| >= 1 && AllDigits(r) && DigitsValue(r) == n
    ensures |r| > 1 ==> r[0] != '0'
  {
    if n < 10 then [DigitChar(n)]
    else
      var p := NatToString(n / 10);
      var r := p + [DigitChar(n % 10)];
      assert r[..|r| - 1] == p;
      r
  }

  /** `str(i)` for any integer. */
  function IntToString(i: int): (r: string)
    ensures |r| >= 1
    ensures i >= 0 <==> IsDigit(r[0])
  {
    if i < 0 then "-" + NatToString(-i) else NatToString(i)
  }

  // ---------------------------------------------------------------------------
  // Stripping

  function TrimStart(s: string): (r: string)
    ensures |r| <= |s| && r == s[|s| - |r|..]
    ensures forall i :: 0 <= i < |s| - |r| ==> IsSpace(s[i])
    ensures |r| > 0 ==> !IsSpace(r[0])
  {
    if |s| > 0 && IsSpace(s[0]) then TrimStart(s[1..]) else s
  }

  function TrimEnd(s: string): (r: string)
    ensures |r| <= |s| && r == s[..|r|]
    ensures forall i :: |r| <= i < |s| ==> IsSpace(s[i])
    ensures |r| > 0 ==> !IsSpace(r[|r| - 1])
  {
    if |s| > 0 && IsSpace(s[|s| - 1]) then TrimEnd(s[..|s| - 1]) else s
  }

  predicate IsStripped(s: string) {
    |s| == 0 || (!IsSpace(s[0]) && !IsSpace(s[|s| - 1]))
  }

  /** The number of leading whitespace characters of `s`. */
  function LeadingSpace(s: string): (n: nat)
    ensures n <= |s| && (forall i :: 0 <= i < n ==> IsSpace(s[i])) && (n < |s| ==> !IsSpace(s[n]))
  {
    |s| - |TrimStart(s)|
  }

  /** `s.strip()`: drop every leading and trailing whitespace character. */
  function Strip(s: string): (r: string)
    ensures IsStripped(r) && |r| <= |s|
  {
    var t := TrimStart(s);
    var r := TrimEnd(t);
    assert |r| > 0 ==> r[0] == t[0];
    r
  }

  lemma StripOfStripped(s: string)
    requires IsStripped(s)
    ensures Strip(s) == s
  {
  }

  /** The stripped text is the slice after the leading whitespace. */
  lemma StripSlice(s: string)
    ensures LeadingSpace(s) + |Strip(s)| <= |s|
    ensures Strip(s) == s[LeadingSpace(s)..LeadingSpace(s) + |Strip(s)|]
  {
  }

  /** Stripping text that starts with a piece whose first and last characters are not
      whitespace keeps that piece at the front. */
  lemma StripKeepsPrefix(t: string, p: string)
    requires |p| >= 1 && p <= t && !IsSpace(p[0]) && !IsSpace(p[|p| - 1])
    ensures p <= Strip(t)
  {
    assert t[0] == p[0] && t[|p| - 1] == p[|p| - 1];
    var u := TrimStart(t);
    assert |t| - |u| == 0;
    assert u == t;
    var v := TrimEnd(u);
    assert |v| >= |p|;
  }

  /** A stripped text followed by a newline strips back to itself. */
  lemma StripTrailingNewline(s: string)
    requires |s| >= 1 && IsStripped(s)
    ensures Strip(s + "\n") == s
  {
    var t := s + "\n";
    assert t[0] == s[0] && t[|s| - 1] == s[|s| - 1] && IsSpace(t[|s|]);
    var u := TrimStart(t);
    assert |t| - |u| == 0;
    assert u == t;
    var v := TrimEnd(u);
    assert |v| == |s|;
  }

  /** `s[:n]`: at most the first `n` characters. */
  function Take(s: string, n: nat): (r: string)
    ensures |r| <= n && |r| <= |s| && r == s[..|r|]
    ensures |s| <= n ==> r == s
  {
    if |s| <= n then s else s[..n]
  }

  lemma StripIdempotent(s: string)
    ensures Strip(Strip(s)) == Strip(s)
  {
    StripOfStripped(Strip(s));
  }

  // ---------------------------------------------------------------------------
  // Searching

  predicate OccursAt(s: string, pat: string, i: int) {
    0 <= i && i + |pat| <= |s| && s[i..i + |pat|] == pat
  }

  /** The first occurrence of `pat` at or after `from` (`s.find(pat, from)`). */
  function FindFrom(s: string, pat: string, from: nat): (r: Option<nat>)
    decreases |s| - from
    ensures r.Some? ==> from <= r.value && OccursAt(s, pat, r.value)
    ensures r.Some? ==> forall j :: from <= j < r.value ==> !OccursAt(s, pat, j)
    ensures r.None? ==> forall j :: from <= j ==> !OccursAt(s, pat, j)
  {
    if from + |pat| > |s| then None
    else if s[from..from + |pat|] == pat then Some(from)
    else FindFrom(s, pat, from + 1)
  }

  function Find(s: string, pat: string): (r: Option<nat>)
    ensures r.Some? ==> OccursAt(s, pat, r.value) && forall j :: 0 <= j < r.value ==> !OccursAt(s, pat, j)
    ensures r.None? ==> forall j :: !OccursAt(s, pat, j)
  {
    FindFrom(s, pat, 0)
  }

  /** Python's `pat in s` for strings. */
  predicate Contains(s: string, pat: string) {
    Find(s, pat).Some?
  }

  lemma ContainsAt(s: string, pat: string, i: int)
    requires OccursAt(s, pat, i)
    ensures Contains(s, pat)
  {
  }

  lemma ContainsPrefix(s: string, pat: string)
    requires pat <= s
    ensures Contains(s, pat)
  {
    assert s[0..|pat|] == pat;
    ContainsAt(s, pat, 0);
  }

  /** A slice of a slice is a slice. */
  lemma SubSlice(s: string, i: nat, p: string, a: nat, b: nat)
    requires i + |p| <= |s| && s[i..i + |p|] == p && a <= b <= |p|
    ensures s[i + a..i + b] == p[a..b]
  {
    forall k | 0 <= k < b - a
      ensures s[i + a..i + b][k] == p[a..b][k]
    {
      assert s[i + a + k] == s[i..i + |p|][a + k];
    }
  }

  /** A Markdown code fence. */
  const Fence: string := "```"

  /** Three backticks at `x`. */
  predicate FenceAt(s: string, x: int) {
    0 <= x && x + 3 <= |s| && s[x] == '`' && s[x + 1] == '`' && s[x + 2] == '`'
  }

  predicate NoFence(s: string) {
    forall x :: 0 <= x < |s| ==> !FenceAt(s, x)
  }

  predicate EndsWith(s: string, suffix: string) {
    |suffix| <= |s| && s[|s| - |suffix|..] == suffix
  }

  /** Python's `s.lower()` on the ASCII letters. */
  function LowerChar(c: char): char {
    if 'A' <= c <= 'Z' then (c as int + 32) as char else c
  }

  function Lower(s: string): (r: string)
    ensures |r| == |s| && forall i :: 0 <= i < |s| ==> r[i] == LowerChar(s[i])
  {
    seq(|s|, i requires 0 <= i < |s| => LowerChar(s[i]))
  }

  // ---------------------------------------------------------------------------
  // Splitting and joining on one separator character

  function CountChar(s: string, c: char): nat {
    if |s| == 0 then 0 else (if s[0] == c then 1 else 0) + CountChar(s[1..], c)
  }

  /** `s.split(c)`: the pieces between occurrences of `c`; never empty. */
  function Split(s: string, c: char): (r: seq<string>)
    ensures |r| >= 1
    ensures forall i :: 0 <= i < |r| ==> c !in r[i]
  {
    if |s| == 0 then [""]
    else
      var rest := Split(s[1..], c);
      if s[0] == c then [""] + rest
      else [[s[0]] + rest[0]] + rest[1..]
  }

  /** `sep.join(parts)`. */
  function Join(parts: seq<string>, sep: string): string {
    if |parts| == 0 then ""
    else if |parts| == 1 then parts[0]
    else parts[0] + sep + Join(parts[1..], sep)
  }

  /** Python promises `len(s.split(c)) == s.count(c) + 1`. */
  lemma {:induction false} SplitLength(s: string, c: char)
    ensures |Split(s, c)| == CountChar(s, c) + 1
  {
    if |s| > 0 {
      SplitLength(s[1..], c);
    }
  }

  /** Joining the pieces back with the separator restores the string. */
  lemma {:induction false} SplitJoin(s: string, c: char)
    ensures Join(Split(s, c), [c]) == s
  {
    if |s| > 0 {
      var rest := Split(s[1..], c);
      SplitJoin(s[1..], c);
      if s[0] == c {
        assert Split(s, c) == [""] + rest;
        assert Join([""] + rest, [c]) == "" + [c] + Join(rest, [c]);
        assert s == [s[0]] + s[1..];
      } else {
        var r := [[s[0]] + rest[0]] + rest[1..];
        assert Split(s, c) == r;
        if |rest| == 1 {
          assert Join(r, [c]) == [s[0]] + rest[0];
          assert Join(rest, [c]) == rest[0];
        } else {
          assert r[1..] == rest[1..];
          assert Join(r, [c]) == [s[0]] + rest[0] + [c] + Join(rest[1..], [c]);
          assert Join(rest, [c]) == rest[0] + [c] + Join(rest[1..], [c]);
        }
        assert s == [s[0]] + s[1..];
      }
    }
  }

  lemma {:induction false} SplitNoSep(s: string, c: char)
    requires c !in s
    ensures Split(s, c) == [s]
  {
    if |s| > 0 {
      assert c !in s[1..];
      SplitNoSep(s[1..], c);
      assert s == [s[0]] + s[1..];
    }
  }

  lemma {:induction false} SplitConcat(a: string, b: string, c: char)
    requires c !in a
    ensures Split(a + [c] + b, c) == [a] + Split(b, c)
  {
    if |a| == 0 {
      assert a + [c] + b == [c] + b;
      assert ([c] + b)[1..] == b;
    } else {
      var s := a + [c] + b;
      assert s[1..] == a[1..] + [c] + b;
      assert c !in a[1..];
      SplitConcat(a[1..], b, c);
      assert [s[0]] + a[1..] == a;
    }
  }

  /** Splitting a join restores the parts when no part contains the separator. */
  lemma {:induction false} JoinSplit(parts: seq<string>, c: char)
    requires |parts| >= 1
    requires forall i :: 0 <= i < |parts| ==> c !in parts[i]
    ensures Split(Join(parts, [c]), c) == parts
  {
    if |parts| == 1 {
      SplitNoSep(parts[0], c);
    } else {
      JoinSplit(parts[1..], c);
      assert Join(parts, [c]) == parts[0] + [c] + Join(parts[1..], [c]);
      SplitConcat(parts[0], Join(parts[1..], [c]), c);
      assert parts == [parts[0]] + parts[1..];
    }
  }

  /** Lines without line breaks, joined into one text, split back into those lines. */
  lemma LinesSplitBack(lines: seq<string>)
    requires |lines| >= 1
    ensures (forall i :: 0 <= i < |lines| ==> '\n' !in lines[i]) ==> Split(Join(lines, "\n"), '\n') == lines
  {
    if forall i :: 0 <= i < |lines| ==> '\n' !in lines[i] {
      JoinSplit(lines, '\n');
    }
  }

  /** The text after the last `c` (`s.split(c)[-1]`), or all of `s` when `c` is absent. */
  function AfterLast(s: string, c: char): (r: string)
    ensures c !in r
    ensures |r| <= |s| && r == s[|s| - |r|..]
    ensures |r| < |s| ==> s[|s| - |r| - 1] == c
  {
    if |s| == 0 then ""
    else if s[|s| - 1] == c then ""
    else
      var p := AfterLast(s[..|s| - 1], c);
      var r := p + [s[|s| - 1]];
      assert s[..|s| - 1][|s| - 1 - |p|..] == s[|s| - 1 - |p|..|s| - 1];
      r
  }

  lemma AfterLastIsLastPiece(s: string, c: char)
    ensures AfterLast(s, c) == Split(s, c)[|Split(s, c)| - 1]
  {
    var parts := Split(s, c);
    SplitJoin(s, c);
    AfterLastOfParts(s, c, parts);
  }

  /** The text after the last separator is the last of the pieces joined around it. */
  lemma AfterLastOfParts(s: string, c: char, parts: seq<string>)
    requires |parts| >= 1 && Join(parts, [c]) == s
    requires forall i :: 0 <= i < |parts| ==> c !in parts[i]
    ensures AfterLast(s, c) == parts[|parts| - 1]
  {
    var last := |parts| - 1;
    if last == 0 {
      assert s == parts[0];
      AfterLastWithout(s, c);
    } else {
      var init := parts[..last];
      JoinLast(parts, [c]);
      assert s == Join(init, [c]) + [c] + parts[last];
      AfterLastSuffix(Join(init, [c]), parts[last], c);
    }
  }

  lemma {:induction false} AfterLastWithout(s: string, c: char)
    requires c !in s
    ensures AfterLast(s, c) == s
  {
    if |s| > 0 {
      assert c !in s[..|s| - 1];
      AfterLastWithout(s[..|s| - 1], c);
    }
  }

  lemma {:induction false} AfterLastSuffix(a: string, b: string, c: char)
    requires c !in b
    ensures AfterLast(a + [c] + b, c) == b
  {
    if |b| == 0 {
      assert a + [c] + b == a + [c];
    } else {
      var s := a + [c] + b;
      assert s[..|s| - 1] == a + [c] + b[..|b| - 1];
      assert c !in b[..|b| - 1];
      AfterLastSuffix(a, b[..|b| - 1], c);
      assert b == b[..|b| - 1] + [b[|b| - 1]];
    }
  }

  lemma {:induction false} JoinLast(parts: seq<string>, sep: string)
    requires |parts| >= 2
    ensures Join(parts, sep) == Join(parts[..|parts| - 1], sep) + sep + parts[|parts| - 1]
  {
    if |parts| > 2 {
      JoinLast(parts[1..], sep);
      assert parts[1..][..|parts| - 2] == parts[..|parts| - 1][1..];
    }
  }

  /** Joining two non-empty runs of parts puts one separator between them. */
  lemma {:induction false} JoinAppend(a: seq<string>, b: seq<string>, sep: string)
    requires |a| >= 1 && |b| >= 1
    ensures Join(a + b, sep) == Join(a, sep) + sep + Join(b, sep)
  {
    var ab := a + b;
    assert ab[0] == a[0];
    if |a| == 1 {
      assert ab[1..] == b;
    } else {
      assert ab[1..] == a[1..] + b;
      JoinAppend(a[1..], b, sep);
    }
  }

  // ---------------------------------------------------------------------------
  // Whitespace tokens and integer parsing

  /** Length of the leading run of non-whitespace characters. */
  function TokenLength(s: string): (n: nat)
    ensures n <= |s| && NoSpace(s[..n]) && (n < |s| ==> IsSpace(s[n]))
    ensures |s| > 0 && !IsSpace(s[0]) ==> n >= 1
  {
    if |s| == 0 || IsSpace(s[0]) then 0 else 1 + TokenLength(s[1..])
  }

  /** A word of `s.split()`: non-empty and free of whitespace. */
  predicate IsToken(w: string) {
    |w| > 0 && NoSpace(w)
  }

  /** `s.split()` with no argument: the maximal runs of non-whitespace characters. */
  function SplitWs(s: string): (r: seq<string>)
    decreases |s|
    ensures forall i :: 0 <= i < |r| ==> IsToken(r[i])
  {
    if |s| == 0 then []
    else if IsSpace(s[0]) then SplitWs(s[1..])
    else
      var n := TokenLength(s);
      [s[..n]] + SplitWs(s[n..])
  }

  /** Python's `int(s)` on text: surrounding whitespace, an optional sign, then one or
      more ASCII digits. `None` stands for the ValueError it raises otherwise. */
  function ParseInt(s: string): (r: Option<int>)
  {
    ParseSigned(Strip(s))
  }

  /** `int(t)` for text without surrounding whitespace. */
  function ParseSigned(t: string): (r: Option<int>)
    ensures r.Some? ==> exists k :: 0 <= k < |t| && IsDigit(t[k])
  {
    if |t| > 0 && (t[0] == '-' || t[0] == '+') then
      var d := t[1..];
      if |d| > 0 && AllDigits(d) then
        assert IsDigit(t[1]);
        var v: int := if t[0] == '-' then -(DigitsValue(d) as int) else DigitsValue(d);
        Some(v)
      else None
    else if |t| > 0 && AllDigits(t) then Some(DigitsValue(t))
    else None
  }

  /** `int(str(i)) == i`. */
  lemma ParseIntOfString(i: int)
    ensures ParseInt(IntToString(i)) == Some(i)
  {
    var s := IntToString(i);
    assert IsStripped(s);
    StripOfStripped(s);
    if i < 0 {
      assert s[1..] == NatToString(-i);
    }
  }

  predicate NoDigit(s: string) {
    forall i :: 0 <= i < |s| ==> !IsDigit(s[i])
  }

  lemma NoDigitSuffix(s: string, r: string)
    requires NoDigit(s) && |r| <= |s| && r == s[|s| - |r|..]
    ensures NoDigit(r)
  {
    forall k | 0 <= k < |r|
      ensures !IsDigit(r[k])
    {
      assert r[k] == s[|s| - |r| + k];
    }
  }

  lemma NoDigitPrefix(s: string, r: string)
    requires NoDigit(s) && |r| <= |s| && r == s[..|r|]
    ensures NoDigit(r)
  {
    forall k | 0 <= k < |r|
      ensures !IsDigit(r[k])
    {
      assert r[k] == s[k];
    }
  }

  /** Python's `int(s)` rejects text without a digit in it. */
  lemma ParseIntNeedsDigit(s: string)
    requires NoDigit(s)
    ensures ParseInt(s) == None
  {
    StripNoDigit(s);
  }

  /** Stripping keeps a text free of digits. */
  lemma StripNoDigit(s: string)
    requires NoDigit(s)
    ensures NoDigit(Strip(s))
  {
    var t := TrimStart(s);
    NoDigitSuffix(s, t);
    var r := TrimEnd(t);
    NoDigitPrefix(t, r);
    assert Strip(s) == r;
  }
}

=== FILE: values.dfy ===
/** The loosely typed values the program receives from `yaml.safe_load` and
    `json.loads`: null, booleans, integers, strings, lists and string-keyed mappings,
    with Python's truthiness, `dict.get` and `str()`. */
module Values {
  import opened Text

  datatype Value =
    | Null
    | Bool(b: bool)
    | Int(i: int)
    | Str(s: string)
    | List(items: seq<Value>)
    | Dict(fields: map<string, Value>)

  /** Python's `bool(v)`: `None`, `False`, `0` and empty strings and containers are false. */
  predicate Truthy(v: Value) {
    match v
    case Null => false
    case Bool(b) => b
    case Int(i) => i != 0
    case Str(s) => s != ""
    case List(xs) => xs != []
    case Dict(m) => m != map[]
  }

  /** `d.get(key, default)`. */
  function Get<V>(m: map<string, V>, key: string, default: V): (r: V)
    ensures key in m ==> r == m[key]
    ensures key !in m ==> r == default
  {
    if key in m then m[key] else default
  }

  /** How a list or a mapping is spelled by `str()`; taken as given. */
  type Spelling = Value -> string

  /** `str(v)` (also what an f-string inserts): scalars exactly, containers by `spell`. */
  function Show(v: Value, spell: Spelling): (r: string)
    ensures v.Str? ==> r == v.s
    ensures v.Int? ==> r == IntToString(v.i)
    ensures v.Null? ==> r == "None"
    ensures v.Bool? ==> r == (if v.b then "True" else "False")
  {
    match v
    case Null => "None"
    case Bool(b) => if b then "True" else "False"
    case Int(i) => IntToString(i)
    case Str(s) => s
    case List(_) => spell(v)
    case Dict(_) => spell(v)
  }
}

=== FILE: visual_locator.dfy ===
/** The Set-of-Mark locator: it keeps the nodes of the UI dump that look interactive and
    fit on the screen, numbers them 1..n, marks each on the screenshot with its number in
    a rotating colour, and resolves the classifier's answer by looking the number up. */
module VisualLocator {
  import opened Wrappers
  import opened Text
  import opened Bounds
  import opened Numbering
  import opened Locating
  import HierarchyLocator
  import Values

  type Node = HierarchyLocator.Node

  /** A marked element: its number, rectangle, centre point and the node it came from. */
  datatype VisualElement = VisualElement(id: nat, bounds: Rect, center: (int, int), node: Node) {
    function Width(): int {
      bounds.x2 - bounds.x1
    }

    function Height(): int {
      bounds.y2 - bounds.y1
    }
  }

  // ---------------------------------------------------------------------------
  // Which nodes get a mark

  predicate Flag(n: Node, key: string) {
    Values.Get(n, key, "false") == "true"
  }

  /** Clickable, long-clickable, checkable or focusable. */
  predicate Interactable(n: Node) {
    Flag(n, "clickable") || Flag(n, "long-clickable") || Flag(n, "checkable") || Flag(n, "focusable")
  }

  /** Some text or description; a resource id alone does not count. */
  predicate HasContent(n: Node) {
    Values.Get(n, "text", "") != "" || Values.Get(n, "content-desc", "") != ""
  }

  /** Covers at least 95% of the screen both ways: `w >= 0.95 * sw` in integers. */
  predicate FullScreen(b: Rect, screenW: int, screenH: int) {
    20 * b.Width() >= 19 * screenW && 20 * b.Height() >= 19 * screenH
  }

  predicate Tiny(b: Rect) {
    b.Width() < 20 || b.Height() < 20
  }

  predicate OffScreen(b: Rect, screenW: int, screenH: int) {
    b.x2 < 0 || b.y2 < 0 || b.x1 > screenW || b.y1 > screenH
  }

  /** Which nodes the extractor marks. */
  predicate Marked(n: Node, screenW: int, screenH: int) {
    var b := ParseBounds(Values.Get(n, "bounds", ""));
    && Values.Get(n, "bounds", "") != ""
    && (Interactable(n) || HasContent(n))
    && !FullScreen(b, screenW, screenH)
    && !Tiny(b)
    && !OffScreen(b, screenW, screenH)
  }

  /** The element made of a marked node, numbered `id`. */
  function ToElement(n: Node, id: nat): (e: VisualElement)
    ensures e.bounds == ParseBounds(Values.Get(n, "bounds", "")) && e.center == Center(e.bounds)
  {
    var b := ParseBounds(Values.Get(n, "bounds", ""));
    VisualElement(id, b, Center(b), n)
  }

  /** The marked nodes, in document order. */
  function MarkedNodes(nodes: seq<Node>, screenW: int, screenH: int): (r: seq<Node>)
    ensures |r| <= |nodes|
    ensures forall i :: 0 <= i < |r| ==> Marked(r[i], screenW, screenH)
  {
    if |nodes| == 0 then []
    else if Marked(nodes[0], screenW, screenH) then [nodes[0]] + MarkedNodes(nodes[1..], screenW, screenH)
    else MarkedNodes(nodes[1..], screenW, screenH)
  }

  /** What a marked element promises: at least 20 pixels each way, not (nearly) the whole
      screen, not off it, interactive or carrying text, and centred at the floor midpoint. */
  predicate Fits(e: VisualElement, screenW: int, screenH: int) {
    && e.Width() >= 20 && e.Height() >= 20
    && !FullScreen(e.bounds, screenW, screenH) && !OffScreen(e.bounds, screenW, screenH)
    && (Interactable(e.node) || HasContent(e.node))
    && e.center == Center(e.bounds)
  }

  /** The extraction loop: walk the nodes once, skipping as the filters say, and number each
      survivor with the counter `count`. */
  function MarkNodes(nodes: seq<Node>, count: nat, screenW: int, screenH: int): (r: seq<VisualElement>)
    ensures |r| <= |nodes|
    ensures forall i :: 0 <= i < |r| ==> r[i].id == count + i
    ensures forall i :: 0 <= i < |r| ==> Fits(r[i], screenW, screenH)
  {
    if |nodes| == 0 then []
    else
      var n := nodes[0];
      var boundsText := Values.Get(n, "bounds", "");
      if boundsText == "" then MarkNodes(nodes[1..], count, screenW, screenH)
      else if !(Interactable(n) || HasContent(n)) then MarkNodes(nodes[1..], count, screenW, screenH)
      else
        var b := ParseBounds(boundsText);
        if FullScreen(b, screenW, screenH) then MarkNodes(nodes[1..], count, screenW, screenH)
        else if Tiny(b) then MarkNodes(nodes[1..], count, screenW, screenH)
        else if OffScreen(b, screenW, screenH) then MarkNodes(nodes[1..], count, screenW, screenH)
        else [ToElement(n, count)] + MarkNodes(nodes[1..], count + 1, screenW, screenH)
  }

  /** The loop's filters on one node amount to `Marked`. */
  lemma MarkNodesStep(nodes: seq<Node>, count: nat, screenW: int, screenH: int)
    requires |nodes| > 0
    ensures Marked(nodes[0], screenW, screenH) ==>
              MarkNodes(nodes, count, screenW, screenH)
              == [ToElement(nodes[0], count)] + MarkNodes(nodes[1..], count + 1, screenW, screenH)
    ensures !Marked(nodes[0], screenW, screenH) ==>
              MarkNodes(nodes, count, screenW, screenH) == MarkNodes(nodes[1..], count, screenW, screenH)
  {
  }

  /** The extraction loop numbers exactly the marked nodes. */
  lemma {:induction false} MarkNodesIsNumbered(nodes: seq<Node>, count: nat, screenW: int, screenH: int)
    ensures MarkNodes(nodes, count, screenW, screenH) == Numbered(ToElement, MarkedNodes(nodes, screenW, screenH), count)
  {
    if |nodes| > 0 {
      MarkNodesStep(nodes, count, screenW, screenH);
      var kept := MarkedNodes(nodes, screenW, screenH);
      if Marked(nodes[0], screenW, screenH) {
        MarkNodesIsNumbered(nodes[1..], count + 1, screenW, screenH);
        assert kept[0] == nodes[0] && kept[1..] == MarkedNodes(nodes[1..], screenW, screenH);
      } else {
        MarkNodesIsNumbered(nodes[1..], count, screenW, screenH);
      }
    }
  }

  /** `_get_interactable_elements`: the marked nodes numbered from 1; XML that does not
      parse gives no element. */
  function InteractableElements(parsed: Option<seq<Node>>, screenW: int, screenH: int): (r: seq<VisualElement>)
    ensures parsed.None? ==> r == []
    ensures forall i :: 0 <= i < |r| ==> r[i].id == i + 1
  {
    match parsed
    case None => []
    case Some(nodes) => MarkNodes(nodes, 1, screenW, screenH)
  }

  /** Element `i` is marked node `i`, numbered `i + 1`. */
  lemma InteractableElementsAreMarked(nodes: seq<Node>, screenW: int, screenH: int)
    ensures var r := InteractableElements(Some(nodes), screenW, screenH);
            var kept := MarkedNodes(nodes, screenW, screenH);
            && |r| == |kept|
            && forall i :: 0 <= i < |r| ==> r[i] == ToElement(kept[i], i + 1)
  {
    MarkNodesIsNumbered(nodes, 1, screenW, screenH);
    NumberedAt(ToElement, MarkedNodes(nodes, screenW, screenH), 1);
  }

  // ---------------------------------------------------------------------------
  // The marks drawn on the screenshot

  const Palette: seq<string> := ["red", "blue", "green", "orange", "purple"]

  /** The outline colour of element `id`: the palette in turn. */
  function MarkColour(id: nat): (c: string)
    ensures c in Palette
  {
    Palette[id % 5]
  }

  /** The colours repeat every five ids, and two consecutive ids never share one. */
  lemma MarkColourCycle(id: nat)
    ensures MarkColour(id + 5) == MarkColour(id)
    ensures MarkColour(id + 1) != MarkColour(id)
  {
    assert (id + 5) % 5 == id % 5;
    assert (id + 1) % 5 == if id % 5 == 4 then 0 else id % 5 + 1;
  }

  /** Where the number is written: the top-left corner, moved down to 30 when it is
      higher than that. */
  function LabelAnchor(b: Rect): (p: (int, int))
    ensures p.0 == b.x1
    ensures p.1 >= 30 && p.1 >= b.y1
    ensures p.1 == b.y1 || p.1 == 30
  {
    (b.x1, if b.y1 < 30 then 30 else b.y1)
  }

  /** One mark: outline colour and rectangle, the number's text, its background box and
      where the text starts. `size` is the width and height of the text in the font. */
  datatype Mark = Mark(colour: string, outline: Rect, text: string, background: Rect, textAt: (int, int))

  function MarkOf(e: VisualElement, size: (nat, nat)): (m: Mark)
    ensures m.outline == e.bounds && m.colour == MarkColour(e.id)
    ensures DigitsValue(m.text) == e.id && AllDigits(m.text)
    ensures m.background.x1 == LabelAnchor(e.bounds).0 && m.background.y2 == LabelAnchor(e.bounds).1 + 5
    ensures m.background.Width() == size.0 + 10 && m.background.Height() == size.1 + 10
    ensures m.textAt == (m.background.x1 + 5, m.background.y1)
  {
    var (x, y) := LabelAnchor(e.bounds);
    var (w, h) := size;
    Mark(MarkColour(e.id), e.bounds, NatToString(e.id), Rect(x, y - h - 5, x + w + 10, y + 5), (x + 5, y - h - 5))
  }

  /** The drawing step without the pixels: one mark per element, in order; `measure` is the
      font's text size. */
  function DrawMarks(elements: seq<VisualElement>, measure: string -> (nat, nat)): (r: seq<Mark>)
    ensures |r| == |elements|
    ensures forall i :: 0 <= i < |r| ==> r[i] == MarkOf(elements[i], measure(NatToString(elements[i].id)))
  {
    seq(|elements|, i requires 0 <= i < |elements| => MarkOf(elements[i], measure(NatToString(elements[i].id))))
  }

  // ---------------------------------------------------------------------------
  // Resolution

  /** The device's screenshot bytes and page source at the time of the call, the node list
      the XML parser makes of the source (`None` when it does not parse), and the window size. */
  datatype Capture = Capture(screenshot: seq<bv8>, xml: string, nodes: Option<seq<Node>>,
                             width: int, height: int)

  /** The first element with number `id`. */
  function FindId(elements: seq<VisualElement>, id: int, from: nat): (r: Option<nat>)
    decreases |elements| - from
    ensures r.Some? ==> from <= r.value < |elements| && elements[r.value].id == id
    ensures r.Some? ==> forall j :: from <= j < r.value ==> elements[j].id != id
    ensures r.None? ==> forall j :: from <= j < |elements| ==> elements[j].id != id
  {
    if from >= |elements| then None
    else if elements[from].id == id then Some(from)
    else FindId(elements, id, from + 1)
  }

  /** With ids 1..n, the lookup finds id `k` at position `k - 1`, and nothing outside 1..n. */
  lemma FindIdNumbered(elements: seq<VisualElement>, id: int)
    requires forall i :: 0 <= i < |elements| ==> elements[i].id == i + 1
    ensures 1 <= id <= |elements| ==> FindId(elements, id, 0) == Some(id - 1)
    ensures !(1 <= id <= |elements|) ==> FindId(elements, id, 0) == None
  {
    if 1 <= id <= |elements| {
      assert elements[id - 1].id == id;
    }
  }

  /** How a reply's text is read as a number. */
  type Reading = string -> Option<int>

  /** `re.search(r'(\d+)', response)` as the code has it: the sign is lost. */
  function UnsignedReading(t: string): (r: Option<int>)
    ensures r == Magnitude(FirstSignedInt(t))
  {
    UnsignedIsMagnitude(t);
    match FirstUnsignedInt(t)
    case None => None
    case Some(k) => Some(k)
  }

  function ReplyRead(read: Reading, reply: Reply): Option<int> {
    match reply
    case Answer(t) => read(t)
    case Failure(_) => None
  }

  /** One attempt: a known id is picked; a `-1`, an unknown id, a reply with no number and a
      failed call are all tried again, and the exception of the first and last is swallowed. */
  function JudgeId(read: Reading, reply: Reply, elements: seq<VisualElement>): (v: Verdict)
    ensures v.Pick? <==> && ReplyRead(read, reply).Some? && ReplyRead(read, reply).value != -1
                         && FindId(elements, ReplyRead(read, reply).value, 0).Some?
    ensures v.Pick? ==> FindId(elements, ReplyRead(read, reply).value, 0) == Some(v.k)
    ensures v.Retry? ==> v.raised == None
  {
    match ReplyRead(read, reply)
    case None => Retry(None)
    case Some(k) =>
      if k == -1 then Retry(None)
      else match FindId(elements, k, 0)
        case Some(i) => Pick(i)
        case None => Retry(None)
  }

  datatype Found = Found(result: Result<VisualElement, LocateError>, calls: nat)

  /** The retry loop over elements numbered 1..n: a reply naming a known id selects that
      element; when no attempt does, the error is the generic "cannot locate". */
  function Resolve(read: Reading, elements: seq<VisualElement>, oracle: nat -> Reply, description: string,
                   retryCount: int): (r: Found)
    requires forall i :: 0 <= i < |elements| ==> elements[i].id == i + 1
    ensures r.calls <= Remaining(0, retryCount)
    ensures r.result.Ok? ==>
              && r.calls >= 1
              && ReplyRead(read, oracle(r.calls - 1)).Some?
              && var k := ReplyRead(read, oracle(r.calls - 1)).value;
              && 1 <= k <= |elements|
              && r.result.value == elements[k - 1]
    ensures r.result.Err? ==> r.result.error == CannotLocate(description) && r.calls == Remaining(0, retryCount)
    ensures forall j: nat :: j < r.calls - 1 ==> JudgeId(read, oracle(j), elements).Retry?
  {
    var judge := (j: nat) => JudgeId(read, oracle(j), elements);
    var t := Attempts(judge, description, 0, retryCount);
    assert forall j: nat :: j < t.calls - 1 ==> JudgeId(read, oracle(j), elements).Retry? by {
      forall j: nat | j < t.calls - 1 ensures JudgeId(read, oracle(j), elements).Retry? {
        assert judge(j) == JudgeId(read, oracle(j), elements);
      }
    }
    match t.result
    case Ok(i) =>
      var v := JudgeId(read, oracle(t.calls - 1), elements);
      assert judge(t.calls - 1) == v == Pick(i);
      FindIdNumbered(elements, ReplyRead(read, oracle(t.calls - 1)).value);
      Found(Ok(elements[i]), t.calls)
    case Err(e) =>
      var last := if t.calls > 0 then t.calls - 1 else 0;
      var v := JudgeId(read, oracle(last), elements);
      assert judge(last) == v;
      Found(Err(e), t.calls)
  }

  /** A success was read off the last reply: a call was made, `read` made a positive
      number of that reply, and the element found carries that number as its id. */
  predicate FoundByReading(read: Reading, oracle: nat -> Reply, f: Found) {
    f.result.Ok? ==>
      && f.calls >= 1 && ReplyRead(read, oracle(f.calls - 1)).Some?
      && ReplyRead(read, oracle(f.calls - 1)).value >= 1
      && f.result.value.id == ReplyRead(read, oracle(f.calls - 1)).value
  }

  /** `find_element` with reply reading `read`: fail without calling the classifier when the
      capture is empty or nothing is marked; else resolve the replies, reply `k` answering
      attempt `k`. */
  function FindElementWith(read: Reading, capture: Capture, oracle: nat -> Reply, description: string,
                           retryCount: int): (r: Found)
    ensures capture.screenshot == [] || capture.xml == "" ==> r == Found(Err(NoCapture), 0)
    ensures capture.screenshot != [] && capture.xml != ""
            ==> var elements := InteractableElements(capture.nodes, capture.width, capture.height);
                && (elements == [] ==> r == Found(Err(NoElements), 0))
                && (elements != [] ==> r == Resolve(read, elements, oracle, description, retryCount))
    ensures FoundByReading(read, oracle, r)
  {
    if capture.screenshot == [] || capture.xml == "" then Found(Err(NoCapture), 0)
    else
      var elements := InteractableElements(capture.nodes, capture.width, capture.height);
      FindAmong(read, elements, oracle, description, retryCount)
  }

  /** The search once the elements are marked: none to choose from, or the retry loop. */
  function FindAmong(read: Reading, elements: seq<VisualElement>, oracle: nat -> Reply, description: string,
                     retryCount: int): (r: Found)
    requires forall i :: 0 <= i < |elements| ==> elements[i].id == i + 1
    ensures elements == [] ==> r == Found(Err(NoElements), 0)
    ensures elements != [] ==> r == Resolve(read, elements, oracle, description, retryCount)
    ensures FoundByReading(read, oracle, r)
  {
    if |elements| == 0 then Found(Err(NoElements), 0)
    else Resolve(read, elements, oracle, description, retryCount)
  }

  /** `find_element` as written: the reply is read without its sign. */
  function FindElementAsWritten(capture: Capture, oracle: nat -> Reply, description: string,
                                retryCount: int): (r: Found)
    ensures capture.screenshot == [] || capture.xml == "" ==> r == Found(Err(NoCapture), 0)
    ensures FoundByReading(UnsignedReading, oracle, r)
  {
    FindElementWith(UnsignedReading, capture, oracle, description, retryCount)
  }

  /** The reply "-1" read both ways. */
  lemma ReadMinusOne()
    ensures UnsignedReading("-1") == Some(1)
    ensures FirstSignedInt("-1") == Some(-1)
  {
    var s := "-1";
    assert DigitRun(s, 2) == 0;
    assert DigitRun(s, 1) == 1;
    assert s[1..2] == "1";
    assert DigitsValue("1") == 1 by {
      assert "1"[..0] == "";
    }
    assert UnsignedIntFrom(s, 1) == Some(1);
  }

  /** As written, the "not found" answer `-1` is read as 1 and selects the first element. */
  lemma MinusOneSelectsFirstAsWritten(capture: Capture, oracle: nat -> Reply, description: string,
                                      retryCount: int)
    requires capture.screenshot != [] && capture.xml != ""
    requires InteractableElements(capture.nodes, capture.width, capture.height) != []
    requires retryCount >= 1 && oracle(0) == Answer("-1")
    ensures var elements := InteractableElements(capture.nodes, capture.width, capture.height);
            && FindElementAsWritten(capture, oracle, description, retryCount) == Found(Ok(elements[0]), 1)
            && elements[0].id == 1
  {
    var elements := InteractableElements(capture.nodes, capture.width, capture.height);
    ReadMinusOne();
    FindIdNumbered(elements, 1);
    var judge := (j: nat) => JudgeId(UnsignedReading, oracle(j), elements);
    assert judge(0) == Pick(0);
    AttemptsTakeFirstPick(judge, description, retryCount, 0);
  }

  /** `find_element` as evidently intended: the reply is read with its sign, so the
      "not found" answer `-1` is not an id. */
  function FindElement(capture: Capture, oracle: nat -> Reply, description: string,
                       retryCount: int): (r: Found)
    ensures FoundByReading(FirstSignedInt, oracle, r)
  {
    FindElementWith(FirstSignedInt, capture, oracle, description, retryCount)
  }

  /** A classifier that only ever answers `-1` selects nothing. */
  lemma MinusOneNeverSelects(capture: Capture, oracle: nat -> Reply, description: string, retryCount: int)
    requires forall j :: oracle(j) == Answer("-1")
    ensures FindElement(capture, oracle, description, retryCount).result.Err?
  {
    ReadMinusOne();
  }

  /** Once something is marked, the lookup succeeds exactly when some attempt's reply
      names one of the ids 1..n. */
  lemma FindElementSucceedsIff(capture: Capture, oracle: nat -> Reply, description: string, retryCount: int)
    requires capture.screenshot != [] && capture.xml != ""
    requires InteractableElements(capture.nodes, capture.width, capture.height) != []
    ensures var n := |InteractableElements(capture.nodes, capture.width, capture.height)|;
            FindElement(capture, oracle, description, retryCount).result.Ok?
            <==> exists j: nat :: j < retryCount && ReplyRead(FirstSignedInt, oracle(j)).Some?
                                  && 1 <= ReplyRead(FirstSignedInt, oracle(j)).value <= n
  {
    var elements := InteractableElements(capture.nodes, capture.width, capture.height);
    ResolveSucceedsIff(FirstSignedInt, elements, oracle, description, retryCount);
    forall j: nat
      ensures JudgeId(FirstSignedInt, oracle(j), elements).Pick?
              <==> ReplyRead(FirstSignedInt, oracle(j)).Some? && 1 <= ReplyRead(FirstSignedInt, oracle(j)).value <= |elements|
    {
      var v := ReplyRead(FirstSignedInt, oracle(j));
      if v.Some? {
        FindIdNumbered(elements, v.value);
      }
    }
  }

  /** The retry loop succeeds exactly when some attempt within the bound picks an element. */
  lemma ResolveSucceedsIff(read: Reading, elements: seq<VisualElement>, oracle: nat -> Reply, description: string,
                           retryCount: int)
    requires forall i :: 0 <= i < |elements| ==> elements[i].id == i + 1
    ensures Resolve(read, elements, oracle, description, retryCount).result.Ok?
            <==> exists j: nat :: j < retryCount && JudgeId(read, oracle(j), elements).Pick?
  {
    var judge := (j: nat) => JudgeId(read, oracle(j), elements);
    AttemptsSucceedIff(judge, description, retryCount);
    assert forall j: nat :: judge(j) == JudgeId(read, oracle(j), elements);
  }

  /** `get_text` of an element: its node's text, else its description, else empty. */
  function ElementText(e: VisualElement): (r: string)
    ensures r == "" <==> Values.Get(e.node, "text", "") == "" && Values.Get(e.node, "content-desc", "") == ""
    ensures Values.Get(e.node, "text", "") != "" ==> r == Values.Get(e.node, "text", "")
    ensures Values.Get(e.node, "text", "") == "" ==> r == Values.Get(e.node, "content-desc", "")
  {
    var t := Values.Get(e.node, "text", "");
    if t != "" then t else Values.Get(e.node, "content-desc", "")
  }

  /** `get_text`: locate the element with the reply reading `read`, then read its text; a
      failed lookup is passed on. The code as written reads with `UnsignedReading`. */
  function GetText(read: Reading, capture: Capture, oracle: nat -> Reply, description: string, retryCount: int)
    : (r: Result<string, LocateError>)
    ensures var f := FindElementWith(read, capture, oracle, description, retryCount);
            && (r.Ok? <==> f.result.Ok?)
            && (r.Ok? ==> r.value == ElementText(f.result.value))
            && (r.Err? ==> r.error == f.result.error)
  {
    var f := FindElementWith(read, capture, oracle, description, retryCount);
    match f.result
    case Ok(e) => Ok(ElementText(e))
    case Err(err) => Err(err)
  }

  /** As written, `get_text` answered "-1" on its first attempt returns the text of the
      first marked element; read with the sign, the same answer is rejected. */
  lemma GetTextMinusOne(capture: Capture, oracle: nat -> Reply, description: string, retryCount: int)
    requires capture.screenshot != [] && capture.xml != ""
    requires InteractableElements(capture.nodes, capture.width, capture.height) != []
    requires retryCount >= 1 && oracle(0) == Answer("-1")
    ensures var elements := InteractableElements(capture.nodes, capture.width, capture.height);
            GetText(UnsignedReading, capture, oracle, description, retryCount) == Ok(ElementText(elements[0]))
    ensures var signed := FindElementWith(FirstSignedInt, capture, oracle, description, retryCount);
            signed.result.Ok? ==> signed.calls >= 2
  {
    MinusOneSelectsFirstAsWritten(capture, oracle, description, retryCount);
    ReadMinusOne();
  }
}

=== FILE: wrappers.dfy ===
/** Failure-carrying result types shared by every module of the model.
    Python code signals failure by raising; here a raise becomes `Err`. */
module Wrappers {

  datatype Option<+T> = None | Some(value: T) {
    function GetOr(default: T): T {
      match this
      case Some(v) => v
      case None => default
    }
  }

  datatype Result<+T, +E> = Ok(value: T) | Err(error: E) {
    predicate IsFailure() {
      Err?
    }

    function PropagateFailure<U>(): Result<U, E>
      requires Err?
    {
      Err(error)
    }

    function Extract(): T
      requires Ok?
    {
      value
    }
  }
}

=== FILE: yaml_converter.dfy ===
/** The YAML-to-Robot converter: a test definition (a mapping with a `name` and a
    tree of `steps`) becomes a Robot Framework script whose nested blocks are
    expressed by four-space indentation. */
module YamlConverter {
  import opened Wrappers
  import opened Text
  import opened Values

  datatype ConvertError =
    | InvalidYaml(message: string)   // the ValueError `convert` raises
    | NotIterable                    // a TypeError while walking the steps
    | NoGet                          // an AttributeError: `.get` on a non-mapping

  /** Robot's cell separator, which is also one level of indentation. */
  const Sep := "    "

  const Header := ["*** Settings ***", "Library    src/robot_lib/AITestLibrary.py", "", "*** Test Cases ***"]
  const DefaultName := "Test Case"

  /** `"    " * level`. */
  function Indent(level: nat): (r: string)
    ensures |r| == 4 * level
    ensures forall i :: 0 <= i < |r| ==> r[i] == ' '
  {
    if level == 0 then "" else Sep + Indent(level - 1)
  }

  /** The keys that make a mapping a step, in the order they are tested. */
  predicate IsStepKey(key: string) {
    key == "action" || key == "loop" || key == "try" || key == "while"
  }

  /** Which kind of step a mapping is: the first step key it has. */
  function StepKind(m: map<string, Value>): Option<string> {
    if "action" in m then Some("action")
    else if "loop" in m then Some("loop")
    else if "try" in m then Some("try")
    else if "while" in m then Some("while")
    else None
  }

  /** The arguments of an action: a list as it stands, anything else as a one-element list. */
  function ArgsOf(args: Value): seq<Value> {
    if args.List? then args.items else [args]
  }

  function Shows(xs: seq<Value>, spell: Spelling): (r: seq<string>)
    ensures |r| == |xs|
  {
    if |xs| == 0 then [] else [Show(xs[0], spell)] + Shows(xs[1..], spell)
  }

  /** One action line: keyword, then the stringified arguments, separated by cells. */
  function ActionLine(level: nat, keyword: Value, args: Value, spell: Spelling): string {
    var cells := Shows(ArgsOf(args), spell);
    Indent(level) + Show(keyword, spell) + (if cells == [] then "" else Sep + Join(cells, Sep))
  }

  /** A scalar argument is the same as a list holding just it. */
  lemma ScalarArgWrapped(level: nat, keyword: Value, arg: Value, spell: Spelling)
    requires !arg.List?
    ensures ActionLine(level, keyword, arg, spell) == ActionLine(level, keyword, List([arg]), spell)
  {
  }

  /** The number of lines a step tree converts to: one per action, two plus the body for
      a loop or a while, three plus both bodies for a try. */
  function CountSteps(v: Value): nat
    decreases v, 2, 0
  {
    if v.List? then CountItems(v, 0) else 0
  }

  function CountItems(v: Value, i: nat): nat
    requires v.List? && i <= |v.items|
    decreases v, 1, |v.items| - i
  {
    if i == |v.items| then 0 else CountStep(v.items[i]) + CountItems(v, i + 1)
  }

  function CountBody(m: map<string, Value>): nat
    decreases Dict(m), 0, 1
  {
    if "steps" in m then CountSteps(m["steps"]) else 0
  }

  function CountStep(step: Value): nat
    decreases step, 0, 2
  {
    if !step.Dict? then 0
    else
      var m := step.fields;
      match StepKind(m)
      case None => 0
      case Some(kind) =>
        if kind == "action" then 1
        else if kind == "loop" || kind == "while" then 2 + CountBody(m)
        else
          var t := m["try"];
          3 + (if t.Dict? then CountBody(t.fields) else 0)
            + (if "except" in m && m["except"].Dict? then CountBody(m["except"].fields) else 0)
  }

  /** A Robot block: the opener, the body one level deeper, and `END`. */
  function Block(level: nat, opener: string, body: seq<string>): seq<string> {
    [Indent(level) + opener] + body + [Indent(level) + "END"]
  }

  predicate IndentedBy(lines: seq<string>, level: nat) {
    forall i :: 0 <= i < |lines| ==> Indent(level) <= lines[i]
  }

  lemma DeeperIsIndented(level: nat)
    ensures Indent(level) <= Indent(level + 1)
    decreases level
  {
    if level > 0 {
      DeeperIsIndented(level - 1);
    }
  }

  lemma BlockIndented(level: nat, opener: string, body: seq<string>)
    requires IndentedBy(body, level)
    ensures IndentedBy(Block(level, opener, body), level)
  {
    var b := Block(level, opener, body);
    forall i | 0 <= i < |b|
      ensures Indent(level) <= b[i]
    {
      if 0 < i < |b| - 1 {
        assert b[i] == body[i - 1];
      }
    }
  }

  /** Lines indented one level deeper are indented at this level too. */
  lemma Shallower(lines: seq<string>, level: nat)
    requires IndentedBy(lines, level + 1)
    ensures IndentedBy(lines, level)
  {
    DeeperIsIndented(level);
  }

  lemma ConcatIndented(a: seq<string>, b: seq<string>, level: nat)
    requires IndentedBy(a, level) && IndentedBy(b, level)
    ensures IndentedBy(a + b, level)
  {
    forall i | 0 <= i < |a + b|
      ensures Indent(level) <= (a + b)[i]
    {
      if i >= |a| {
        assert (a + b)[i] == b[i - |a|];
      }
    }
  }

  /** Whether `word in text` holds for one of the step keys; this is what testing a
      string for a key asks. */
  predicate MentionsStepKey(text: string) {
    Contains(text, "action") || Contains(text, "loop") || Contains(text, "try") || Contains(text, "while")
  }

  /** `_convert_steps`: a list is converted item by item. Iterating a string yields its
      characters, which hold no key; iterating a mapping yields its keys, and a key that
      holds a step key cannot be indexed by it; anything else cannot be iterated. */
  function ConvertSteps(v: Value, level: nat, spell: Spelling): (r: Result<seq<string>, ConvertError>)
    decreases v, 3, 0
    ensures r.Ok? ==> |r.value| == CountSteps(v) && IndentedBy(r.value, level)
    ensures r.Err? ==> !r.error.InvalidYaml?
    ensures v.Null? || v.Bool? || v.Int? ==> r == Err(NotIterable)
  {
    match v
    case List(xs) => ConvertItems(v, 0, level, spell)
    case Str(_) => Ok([])
    case Dict(m) => if exists k | k in m :: MentionsStepKey(k) then Err(NotIterable) else Ok([])
    case _ => Err(NotIterable)
  }

  /** The items of the list `v` from the `i`-th on, their lines one after the other. */
  function ConvertItems(v: Value, i: nat, level: nat, spell: Spelling): (r: Result<seq<string>, ConvertError>)
    requires v.List? && i <= |v.items|
    decreases v, 2, |v.items| - i
    ensures r.Ok? ==> |r.value| == CountItems(v, i) && IndentedBy(r.value, level)
    ensures r.Err? ==> !r.error.InvalidYaml?
  {
    if i == |v.items| then Ok([])
    else
      var first :- ConvertStep(v.items[i], level, spell);
      var rest :- ConvertItems(v, i + 1, level, spell);
      ConcatIndented(first, rest, level);
      Ok(first + rest)
  }

  /** The `steps` of a mapping, if it has any. */
  function ConvertBody(m: map<string, Value>, level: nat, spell: Spelling): (r: Result<seq<string>, ConvertError>)
    decreases Dict(m), 1, 0
    ensures r.Ok? ==> |r.value| == CountBody(m) && IndentedBy(r.value, level)
    ensures r.Err? ==> !r.error.InvalidYaml?
  {
    if "steps" in m then ConvertSteps(m["steps"], level, spell) else Ok([])
  }

  /** One step: the first step key of a mapping decides what it becomes; a mapping with
      none becomes nothing; a string or list that holds a key cannot be indexed by it. */
  function ConvertStep(step: Value, level: nat, spell: Spelling): (r: Result<seq<string>, ConvertError>)
    decreases step, 2, 0
    ensures r.Ok? ==> |r.value| == CountStep(step) && IndentedBy(r.value, level)
    ensures r.Err? ==> !r.error.InvalidYaml?
    ensures step.Dict? && StepKind(step.fields).None? ==> r == Ok([])
    ensures step.Dict? && StepKind(step.fields) == Some("action") ==>
              r == Ok([ActionLine(level, step.fields["action"], Get(step.fields, "args", List([])), spell)])
  {
    match step
    case Dict(m) => ConvertMapping(m, level, spell)
    case Str(s) => if MentionsStepKey(s) then Err(NotIterable) else Ok([])
    case List(xs) => if exists k | k in xs :: k.Str? && IsStepKey(k.s) then Err(NotIterable) else Ok([])
    case _ => Err(NotIterable)
  }

  function ConvertMapping(m: map<string, Value>, level: nat, spell: Spelling): (r: Result<seq<string>, ConvertError>)
    decreases Dict(m), 1, 1
    ensures r.Ok? ==> |r.value| == CountStep(Dict(m)) && IndentedBy(r.value, level)
    ensures r.Err? ==> !r.error.InvalidYaml?
  {
    match StepKind(m)
    case None => Ok([])
    case Some(kind) =>
      if kind == "action" then
        Ok([ActionLine(level, m["action"], Get(m, "args", List([])), spell)])
      else if kind == "loop" || kind == "while" then
        var opener := if kind == "loop" then "FOR    ${i}    IN RANGE    " + Show(m["loop"], spell)
                      else "WHILE    " + Show(m["while"], spell);
        var body :- ConvertBody(m, level + 1, spell);
        Shallower(body, level);
        BlockIndented(level, opener, body);
        Ok(Block(level, opener, body))
      else
        var t := m["try"];
        if !t.Dict? then Err(NoGet)
        else if "except" in m && !m["except"].Dict? then Err(NoGet)
        else
          var tryBody :- ConvertBody(t.fields, level + 1, spell);
          var exceptBody :- if "except" in m then ConvertBody(m["except"].fields, level + 1, spell) else Ok([]);
          TryIndented(level, tryBody, exceptBody);
          Ok(Block(level, "TRY", tryBody + [Indent(level) + "EXCEPT"] + exceptBody))
  }

  /** A loop or while step is its opener at the step's indentation, the converted
      `steps` one level deeper, and `END` at the step's indentation again. */
  lemma LoopFramesBody(m: map<string, Value>, level: nat, spell: Spelling)
    requires StepKind(m) == Some("loop") || StepKind(m) == Some("while")
    requires ConvertBody(m, level + 1, spell).Ok?
    ensures var r, body := ConvertMapping(m, level, spell), ConvertBody(m, level + 1, spell).value;
            && r.Ok? && |r.value| == |body| + 2
            && r.value[0] == Indent(level) + (if "loop" in m then "FOR    ${i}    IN RANGE    " + Show(m["loop"], spell)
                                              else "WHILE    " + Show(m["while"], spell))
            && r.value[1..|body| + 1] == body
            && r.value[|body| + 1] == Indent(level) + "END"
            && IndentedBy(body, level + 1)
  {
    var body := ConvertBody(m, level + 1, spell).value;
    var r := ConvertMapping(m, level, spell).value;
    assert r[1..|body| + 1] == body;
  }

  /** A try step is `TRY`, the `try` part's steps, `EXCEPT`, the `except` part's steps
      (none without one) and `END`, the three keywords at the step's indentation. */
  lemma TryFramesBodies(m: map<string, Value>, level: nat, spell: Spelling)
    requires StepKind(m) == Some("try") && m["try"].Dict?
    requires "except" in m ==> m["except"].Dict?
    requires ConvertBody(m["try"].fields, level + 1, spell).Ok?
    requires "except" in m ==> ConvertBody(m["except"].fields, level + 1, spell).Ok?
    ensures var tryBody := ConvertBody(m["try"].fields, level + 1, spell).value;
            var exceptBody := if "except" in m then ConvertBody(m["except"].fields, level + 1, spell).value else [];
            ConvertMapping(m, level, spell) ==
              Ok([Indent(level) + "TRY"] + tryBody + [Indent(level) + "EXCEPT"] + exceptBody + [Indent(level) + "END"])
  {
    var tryBody := ConvertBody(m["try"].fields, level + 1, spell).value;
    var exceptBody := if "except" in m then ConvertBody(m["except"].fields, level + 1, spell).value else [];
    var open, close := [Indent(level) + "TRY"], [Indent(level) + "END"];
    assert Block(level, "TRY", tryBody + [Indent(level) + "EXCEPT"] + exceptBody)
        == open + tryBody + [Indent(level) + "EXCEPT"] + exceptBody + close;
  }

  lemma TryIndented(level: nat, tryBody: seq<string>, exceptBody: seq<string>)
    requires IndentedBy(tryBody, level + 1) && IndentedBy(exceptBody, level + 1)
    ensures IndentedBy(Block(level, "TRY", tryBody + [Indent(level) + "EXCEPT"] + exceptBody), level)
  {
    Shallower(tryBody, level);
    Shallower(exceptBody, level);
    var except := [Indent(level) + "EXCEPT"];
    assert IndentedBy(except, level);
    ConcatIndented(tryBody, except, level);
    ConcatIndented(tryBody + except, exceptBody, level);
    BlockIndented(level, "TRY", tryBody + except + exceptBody);
  }

  /** `convert`: the parsed document (or the parser's complaint) to a script. */
  function Convert(parsed: Result<Value, string>, spell: Spelling): (r: Result<string, ConvertError>)
    ensures parsed.Err? ==> r == Err(InvalidYaml("YAML 解析失败: " + parsed.error))
    ensures parsed.Ok? && !parsed.value.Dict? ==> r == Err(InvalidYaml("YAML 根节点必须是对象"))
    ensures r.Err? && r.error.InvalidYaml? ==> parsed.Err? || !parsed.value.Dict?
  {
    match parsed
    case Err(m) => Err(InvalidYaml("YAML 解析失败: " + m))
    case Ok(v) =>
      if !v.Dict? then Err(InvalidYaml("YAML 根节点必须是对象"))
      else
        var name := Show(Get(v.fields, "name", Str(DefaultName)), spell);
        var body :- ConvertSteps(Get(v.fields, "steps", List([])), 1, spell);
        Ok(BuildScript(name, body))
  }

  /** `_build_robot_script`: the header, the test's name, then its steps, one per line. */
  function BuildScript(name: string, body: seq<string>): (r: string)
    ensures '\n' !in name && (forall i :: 0 <= i < |body| ==> '\n' !in body[i]) ==>
              Split(r, '\n') == Header + [name] + body
  {
    var lines := Header + [name] + body;
    LinesSplitBack(lines);
    assert forall i :: 0 <= i < |Header| ==> '\n' !in Header[i];
    Join(lines, "\n")
  }

  /** The header lines, each ended by a line break. */
  const HeaderText := Header[0] + "\n" + Header[1] + "\n" + Header[2] + "\n" + Header[3] + "\n"

  /** Every script starts with the fixed header and the test's name, followed by the
      steps on lines of their own. */
  lemma BuildScriptShape(name: string, body: seq<string>)
    ensures body == [] ==> BuildScript(name, body) == HeaderText + name
    ensures body != [] ==> BuildScript(name, body) == HeaderText + name + "\n" + Join(body, "\n")
  {
    HeaderJoined();
    var head := Header + [name];
    JoinAppend(Header, [name], "\n");
    assert Join(head, "\n") == HeaderText + name;
    if body != [] {
      JoinAppend(head, body, "\n");
    } else {
      assert head + body == head;
    }
  }

  /** The header lines joined by line breaks, with one more after the last. */
  lemma HeaderJoined()
    ensures Join(Header, "\n") + "\n" == HeaderText
  {
    assert Join(Header[3..], "\n") == Header[3];
    assert Join(Header[2..], "\n") == Header[2] + "\n" + Join(Header[3..], "\n");
    assert Header[1..][1..] == Header[2..] && Header[2..][1..] == Header[3..];
    assert Join(Header[1..], "\n") == Header[1] + "\n" + Join(Header[2..], "\n");
    assert Join(Header, "\n") == Header[0] + "\n" + Join(Header[1..], "\n");
  }

  /** A document without a name or steps converts to the header and the default name. */
  lemma ConvertDefaults(spell: Spelling)
    ensures Convert(Ok(Dict(map[])), spell) == Ok(HeaderText + DefaultName)
  {
    BuildScriptShape(DefaultName, []);
  }
}
